=== FILE: README.md ===
# ARM assembler core, modelled in Dafny

This project models the two-pass assembler of a small ARM (ARMv2-style)
toolchain. It also models the helpers and tables the assembler is built on.
The model is written as pure Dafny functions over immutable data.

- **Tokeniser and classifiers.** `tokenise` cuts a line at spaces, commas
  and newlines. `getType` then classifies each token as a label, a `#` or
  `=` expression, a mnemonic, a register or undefined (module `Lexer`).
- **Numerals.** `getHex`, `getDec` (through C's `atoi`) and the 8-bit
  rotated immediate encoding of `getExpression` (modules `Numerals` and
  `Immediate`).
- **The four instruction encoders.** `decodeDataProcessing`,
  `decodeMultiply`, `decodeSingleDataTransfer` with `getAddress`, and
  `decodeBranch`, plus the `decode` dispatch (module `Encoders`). The bit
  layout of each instruction word is in module `Layout`.
- **The two passes and `main`.** The first pass binds every label to the
  number of instructions before it and counts instructions and `ldr`s. The
  second pass decodes every line, appends the literal pool and reports
  errors (module `Passes`).
- **The lookup tables.** The class, opcode, condition and data-type tables
  of `src/mappings.h` are the ones the assembler includes (module
  `Mappings`). The later `src/mappings.c` revision adds `lsr`, `asr`,
  `ror` and a shift table (module `MappingsRevised`).
- **The ADTs of `src/adts.h`.** The association list (`get`, `put`,
  `lookup`) and the double-ended vector (`putFront`, `putBack`, `getFront`,
  `getBack`, `peekFront`, `peekBack`), in module `Adts`.
- **The emulator's bit helpers.** The getters and arithmetic helpers of
  `src/instructionManipulation.c` (module `Bits`). The assembler's round-trip
  lemmas use them to read back the fields of every word it produces.

Words are `bv32`. The source's C `int` arithmetic is written out on `bv32`,
with its arithmetic shifts made explicit. On the assembler's own paths,
undefined behaviour in the arithmetic and control flow is explicit too. A
computation there that can reach it returns `Diagnostics.Outcome`: either
`Defined(value)` or `UndefinedBehaviour`. Examples are a signed overflow in
`getHex` or `atoi`, a branch to a label that was never defined (an
uninitialised `target`), an empty bracket part in `getAddress`, an
instruction array of length 0 in `main`, and the `signBit << 31` of
`arShift`. Memory misuse is not modelled: `tokenise` frees every token it
links, so both passes read freed memory, and "## Left out" says what the
model assumes instead.
Some emulator helpers left-shift a signed `int` past its range. For those the
model gives the two's-complement result, and "## Left out" names each one. Error messages are modelled as
`Diagnostics.Error(line, kind, token)` records in the order they are thrown.

Where the code departs from the usual ARM assembly syntax, the model follows the code:

- Immediates: the code accepts digits only after `#` or `=`. It does not
  accept a sign (`#-4`), which ARM assembly allows.
- `getAddress` hands any second bracket part to `getExpression` without
  checking its type. A register offset `[Rn, Rm]` is therefore read as the
  immediate offset m, and an `=` offset goes in unrotated and unmasked. Only
  a `#` expression after the bracket makes an address post-indexed. There is
  no `-` sign, and the U bit is always 1.
- The conditions table has no `al` entry, so `bal` is no branch mnemonic.
- `str Rd, <address>` reads nothing after Rd. The word always stores Rd
  post-indexed at offset 0 from r15, and the address tokens are then
  reported as undefined instructions.
- A small `ldr Rd, =c` is rewritten as `mov Rd, =c`, not `mov Rd, #c`.
  `Encoders.LdrSmallConstantIsMov` proves the two assemble to the same word.

## Model

| member | source | states |
|---|---|---|
| Adts.Lookup | src/adts.h:29-40 | found exactly when some node has the key; if found, `ptr` is the first such node; if not, `ptr` is the last node, or none for an empty map |
| Adts.LookupFrom | src/adts.h:31-39 | the scan from node i on finds the first match at or after i, and otherwise leaves `ptr` at the last node |
| Adts.Get | src/adts.h:4-6 | a value exactly when the key is present; that value belongs to an entry with the key; with unique keys it is that entry's value |
| Adts.FirstMatchUnique | src/adts.h:29-40 | `get` returns the value of the first node whose key matches |
| Adts.SameKeysSameGet | src/adts.h:4-6 | two maps with the same keys in the same order, which agree on the values for key k, agree on `get(k)` |
| Adts.GetAfterAppend | src/adts.h:19-25 | appending a node for another key leaves `get` of k unchanged |
| Adts.Put | src/adts.h:8-27 | afterwards `get(key)` is the new value and every other key reads as before; an existing key is updated in place and a new key goes at the end; unique keys stay unique |
| Adts.PutFront | src/adts.h:53-67 | the value becomes the first element, followed by the old contents |
| Adts.PutBack | src/adts.h:69-83 | the value becomes the last element, after the old contents |
| Adts.GetFront | src/adts.h:97-113 | putting the returned value back at the front restores the vector |
| Adts.GetBack | src/adts.h:115-131 | corrected `getBack`: putting the returned value back at the end restores the vector |
| Adts.GetBackAsWritten | src/adts.h:115-131 | `getBack` as written returns the FRONT value (`peekFront`) while leaving the same vector as the corrected one, so `putBack` of its result restores the vector only when the first and last values are equal |
| Adts.GetBackAsWrittenReturnsFront | src/adts.h:118 | for the vector "a","b", `getBack` as written returns "a" where "b" was evidently intended |
| Adts.Reverse | src/adts.h:53-67 | the reversal that repeated `putFront` produces: same length, element i is element n-1-i |
| Adts.DrainIsContents | src/adts.h:97-113 | draining a vector with `getFront` yields its contents in order |
| Adts.PutBackAllAppends | src/adts.h:69-83 | repeated `putBack` appends the values in order |
| Adts.PutFrontAllPrepends | src/adts.h:53-67 | repeated `putFront` prepends the values in reverse order |
| Adts.FifoOrder | src/adts.h:69-113 | `putBack` then `getFront` is first in, first out (label queue, literal pool, error vector) |
| Adts.LifoOrder | src/adts.h:53-113 | `putFront` then `getFront` is last in, first out |
| Adts.IsEmpty | src/adts.h:133-135 | `isEmpty`; PutFront and PutBack never leave a vector empty, and Adts.DrainStep gives the draining loops' exit test |
| Adts.DrainStep | src/assemble.c:158-163 | after a `getFront`, the vector is empty exactly when it held one value, and each pass shortens it by one |
| Adts.Contains | src/adts_interface.h:83 | `contains`; Adts.ContainsQueued and Adts.ContainsAfterGetFront state how it follows the queue |
| Adts.ContainsQueued | src/assemble.c:134-140 | no label is in an empty queue, and after `putBack` exactly the queued labels and the new one are |
| Adts.ContainsAfterGetFront | src/assemble.c:158-163 | a label is in the queue exactly when it is the front value or in what `getFront` leaves |
| Adts.PeekFront | src/adts.h:85-89 | the value `getFront` would return; putting it back in front of the rest gives the vector |
| Adts.PeekBack | src/adts.h:91-95 | the value the corrected `getBack` would return; putting it back after the rest gives the vector |
| Bits.GetByteBigEndian | src/instructionManipulation.c:154-162 | an index below 4 gives a byte; any other index gives -1 |
| Bits.SetByte | src/instructionManipulation.c:143-152 | an index of 4 or more gives -1 |
| Bits.SetThenGetByte | src/instructionManipulation.c:143-162 | reading back the byte just set returns it |
| Bits.SetByteKeepsOthers | src/instructionManipulation.c:143-162 | setting one byte leaves the other three unchanged |
| Bits.LittleEndianReversesBytes | src/instructionManipulation.c:3-12 | byte i of the converted word is byte 3-i of the original |
| Bits.LittleEndianInvolution | src/instructionManipulation.c:3-12 | converting twice gives back the word |
| Bits.ConvertToLittleEndian | src/instructionManipulation.c:3-12 | the byte swap; its contract is carried by Bits.LittleEndianReversesBytes and Bits.LittleEndianInvolution |
| Bits.IsMult | src/instructionManipulation.c:14-26 | a multiply exactly when bits 25-22 are zero and bits 7-4 are 1001 |
| Bits.ExtractIdBits | src/instructionManipulation.c:28-31 | a 2-bit class field |
| Bits.GetCond | src/instructionManipulation.c:244-251 | a 4-bit condition field |
| Bits.CondOfWord | src/instructionManipulation.c:244-251 | reads back the condition placed in bits 31-28 |
| Bits.GetShiftRegister | src/instructionManipulation.c:35-38 | a 4-bit register field |
| Bits.GetShiftType | src/instructionManipulation.c:60-63 | a 2-bit shift type |
| Bits.GetOpcode | src/instructionManipulation.c:95-98 | a 4-bit opcode field |
| Bits.GetRotate | src/instructionManipulation.c:100-103 | a 4-bit rotate field |
| Bits.GetImm | src/instructionManipulation.c:105-108 | an 8-bit immediate |
| Bits.GetShift | src/instructionManipulation.c:110-113 | an 8-bit shift field |
| Bits.GetRm | src/instructionManipulation.c:115-118 | a 4-bit register field |
| Bits.GetSBit | src/instructionManipulation.c:121-124 | a single bit |
| Bits.GetIBit | src/instructionManipulation.c:126-129 | a single bit |
| Bits.GetRn | src/instructionManipulation.c:131-134 | a 4-bit register field |
| Bits.GetRdest | src/instructionManipulation.c:136-139 | a 4-bit register field |
| Bits.GetOffsetDataTransfer | src/instructionManipulation.c:164-167 | a 12-bit offset |
| Bits.GetISingle | src/instructionManipulation.c:169-172 | the transfer I bit is the data-processing I bit, as the source reuses `getIBit`; Layout.TransferFields reads it back |
| Bits.GetPBit | src/instructionManipulation.c:174-177 | a single bit |
| Bits.GetUBit | src/instructionManipulation.c:179-182 | a single bit |
| Bits.GetLBit | src/instructionManipulation.c:184-187 | a single bit |
| Bits.GetRnSingle | src/instructionManipulation.c:189-192 | the transfer Rn is the data-processing Rn field; Layout.TransferFields reads it back |
| Bits.GetRdSingle | src/instructionManipulation.c:194-197 | the transfer Rd is the data-processing Rd field; Layout.TransferFields reads it back |
| Bits.GetABit | src/instructionManipulation.c:203-206 | a single bit |
| Bits.GetSBitMul | src/instructionManipulation.c:208-211 | a single bit |
| Bits.GetRdMul | src/instructionManipulation.c:213-216 | the multiply Rd is bits 19-16, read with `getRn`; Layout.MultiplyFields reads it back |
| Bits.GetRnMul | src/instructionManipulation.c:218-220 | the multiply Rn is bits 15-12, read with `getRdest`; Layout.MultiplyFields reads it back |
| Bits.GetRsMul | src/instructionManipulation.c:222-225 | a 4-bit register field |
| Bits.GetRmMul | src/instructionManipulation.c:227-230 | a 4-bit register field |
| Bits.GetOffset | src/instructionManipulation.c:236-239 | a 24-bit branch offset |
| Bits.GetLSbit | src/instructionManipulation.c:86-89 | 1 exactly when the value is odd |
| Bits.IsZero | src/instructionManipulation.c:65-67 | true exactly when each of the four bytes `getByteBigEndian` reads is zero |
| Bits.GetBitAtPosition | src/instructionManipulation.c:41-49 | position 0 gives 0; position n gives bit n-1 |
| Bits.AsrOne | src/instructionManipulation.c:54 | a one-place arithmetic shift keeps the sign bit and shifts the other 31 bits |
| Bits.AsrIterKeepsSign | src/instructionManipulation.c:53-56 | any number of arithmetic shifts keeps the sign bit |
| Bits.ArShift | src/instructionManipulation.c:51-58 | undefined exactly when the flag is not 0, since `signBit << 31` then overflows an int; with flag 0, no shift for a count of 0 or less, and n one-bit arithmetic shifts otherwise |
| Bits.AsrIterIsAsr | src/instructionManipulation.c:53-56 | n one-bit arithmetic shifts, for n below 32, are C's `value >> n` on a signed int |
| Bits.RightRotateAsWritten | src/instructionManipulation.c:91-93 | `rightRotate` on a signed int; for a non-negative value it agrees with a true rotation |
| Bits.RightRotateAsWrittenSmearsSign | src/instructionManipulation.c:91-93 | rotating 0x80000000 right by 1 as written gives 0xC0000000, where a rotation gives 0x40000000 |
| Bits.RightRotate | src/instructionManipulation.c:91-93 | corrected `rightRotate`: the same shifts and OR on an unsigned word, for amounts 1 to 31; Bits.RightRotateIsRotation proves it a rotation |
| Bits.RightRotateIsRotation | src/instructionManipulation.c:91-93 | corrected `rightRotate`: for every amount from 1 to 31 it is the 32-bit rotation right |
| Bits.GetMSbit | src/instructionManipulation.c:81-84 | corrected `getMSbit`: 0 or 1, and 1 exactly when bit 31 is set |
| Bits.GetMSbitAsWritten | src/instructionManipulation.c:81-84 | `getMSbit` as written: 0 or -1, the negated sign bit |
| Bits.MSbitAsWrittenIsNegative | src/instructionManipulation.c:81-84 | for 0x80000000, `getMSbit` as written returns -1 where 1 was evidently intended |
| Bits.GetAdditionCarry | src/instructionManipulation.c:69-79 | 0 or 1, and 1 exactly when the unsigned 32-bit addition carries out, on every input without signed overflow |
| Bits.AdditionCarryWithAsWrittenMSbit | src/instructionManipulation.c:69-84 | the comparison `getAdditionCarry` makes gives the same carry whether `getMSbit` returns -1 or 1 for a set bit |
| Numerals.HexDigitChar | src/assemble.c:745-751 | a hex digit whose `getHex` digit value is d |
| Numerals.HexString | src/assemble.c:742-758 | a non-empty string of hex digits |
| Numerals.HexFromSnoc | src/assemble.c:744-755 | reading one more digit shifts the value read so far left by 4 and ORs the digit in |
| Numerals.SingleHexDigit | src/assemble.c:742-758 | one digit reads as its value |
| Numerals.GetHexRoundTrip | src/assemble.c:742-758 | every word below 2^31, written in hex, reads back as itself |
| Numerals.HexLowDigit | src/assemble.c:753-754 | appending the low digit to the spelling of w >> 4 spells w |
| Numerals.HexAppendDigit | src/assemble.c:753-754 | appending a digit to a prefix read as h gives (h << 4) OR d while h << 4 fits |
| Numerals.GetHexOverflows | src/assemble.c:753 | a word of 2^31 or more spelled in hex overflows the signed `res <<= 4`, which is undefined behaviour |
| Numerals.GetHex | src/assemble.c:742-758 | `getHex`; Numerals.GetHexRoundTrip and Numerals.GetHexOverflows carry its contract |
| Numerals.GetDec | src/assemble.c:760-762 | `getDec`, `atoi` converted to an unsigned word; Numerals.AtoiRoundTrip and Numerals.AtoiNegativeRoundTrip carry its contract |
| Numerals.SkipSpace | src/assemble.c:760-762 | `atoi` skips a run of white space: the result is a suffix, all skipped characters are spaces, and what remains starts with no space |
| Numerals.DigitRun | src/assemble.c:760-762 | the length of the longest prefix of decimal digits |
| Numerals.DecimalDigitValue | src/assemble.c:760-762 | the value of a decimal digit is at most 9 |
| Numerals.DecimalDigitChar | src/assemble.c:760-762 | a decimal digit whose value is d |
| Numerals.Atoi | src/assemble.c:760-762 | a defined `atoi` result lies in the C `int` range; a value outside it is undefined behaviour |
| Numerals.DecimalString | src/assemble.c:760-762 | a non-empty string of decimal digits |
| Numerals.DecimalValueOfString | src/assemble.c:760-762 | the digits of n read back as n |
| Numerals.AtoiRoundTrip | src/assemble.c:760-762 | every n up to INT_MAX, written in decimal, is read back by `atoi` as n |
| Numerals.AtoiNegativeRoundTrip | src/assemble.c:760-762 | every n up to 2^31, written with a minus sign, is read back as -n |
| Numerals.AllDigitsRun | src/assemble.c:760-762 | a string of digits is one digit run |
| Immediate.Rol2Rotates | src/assemble.c:722-727 | one loop pass rotates the value left by two |
| Immediate.ScanFrom | src/assemble.c:722-727 | the rotation loop from pass k finds the first pass at which the value fits 8 bits, if any up to 15 |
| Immediate.EncodeImmediate | src/assemble.c:710-740 | reports the value unencodable exactly when no even left rotation from 0 to 30 brings it below 256 |
| Immediate.AmountFacts | src/assemble.c:736 | every rotate amount the loop can record is between 1 and 31 |
| Immediate.RotateFieldFacts | src/assemble.c:736 | the rotate field sits in bits 11-8, twice it is the amount, and it is zero only without rotation |
| Immediate.RoundTrip | src/assemble.c:722-736 | rotating the loop's result right by the recorded amount gives back the literal |
| Immediate.EncodedWord | src/assemble.c:710-740 | an encoded literal is the rotate field OR-ed with the first rotation that fits |
| Immediate.EncodedImm | src/assemble.c:736 | the 8-bit field of the encoding is the rotated value |
| Immediate.EncodedRotate | src/assemble.c:736 | the rotate field of the encoding is half the rotation amount |
| Immediate.EncodedAmount | src/assemble.c:736 | twice the rotate field is the amount of the first fitting rotation; the field is zero exactly when no rotation was needed |
| Immediate.EncodeImmediateUnrotated | src/assemble.c:722-736 | with a zero rotate field, the 8-bit field is the literal itself |
| Immediate.EncodeImmediateRoundTrip | src/assemble.c:722-736 | with a non-zero rotate field, rotating the 8-bit field right by twice the rotate field gives back the literal |
| Immediate.SmallImmediateUnchanged | src/assemble.c:722-736 | a literal below 256 is encoded as itself |
| Immediate.OperandRoundTrip | src/assemble.c:722-736 | an immediate and rotate field taken from pass k decode back to the literal |
| Immediate.GetExpression | src/assemble.c:710-740 | undefined exactly when reading the literal is; a `=` literal is returned as read; a `#` literal is reported invalid exactly when it is unencodable, and is then answered with -1 |
| Immediate.Literal | src/assemble.c:714-718 | the literal after "0x" in hex, otherwise in decimal; Lexer.HexExpressionRoundTrip and Immediate.GetExpressionRoundTrip use it |
| Immediate.GetExpressionRoundTrip | src/assemble.c:710-740 | a valid `#` expression decodes back to its literal the way the emulator reads operand 2 |
| Immediate.GetExpressionFitsOperand | src/assemble.c:736-739 | a valid `#` expression fits the 12 bits of operand 2 |
| Mappings.DataOpcode | src/mappings.h:42-57 | the opcode table maps three-letter mnemonics to 4-bit opcodes |
| Mappings.AllInstructions | src/mappings.h:59-98 | the class table maps mnemonics to classes 0 to 5 |
| Mappings.Conditions | src/mappings.h:100-112 | the condition table maps suffixes to 4-bit codes |
| Mappings.DataType | src/mappings.h:114-135 | the data-type table maps mnemonics to the operand shapes 0, 1 and 2 |
| Mappings.OpcodesDistinct | src/mappings.h:42-57 | no two mnemonics share an opcode |
| Mappings.DataClassIsOpcodeKeys | src/mappings.h:42-98 | class 0 mnemonics, opcode-table mnemonics and data-type mnemonics are the same set |
| Mappings.BranchClassMnemonics | src/mappings.h:82-89 | class 3 is exactly the seven branch mnemonics |
| Mappings.BranchClassIsBranch | src/mappings.h:82-89 | every class 3 mnemonic is a branch mnemonic |
| Mappings.BranchSuffixIsCondition | src/mappings.h:82-112 | the suffix of every branch mnemonic is in the condition table |
| Mappings.DataTypesByMnemonic | src/mappings.h:114-135 | type 1 is exactly `mov`, and type 2 exactly `tst`, `teq` and `cmp` |
| MappingsRevised.DataOpcode | src/mappings.c:4-19 | the opcode table maps mnemonics to 4-bit opcodes |
| MappingsRevised.AllInstructions | src/mappings.c:21-63 | the class table maps mnemonics to classes 0 to 5 |
| MappingsRevised.Conditions | src/mappings.c:65-77 | the condition table maps suffixes to 4-bit codes |
| MappingsRevised.DataType | src/mappings.c:79-100 | the data-type table maps mnemonics to shapes 0 to 2 |
| MappingsRevised.Shifts | src/mappings.c:102-111 | the shift table maps the four shift mnemonics to 2-bit shift types |
| MappingsRevised.UnchangedTables | src/mappings.c:4-100 | the opcode, condition and data-type tables equal those of the header |
| MappingsRevised.ClassTableExtends | src/mappings.c:21-63 | the class table keeps every class of the header and adds exactly `lsr`, `asr` and `ror`, in class 4 |
| MappingsRevised.ShiftsAreClassFour | src/mappings.c:53-57 | the shift mnemonics are exactly the class 4 mnemonics |
| MappingsRevised.ShiftTypesDistinct | src/mappings.c:102-111 | no two shift mnemonics share a shift type |
| Lexer.FirstDelimiter | src/assemble.c:601-604 | the index of the first space, comma or newline, or the length when there is none |
| Lexer.RunsAreWords | src/assemble.c:596-629 | every token is non-empty and holds no delimiter |
| Lexer.RunBefore | src/assemble.c:607-615 | the characters before the first delimiter form at most one delimiter-free token |
| Lexer.RunsSplit | src/assemble.c:596-629 | splitting at a delimiter tokenises the two sides independently |
| Lexer.RunsOfWord | src/assemble.c:619-626 | a delimiter-free line is one token, or none if it is empty |
| Lexer.ScannedRuns | src/assemble.c:601-617 | the loop invariant: the tokens taken so far, plus the pending token, tokenise the prefix read |
| Lexer.ScanDelimiter | src/assemble.c:604-616 | a delimiter closes the pending token |
| Lexer.ScanOther | src/assemble.c:602 | any other character extends the pending token |
| Lexer.Tokenise | src/assemble.c:596-629 | returns the maximal runs of non-delimiter characters, in order, none empty |
| Lexer.RegisterNumber | src/assemble.c:631-646 | a register token names a register from 0 to 16 |
| Lexer.RegisterNameRoundTrip | src/assemble.c:631-646 | `r0` to `r16` are register tokens naming their number |
| Lexer.ExpressionKind | src/assemble.c:652-680 | an expression token starts with `#` (tag) or `=` (equal) |
| Lexer.LabelIsNoExpression | src/assemble.c:648-680 | a token ending in ':' is never an expression |
| Lexer.RegisterIsOnlyRegister | src/assemble.c:686-708 | a register token is no label, expression or mnemonic, so `getType` calls it a register |
| Lexer.GetTypePriority | src/assemble.c:686-708 | `getType` answers each kind exactly when no kind of higher priority applies: label, expression, mnemonic, register |
| Lexer.GetType | src/assemble.c:686-708 | `getType`; Lexer.GetTypePriority carries its contract |
| Lexer.IsLabel | src/assemble.c:648-650 | the last character is ':'; Lexer.LabelIsNoExpression and Lexer.GetTypePriority use it |
| Lexer.IsRegister | src/assemble.c:631-646 | 'r' and one or two digits worth at most 16; Lexer.RegisterNameRoundTrip carries its contract |
| Lexer.IsInstruction | src/assemble.c:682-684 | the class table has the token; Lexer.GetTypePriority uses it |
| Lexer.HexExpressionRoundTrip | src/assemble.c:652-680 | `#0x` followed by the hex spelling of w (w below 2^31) is a tag expression whose literal is w |
| Encoders.RegisterField | src/assemble.c:261-272 | a register field is at most 16 |
| Encoders.RegisterWordIsConversion | src/assemble.c:266 | register field n is n |
| Encoders.RegisterFieldIsGetDec | src/assemble.c:266 | the register field is what `getDec` reads after the 'r' |
| Encoders.AlwaysCondition | src/assemble.c:473 | the empty suffix is the "always" condition 14 |
| Encoders.SetCond | src/assemble.c:582-588 | the word gets the named condition in bits 31-28 and keeps bits 27-0 |
| Encoders.ReadOperand2 | src/assemble.c:287-304 | a register gives I = 0, an expression I = 1; an invalid expression adds exactly one error; anything else is no operand |
| Encoders.DataProcessing | src/assemble.c:247-323 | consumes between 1 token and the whole line, leaves the pool alone, and adds at most one invalid-expression error |
| Encoders.DataProcessingMissingRegister | src/assemble.c:261-283 | a mnemonic with no register after it gives -1 with no error, taking only the mnemonic |
| Encoders.DataProcessingMissingOperand | src/assemble.c:287-293 | well-formed registers followed by neither a register nor an expression give -1 with no error, leaving that token in place |
| Encoders.ReadDataRegisters | src/assemble.c:261-285 | reads Rd unless the type is 2 and Rn unless it is 1; a missing register is reported at its position |
| Encoders.DataProcessingOf | src/assemble.c:247-323 | consumes within the line, leaves the pool alone, and adds at most one error; a missing register gives -1 with no error, taking the tokens before the non-register one |
| Encoders.DataProcessingRegisterRoundTrip | src/assemble.c:247-323 | a data-processing line with a register operand 2 assembles to a word whose opcode, S, Rn, Rd and Rm fields read back, with I clear and no error |
| Encoders.DataProcessingImmediateRoundTrip | src/assemble.c:247-323 | with a valid `#` operand the word reads back opcode, S, Rn and Rd, has I set, and its operand 2 decodes to the literal |
| Encoders.DataProcessingInvalidImmediate | src/assemble.c:287-304 | an unencodable `#` operand reports exactly one invalid-expression error naming the token |
| Encoders.ReadDataRegistersOfNames | src/assemble.c:261-285 | the register names the data type calls for are read back as their numbers |
| Encoders.DataWordFields | src/assemble.c:306-320 | the data-processing word reads back each field it was built from |
| Encoders.ReadOperand2Register | src/assemble.c:289-293 | a register operand 2 gives I = 0 and its number, with no error |
| Encoders.ReadOperand2Expression | src/assemble.c:294-300 | an expression operand 2 gives I = 1 and `getExpression`'s word, with its error if invalid |
| Encoders.DataProcessingAssembled | src/assemble.c:247-323 | a well-formed data-processing line assembles to the word of its opcode, registers and operand 2 |
| Encoders.AllOnesOperandAssembled | src/assemble.c:247-323 | registers followed by an operand 2 of -1 assemble to -1, whatever the opcode and registers |
| Encoders.DataImmediateRoundTrip | src/assemble.c:294-320 | the immediate word's fields read back, and operand 2 decodes to the literal |
| Encoders.DataImmediateFields | src/assemble.c:306-320 | an immediate data-processing word reads back its fields and its operand 2 |
| Encoders.ExpressionTokenType | src/assemble.c:686-708 | an expression token is classified as its expression kind |
| Encoders.MultiplyRegister | src/assemble.c:389-403 | takes one register token when present; otherwise reports a missing expression at the end of the line, or an invalid register |
| Encoders.Multiply | src/assemble.c:325-386 | consumes within the line, never loses an error, and leaves the pool alone |
| Encoders.MultiplyRegisterOfName | src/assemble.c:389-403 | a register name is taken as its number, with no error |
| Encoders.MultiplyRoundTrip | src/assemble.c:325-386 | `mul`/`mla` lines assemble to a multiply word whose A, Rd, Rn, Rs and Rm fields read back, with no error |
| Encoders.BracketParts | src/assemble.c:410-432 | takes at least one token, up to the one ending in ']', and extends the parts taken so far |
| Encoders.GetAddress | src/assemble.c:405-456 | a defined address takes at least one token and stays within the line; its P bit is 0 or 1 |
| Encoders.AddressOfParts | src/assemble.c:434-455 | post-indexing (P = 0) takes one more token after the brackets, and only then |
| Encoders.PoolOffset | src/assemble.c:513-518 | the byte distance, in 32-bit arithmetic, from this instruction's PC (its address plus 8) to its pool slot after all instructions |
| Encoders.SingleDataTransfer | src/assemble.c:458-550 | consumes within the line, never loses an error, and at most appends the one `ldr` constant to the pool; a readable pool stays readable |
| Encoders.MovRewrite | src/assemble.c:506-512 | the rewritten line consumes within the original and leaves the pool alone |
| Encoders.LdrSmallRewrites | src/assemble.c:503-512 | `ldr Rd, =c` with c up to 0xFF is handed to the `mov` rewrite |
| Encoders.LdrSmallConstantIsMov | src/assemble.c:503-512 | `ldr Rd, =c` with c up to 0xFF assembles exactly as `mov Rd, #c` |
| Encoders.LdrSmallConstantRoundTrip | src/assemble.c:503-512 | it gives a `mov` word with I set, no rotation and immediate c, leaving the pool alone |
| Encoders.LdrPoolStep | src/assemble.c:513-520 | `ldr Rd, =c` with c above 0xFF pools its token and gives a PC-relative pre-indexed load |
| Encoders.LdrConstant | src/assemble.c:502-520 | `ldr Rd, =c` consumes within the line and appends at most its one constant to the pool, which stays readable |
| Encoders.LdrConstantPooled | src/assemble.c:512-518 | a constant above 0xFF puts its token at the end of the pool and gives a pre-indexed load from r15 at the pool offset |
| Encoders.LdrPoolConstant | src/assemble.c:458-550 | the load reads back as cond 14, I 0, P 1, U 1, L 1, base r15, Rd, and the pool offset |
| Encoders.StrReadsOnlyRd | src/assemble.c:522-549 | `str Rd, ...` reads back as a post-indexed store of Rd at offset 0 from r15 and consumes only two tokens |
| Encoders.LdrRegisterIgnored | src/assemble.c:494-520 | `ldr Rd, Rm` ignores Rm: a pre-indexed load from r15 at offset 0 |
| Encoders.LdrAddressed | src/assemble.c:491-549 | `ldr Rd, [..]` takes P, Rn and the offset from `getAddress`, with L and U set |
| Encoders.BaseRegisterPart | src/assemble.c:434-435 | the base part `rN` reads as register N |
| Encoders.AddressOfRegister | src/assemble.c:405-456 | `[Rn]` not followed by a `#` expression is pre-indexed at offset 0 |
| Encoders.BracketClose | src/assemble.c:419-427 | a token ending in ']' ends the bracket loop after one token |
| Encoders.BracketOpen | src/assemble.c:429-432 | any other token is taken and the loop goes on |
| Encoders.AddressPostIndexed | src/assemble.c:446-452 | `[Rn], #e` is post-indexed with the offset of e |
| Encoders.AddressOfOnePart | src/assemble.c:438-452 | one bracket part followed by a `#` expression is post-indexed |
| Encoders.AddressPreIndexed | src/assemble.c:438-443 | `[Rn, e]` is pre-indexed with the offset of e |
| Encoders.AddressOfTwoParts | src/assemble.c:438-443 | two bracket parts give a pre-indexed address |
| Encoders.BracketsOfOffset | src/assemble.c:410-432 | `[Rn, e]` splits into the parts Rn and e in two tokens, whatever e holds |
| Encoders.AddressRegisterOffset | src/assemble.c:438-443 | a register offset `[Rn, Rm]` is not rejected: `getExpression` reads it as the number m, and the address is pre-indexed at offset m |
| Encoders.RegisterAsExpression | src/assemble.c:710-718 | `getExpression` on a register name `rm` reads the digits after the first character as a decimal literal: m, with no error |
| Encoders.TagOffset | src/assemble.c:440 | a valid `#` offset fits 12 bits, and one below 256 is the literal itself |
| Encoders.LdrBaseRoundTrip | src/assemble.c:458-550 | `ldr Rd, [Rn]` reads back as a pre-indexed load from Rn at offset 0 |
| Encoders.LdrPreIndexedRoundTrip | src/assemble.c:458-550 | `ldr Rd, [Rn, #e]` reads back as a pre-indexed load with the encoded offset |
| Encoders.LdrPostIndexedRoundTrip | src/assemble.c:458-550 | `ldr Rd, [Rn], #e` reads back as a post-indexed load with the encoded offset |
| Encoders.Branch | src/assemble.c:552-580 | consumes within the line, never loses an error, and leaves the pool alone |
| Encoders.BranchMissingTarget | src/assemble.c:555-565 | a branch with no target, or a mnemonic as target, reports a missing expression naming the branch, gives -1 and takes only the mnemonic |
| Encoders.BranchOffset | src/assemble.c:568-573 | the branch offset fits 24 bits |
| Encoders.BranchRoundTrip | src/assemble.c:552-580 | a branch to a bound label reads back its condition, class 10 and the 24-bit offset to the target |
| Encoders.SignExtend | src/instructionManipulation.c:236-239 | ARM's two's-complement reading of the 24-bit field that `getOffset` masks out: below 2^23 it stays, otherwise the top byte is filled; a reference definition that Encoders.BranchOffsetLands checks the offset against |
| Encoders.SignExtendUndoesTruncation | src/assemble.c:571-572 | for a distance within ±2^23, sign-extending the truncated offset restores it |
| Encoders.BranchOffsetReachesTarget | src/assemble.c:568-573 | within reach, the sign-extended offset is the target minus this instruction minus 2 |
| Encoders.BranchOffsetLands | src/assemble.c:568-573 | the offset lands on the target whenever the target is within reach |
| Encoders.Decode | src/assemble.c:224-245 | consumes within the line, never loses an error, and grows the pool only for `ldr`; a readable pool stays readable |
| Encoders.SpecialClassesGiveZero | src/assemble.c:235-240 | `lsl` and `andeq` give word 0 and drop up to four tokens, with no error |
| Passes.Tagged | src/assemble.c:189-191 | each token of a line is tagged with its line number |
| Passes.StreamNonempty | src/assemble.c:121-122 | no token of the file is empty |
| Passes.ScanToken | src/assemble.c:132-166 | one token step is undefined exactly when the token is a bare ':' |
| Passes.Bound | src/assemble.c:158-163 | binding the queued labels gives one entry per label at the location |
| Passes.HasKeyOfBound | src/assemble.c:158-163 | after binding, a name is bound exactly when it was bound before or was queued |
| Passes.BindAllAppends | src/assemble.c:158-163 | draining the queue with `put` appends the labels in queue order |
| Passes.DefinitionsUnique | src/assemble.c:132-142 | no label is bound twice |
| Passes.QueueStep | src/assemble.c:132-142 | the label step keeps the bound and queued labels equal to the definitions so far, and its errors equal the redefinitions so far |
| Passes.AdvanceStep | src/assemble.c:144-166 | the instruction step binds the queue without changing the definitions, and counts the instruction and the `ldr` |
| Passes.ScanFromAgrees | src/assemble.c:114-180 | the token loops are defined exactly when no token is a bare ':', and then end agreeing with the definitions, redefinitions and counts |
| Passes.FirstPassComputesDefinitions | src/assemble.c:114-180 | the first pass binds each label to the instruction count before its first definition, reports every later definition, and counts instructions and `ldr`s |
| Passes.FirstPass | src/assemble.c:114-180 | `firstPass`; Passes.FirstPassComputesDefinitions carries its contract |
| Passes.KeysAreDefinitions | src/assemble.c:132-177 | a name is bound exactly when some earlier label defines it |
| Passes.DefinedIffDefines | src/assemble.c:132-177 | a name is in the label map exactly when some label token defines it |
| Passes.AtFirstDefinition | src/assemble.c:132-163 | the first definition binds the name to the number of instructions before it |
| Passes.BindingStays | src/assemble.c:136-141 | a bound label keeps its binding: later definitions are reported, not rebound |
| Passes.FirstDefinitionGet | src/assemble.c:132-177 | `get` on the label map gives the number of instructions before the first definition |
| Passes.TokensMonotone | src/assemble.c:191-209 | fewer tokens hold fewer mnemonics |
| Passes.DecodeAt | src/assemble.c:194-199 | decoding one mnemonic adds one word, consumes at least one token, and pools at most one literal, only for `ldr` |
| Passes.DecodeLine | src/assemble.c:191-209 | a line adds at most one word per mnemonic token and one literal per `ldr` token, and only extends words, errors and pool |
| Passes.DecodeLineUndefined | src/assemble.c:203-207 | a token that is neither mnemonic nor label adds one undefined-instruction error naming it and is skipped |
| Passes.DecodeLineLabel | src/assemble.c:200-202 | a label is skipped with no word and no error |
| Passes.DecodeLines | src/assemble.c:189-211 | the file adds at most one word per mnemonic token and one literal per `ldr` token |
| Passes.PoolWords | src/assemble.c:214-219 | the literal words are the pooled tokens' values, in pool order |
| Passes.SecondPass | src/assemble.c:182-222 | keeps the first pass's errors as a prefix; code and literals are bounded by the mnemonic and `ldr` tokens |
| Passes.BeforeAndFrom | src/assemble.c:150-152 | the count before n plus the count from n is the whole count |
| Passes.LinesCounted | src/assemble.c:144-152 | the second pass's mnemonics and `ldr`s are among those the first pass counted |
| Passes.BranchReachesFirstDefinition | src/assemble.c:552-580 | a branch to a label assembles to the offset of the instruction its first definition precedes, and lands on it when in reach |
| Passes.Assemble | src/assemble.c:50-112 | a first pass that counts no instruction and no `ldr` declares a zero-length array, which is undefined; a defined run has both passes defined and a non-empty array the code fits; it writes words exactly when the second pass left no error, and the words are the code followed by the literals; otherwise it reports exactly those errors, at least one |
| Passes.SecondPassFits | src/assemble.c:84-87 | the second pass never writes past the `instructionsNumber + ldrCount` words of the array, so when both passes are defined `main` is defined exactly when the array is not empty |
| Passes.EmptyFileUndefined | src/assemble.c:84 | an empty file counts no instruction, so `main` declares an array of length 0 and is undefined |
| Passes.AssembleReports | src/assemble.c:94-107 | every redefinition error is reported; only a program without any is written out |
| Layout.SetCondBits | src/assemble.c:582-588 | the condition lands in bits 31-28 and the other bits are kept |
| Layout.DataProcessingFields | src/assemble.c:306-320 | the data-processing word reads back cond 14 and each field |
| Layout.RegisterOperandFields | src/assemble.c:289-293 | a register operand 2 reads back as Rm with no shift |
| Layout.ImmediateOperandFields | src/assemble.c:294-300 | an immediate operand 2 reads back its 8-bit value and rotate |
| Layout.MultiplyFields | src/assemble.c:325-386 | the multiply word is recognised as one and reads back each field |
| Layout.TransferFields | src/assemble.c:526-545 | the transfer word reads back cond 14, class 01 and each field |
| Layout.BranchFields | src/assemble.c:555-575 | the branch word reads back its condition, class 10 and its offset |
| Layout.DataProcessingWord | src/assemble.c:306-320 | the data-processing word; Layout.DataProcessingFields reads each field back |
| Layout.MultiplyWord | src/assemble.c:366-385 | the multiply word; Layout.MultiplyFields reads each field back |
| Layout.TransferWord | src/assemble.c:526-545 | the transfer word; Layout.TransferFields reads each field back |
| Layout.BranchWord | src/assemble.c:554-574 | the branch word; Layout.BranchFields reads each field back |

## Left out

- I/O: command-line handling, `fopen`, `rewind`, `fwrite`, `fprintf` and the exit code are not modelled. The input is a sequence of lines and the output a sequence of words. `fwrite` writes the words in the host's byte order; the model does not fix a byte order.
- Line length: `fgets` splits a line longer than 511 characters into several lines. The model takes lines as given.
- Memory: `malloc` and `free` are not modelled, and neither is the undefined behaviour of using freed memory. `tokenise` frees every token right after `putBack` links it (src/assemble.c:612-614 and 624-625), and `putBack` stores the pointer, not a copy (src/adts.h:69-72). So every token both passes read is freed memory, and `firstPass` frees each token a second time (src/assemble.c:167). Further paths read memory they freed themselves: the multiply mnemonic, the `mov` rewrite's tokens, pooled tokens, the parts of `getAddress`, and the label text `firstPass` frees after binding. The model behaves as if every string stays intact and is freed once.
- Encoders.PoolOffset: the offset addresses pool slot `total + k - 1`, with `total` the first pass's instruction count, while `main` writes the literals after the words the second pass produced (Passes.Assemble). The two agree when the second pass decodes every mnemonic the first pass counted. No lemma connects an `ldr`'s offset to the index where its literal lands. When a label is spelled like a mnemonic, the second pass decodes fewer words (Passes.LinesCounted gives only "at most"), and the offset can miss the literal.
- Encoders.LdrConstant: the pool offset uses `addresses->size` (src/assemble.c:516), but src/adts.h as shown never sets or updates a vector's `size`. The model takes it to be the number of pooled literals after the `putBack`, as the offset computation evidently intends.
- Error texts: the message strings, `uintToString` and the line-number text are not modelled. Each error is a kind, a line and a token.
- Printing and set-up: the print functions, `fillAll`/`freeAll` and the `clear*` functions carry no behaviour the assembler depends on.
- `contains` is declared in src/adts_interface.h:83, but its definition is not part of this model. `Adts.Contains` takes it to be membership by string equality.
- Empty vectors: `NDEBUG` is defined (src/assemble.c:1, src/mappings.h:1), so the asserts of `peekFront` and `getFront` are switched off. On an empty vector they dereference a NULL `first` (src/adts.h:85-113), which is undefined. The callers test the result for NULL (`getType`, `decodeBranch`), as if written against a vector that answers NULL. The model substitutes None for that result. Under src/adts.h as shown, every instruction whose operands run past the end of its line is therefore undefined. Examples are a branch mnemonic at the end of a line, a data-processing, multiply or transfer mnemonic with missing trailing operands, and `lsl` or `andeq` with fewer than three operands. Encoders.DataProcessingMissingRegister and Encoders.BranchMissingTarget with nothing after the mnemonic describe the substituted behaviour.
- Passes.Assemble: `instructionsNumber + ldrCount` is compared without 32-bit wrap-around. A file with over 2^32 instructions is not modelled. A sum of exactly 0 (no instruction) is modelled as undefined.
- Encoders.LdrPoolConstant: covers only pool offsets below 0x1000. A larger offset spills into the Rn and Rd fields, because `ins |= offset` does not mask it.
- Passes.SecondPass: states bounds and the error prefix, not the words. The words are pinned down per instruction by the encoder round-trip lemmas.
- Encoders.Decode: states only what any instruction consumes and pools. The words are pinned down per instruction class by the round-trip lemmas.
- Encoders.DataProcessing: states consumption and the error bound, not the word. Encoders.DataProcessingAssembled gives the word of a well-formed line, and Encoders.DataProcessingMissingRegister and Encoders.DataProcessingMissingOperand give the -1 of the others.
- Bits.SetByte: shifting a byte of 0x80 or more into bits 31-24 of a signed int is undefined. The model gives the two's-complement result.
- Bits.GetBitAtPosition: requires a position of at most 31. Position 32 computes `1 << 31` on an int, which is undefined.
- Bits.ConvertToLittleEndian: `instruction << 8` and `instruction << 24` overflow a signed int for many words, which is undefined. The model gives the two's-complement result.
- Bits.RightRotateAsWritten: `value << (32 - n)` of a negative int, or one that overflows, is undefined. The model gives the two's-complement result.
- Bits.RightRotate: requires 0 < n < 32, because a shift by 32 is undefined.
- Bits.GetAdditionCarry: requires no signed overflow in `operand1 + operand2`, which is undefined for C `int`.
- Quirks kept as written, not corrected:
  - `ldr Rd, Rm` ignores Rm.
  - `r16` is accepted as a register.
  - A label spelled like a mnemonic (`mov:`) is counted as an instruction by the first pass and dropped by the second.
  - `lsl` and `andeq` give word 0 and drop four tokens.
- The emulator itself, apart from the bit helpers of src/instructionManipulation.c, is not part of this model.

## Findings

| source | as written | input that shows it | evidently intended | confidence | as-written member | corrected member |
|---|---|---|---|---|---|---|
| src/instructionManipulation.c:81-84 | `(value & 0x80000000) >> 31` on a signed int shifts arithmetically, giving -1 for a set sign bit | `getMSbit(0x80000000)` is -1 | the sign bit as 0 or 1 | high; not executed | Bits.MSbitAsWrittenIsNegative | Bits.GetMSbit |
| src/instructionManipulation.c:91-93 | `value >> n` on a signed int copies the sign bit into the rotated-in bits | `rightRotate(0x80000000, 1)` is 0xC0000000 | 0x40000000, the 32-bit rotation | high; not executed | Bits.RightRotateAsWrittenSmearsSign | Bits.RightRotateIsRotation |
| src/adts.h:115-131 | `getBack` unlinks the last node but returns `peekFront` | after `putBack` of "a" then "b", `getBack` returns "a" | the last value, "b" | high; not executed | Adts.GetBackAsWrittenReturnsFront | Adts.GetBack |

=== FILE: adts.dfy ===
/**
  The two hand-rolled containers of the assembler: a string-keyed association
  list (`map` in the source) and a double-ended queue of strings (`vector`).
  The linked-node representation is abstracted away: the association list is an
  insertion-ordered sequence of entries and the deque is a sequence whose first
  element is the front.
 */
module Adts {

  /** The source's "pointer or NULL". */
  datatype Option<+T> = None | Some(value: T)

  // ------------------------------------------------------------------ map

  datatype Entry<V> = Entry(key: string, value: V)

  /** Nodes in list order: index 0 is the head, new keys are linked at the tail. */
  type AssocMap<V> = seq<Entry<V>>

  predicate HasKey<V>(m: AssocMap<V>, key: string) {
    exists i :: 0 <= i < |m| && m[i].key == key
  }

  /** No key occurs twice; `Put` keeps this. */
  predicate UniqueKeys<V>(m: AssocMap<V>) {
    forall i, j :: 0 <= i < j < |m| ==> m[i].key != m[j].key
  }

  /** The result of `lookup`: whether the key was found, and where `ptr` is left. */
  datatype Located = Located(found: bool, ptr: Option<nat>)

  /** The scan of `lookup` from node `i` on; `last` is the node `ptr` holds so far. */
  function LookupFrom<V>(m: AssocMap<V>, key: string, i: nat, last: Option<nat>): (r: Located)
    requires i <= |m|
    requires last.Some? ==> last.value < |m|
    ensures r.found <==> exists j :: i <= j < |m| && m[j].key == key
    ensures r.found ==> r.ptr.Some? && i <= r.ptr.value < |m| && m[r.ptr.value].key == key
                        && forall j :: i <= j < r.ptr.value ==> m[j].key != key
    ensures !r.found ==> r.ptr == (if i < |m| then Some(|m| - 1) else last)
    decreases |m| - i
  {
    if i == |m| then Located(false, last)
    else if m[i].key == key then Located(true, Some(i))
    else LookupFrom(m, key, i + 1, Some(i))
  }

  /**
    `lookup`: found iff some node's key equals the query; `ptr` is left at the
    first match, otherwise at the last node, or NULL when the map is empty.
   */
  function Lookup<V>(m: AssocMap<V>, key: string): (r: Located)
    ensures r.found <==> HasKey(m, key)
    ensures r.found ==> r.ptr.Some? && r.ptr.value < |m| && m[r.ptr.value].key == key
                        && forall j :: 0 <= j < r.ptr.value ==> m[j].key != key
    ensures !r.found ==> r.ptr == (if |m| == 0 then None else Some(|m| - 1))
  {
    LookupFrom(m, key, 0, None)
  }

  /** `get`: the value of the first node whose key equals the query, or NULL. */
  function Get<V>(m: AssocMap<V>, key: string): (r: Option<V>)
    ensures r.Some? <==> HasKey(m, key)
    ensures r.Some? ==> exists i :: 0 <= i < |m| && m[i] == Entry(key, r.value)
    ensures UniqueKeys(m) ==> forall i :: 0 <= i < |m| && m[i].key == key ==> r == Some(m[i].value)
  {
    var l := Lookup(m, key);
    if l.found then Some(m[l.ptr.value].value) else None
  }

  /** The first node whose key equals `key`, found by `lookup`, is unique. */
  lemma FirstMatchUnique<V>(m: AssocMap<V>, key: string, p: nat)
    requires p < |m| && m[p].key == key
    requires forall j :: 0 <= j < p ==> m[j].key != key
    ensures Get(m, key) == Some(m[p].value)
  {
    var q := Lookup(m, key).ptr.value;
    assert !(q < p);
    assert m[q].key == key;
  }

  /** Two maps with the same keys in the same order agree on `get` for a key whose values agree. */
  lemma SameKeysSameGet<V>(m: AssocMap<V>, r: AssocMap<V>, k: string)
    requires |r| == |m|
    requires forall j :: 0 <= j < |m| ==> r[j].key == m[j].key
    requires forall j :: 0 <= j < |m| && m[j].key == k ==> r[j].value == m[j].value
    ensures Get(r, k) == Get(m, k)
  {
    assert HasKey(r, k) <==> HasKey(m, k) by {
      assert forall j :: 0 <= j < |m| ==> (r[j].key == k <==> m[j].key == k);
    }
    if HasKey(m, k) {
      var pm := Lookup(m, k).ptr.value;
      assert r[pm].key == k;
      FirstMatchUnique(r, k, pm);
    }
  }

  /** Linking a node for another key at the tail does not change `get`. */
  lemma GetAfterAppend<V>(m: AssocMap<V>, e: Entry<V>, k: string)
    requires k != e.key
    ensures Get(m + [e], k) == Get(m, k)
  {
    var r := m + [e];
    assert forall j :: 0 <= j < |m| ==> r[j] == m[j];
    assert r[|m|] == e;
    assert HasKey(r, k) <==> HasKey(m, k);
    if HasKey(m, k) {
      var pm := Lookup(m, k).ptr.value;
      FirstMatchUnique(r, k, pm);
    }
  }

  /**
    `put`: overwrite the value of a present key in place, or link a new node
    at the tail.
   */
  function Put<V>(m: AssocMap<V>, key: string, value: V): (r: AssocMap<V>)
    ensures Get(r, key) == Some(value)
    ensures forall k :: k != key ==> Get(r, k) == Get(m, k)
    ensures HasKey(m, key) ==> |r| == |m| && forall i :: 0 <= i < |m| && m[i].key != key ==> r[i] == m[i]
    ensures !HasKey(m, key) ==> r == m + [Entry(key, value)]
    ensures UniqueKeys(m) ==> UniqueKeys(r)
  {
    var l := Lookup(m, key);
    if l.found then
      var p := l.ptr.value;
      var r := m[p := Entry(key, value)];
      assert Get(r, key) == Some(value) by {
        FirstMatchUnique(r, key, p);
      }
      assert forall k :: k != key ==> Get(r, k) == Get(m, k) by {
        forall k | k != key ensures Get(r, k) == Get(m, k) {
          SameKeysSameGet(m, r, k);
        }
      }
      r
    else
      var r := m + [Entry(key, value)];
      assert Get(r, key) == Some(value) by {
        FirstMatchUnique(r, key, |m|);
      }
      assert forall k :: k != key ==> Get(r, k) == Get(m, k) by {
        forall k | k != key ensures Get(r, k) == Get(m, k) {
          GetAfterAppend(m, Entry(key, value), k);
        }
      }
      r
  }

  // --------------------------------------------------------------- vector

  /** The deque; index 0 is `first`, the last index is `last`. */
  type Vector<T> = seq<T>

  /** `isEmpty`: `first` or `last` is NULL, which happens exactly when no node is linked. */
  predicate IsEmpty<T>(v: Vector<T>)
    ensures IsEmpty(v) <==> v == []
  {
    |v| == 0
  }

  function PutFront<T>(v: Vector<T>, x: T): (r: Vector<T>)
    ensures !IsEmpty(r) && r[0] == x && r[1..] == v
  {
    [x] + v
  }

  function PutBack<T>(v: Vector<T>, x: T): (r: Vector<T>)
    ensures !IsEmpty(r) && r[|r| - 1] == x && r[..|r| - 1] == v
  {
    v + [x]
  }

  /** `contains`, with `strcmp` equality on the stored strings. */
  predicate Contains(v: Vector<string>, s: string)
    ensures Contains(v, s) <==> exists i :: 0 <= i < |v| && v[i] == s
  {
    s in v
  }

  /**
    What `firstPass`'s duplicate-label test relies on: an empty queue holds no
    label, and a `putBack` adds exactly the label queued.
   */
  lemma ContainsQueued(v: Vector<string>, x: string, s: string)
    ensures !Contains([], s)
    ensures Contains(PutBack(v, x), s) <==> Contains(v, s) || s == x
  {
    assert PutBack(v, x)[|v|] == x;
    if Contains(v, s) {
      var i :| 0 <= i < |v| && v[i] == s;
      assert PutBack(v, x)[i] == s;
    }
  }

  /** `getFront` takes the front value off: the rest holds what the vector held after it. */
  lemma ContainsAfterGetFront(v: Vector<string>, s: string)
    requires !IsEmpty(v)
    ensures Contains(v, s) <==> GetFront(v).0 == s || Contains(GetFront(v).1, s)
  {
    if Contains(GetFront(v).1, s) {
      var i :| 0 <= i < |v| - 1 && v[1..][i] == s;
      assert v[i + 1] == s;
    }
  }

  /**
    The exit test of the draining loops: after a `getFront`, the vector is
    empty exactly when it held one value, and each pass shortens it by one.
   */
  lemma DrainStep<T>(v: Vector<T>)
    requires !IsEmpty(v)
    ensures IsEmpty(GetFront(v).1) <==> |v| == 1
    ensures |GetFront(v).1| == |v| - 1
  {
  }

  /** `peekFront`: the value `getFront` would return, with nothing unlinked. */
  function PeekFront<T>(v: Vector<T>): (r: T)
    requires !IsEmpty(v)
    ensures r == GetFront(v).0 && PutFront(v[1..], r) == v
  {
    v[0]
  }

  /** `peekBack`: the value the corrected `getBack` would return, with nothing unlinked. */
  function PeekBack<T>(v: Vector<T>): (r: T)
    requires !IsEmpty(v)
    ensures r == GetBack(v).0 && PutBack(v[..|v| - 1], r) == v
  {
    v[|v| - 1]
  }

  /** `getFront`: unlink the first node and return its value. */
  function GetFront<T>(v: Vector<T>): (r: (T, Vector<T>))
    requires !IsEmpty(v)
    ensures PutFront(r.1, r.0) == v
  {
    (v[0], v[1..])
  }

  /**
    `getBack` as written: it unlinks the LAST node but reads its result through
    `peekFront`, so it returns the value of the FIRST node.
   */
  function GetBackAsWritten<T>(v: Vector<T>): (r: (T, Vector<T>))
    requires !IsEmpty(v)
    ensures r.0 == PeekFront(v) && r.1 == GetBack(v).1
    ensures PutBack(r.1, r.0) == v <==> PeekFront(v) == PeekBack(v)
  {
    (PeekFront(v), v[..|v| - 1])
  }

  /** `getBack` as evidently intended: unlink the last node and return its value. */
  function GetBack<T>(v: Vector<T>): (r: (T, Vector<T>))
    requires !IsEmpty(v)
    ensures PutBack(r.1, r.0) == v
  {
    (v[|v| - 1], v[..|v| - 1])
  }

  /** The as-written `getBack` disagrees with `putBack` on a two-element deque. */
  lemma GetBackAsWrittenReturnsFront()
    ensures var v := PutBack(PutBack([], "a"), "b");
            GetBackAsWritten(v).0 == "a" && GetBack(v).0 == "b"
  {
  }

  /** Appending with `putBack` and draining with `getFront` preserves order (FIFO). */
  function PutBackAll<T>(v: Vector<T>, xs: seq<T>): Vector<T>
    decreases |xs|
  {
    if |xs| == 0 then v else PutBackAll(PutBack(v, xs[0]), xs[1..])
  }

  function PutFrontAll<T>(v: Vector<T>, xs: seq<T>): Vector<T>
    decreases |xs|
  {
    if |xs| == 0 then v else PutFrontAll(PutFront(v, xs[0]), xs[1..])
  }

  /** The values `getFront` yields, one by one, until the deque is empty. */
  function DrainFront<T>(v: Vector<T>): seq<T>
    decreases |v|
  {
    if IsEmpty(v) then [] else var (x, rest) := GetFront(v); [x] + DrainFront(rest)
  }

  function Reverse<T>(xs: seq<T>): (r: seq<T>)
    ensures |r| == |xs|
    ensures forall i :: 0 <= i < |xs| ==> r[i] == xs[|xs| - 1 - i]
  {
    if |xs| == 0 then [] else Reverse(xs[1..]) + [xs[0]]
  }

  lemma {:induction false} DrainIsContents<T>(v: Vector<T>)
    ensures DrainFront(v) == v
    decreases |v|
  {
    if !IsEmpty(v) {
      DrainIsContents(v[1..]);
    }
  }

  lemma {:induction false} PutBackAllAppends<T>(v: Vector<T>, xs: seq<T>)
    ensures PutBackAll(v, xs) == v + xs
    decreases |xs|
  {
    if |xs| > 0 {
      PutBackAllAppends(v + [xs[0]], xs[1..]);
      assert v + [xs[0]] + xs[1..] == v + xs;
    }
  }

  lemma {:induction false} PutFrontAllPrepends<T>(v: Vector<T>, xs: seq<T>)
    ensures PutFrontAll(v, xs) == Reverse(xs) + v
    decreases |xs|
  {
    if |xs| > 0 {
      PutFrontAllPrepends([xs[0]] + v, xs[1..]);
      assert Reverse(xs) == Reverse(xs[1..]) + [xs[0]];
      assert Reverse(xs[1..]) + ([xs[0]] + v) == Reverse(xs) + v;
    }
  }

  /** `putBack` then `getFront` is first-in first-out. */
  lemma FifoOrder<T>(xs: seq<T>)
    ensures DrainFront(PutBackAll([], xs)) == xs
  {
    PutBackAllAppends([], xs);
    assert [] + xs == xs;
    DrainIsContents(xs);
  }

  /** `putFront` then `getFront` is last-in first-out. */
  lemma LifoOrder<T>(xs: seq<T>)
    ensures DrainFront(PutFrontAll([], xs)) == Reverse(xs)
  {
    PutFrontAllPrepends([], xs);
    assert Reverse(xs) + [] == Reverse(xs);
    DrainIsContents(Reverse(xs));
  }
}

=== FILE: bits.dfy ===
/**
  Bit-level helpers of the emulator side (src/instructionManipulation.c): the
  byte swap, the instruction-class tests, the field extractors, byte access in
  big-endian order, and the shift, rotate and carry helpers.

  The source computes on C `int`. A word is modelled as `bv32`, and so is every
  `int` argument (a shift amount, a byte index): a negative `int` is its two's
  complement, so -1 is 0xFFFF_FFFF and bit 0x8000_0000 is the sign. A `>>` on
  a negative `int` is an arithmetic shift, which is what the compilers the
  source targets do.
 */
module Bits {

  import opened Diagnostics

  type Word = bv32

  // ------------------------------------------------------- bytes and order

  /** `getByteBigEndian`: the byte at a big-endian index, or -1 for an index outside 0..3. */
  function GetByteBigEndian(content: Word, index: Word): (r: Word)
    ensures index < 4 ==> r < 0x100
    ensures index >= 4 ==> r == 0xFFFF_FFFF
  {
    if index == 0 then (content & 0xFF00_0000) >> 24
    else if index == 1 then (content & 0xFF_0000) >> 16
    else if index == 2 then (content & 0xFF00) >> 8
    else if index == 3 then content & 0xFF
    else 0xFFFF_FFFF
  }

  /**
    `setByte`: replace the byte at a big-endian index, or yield -1 for an index
    outside 0..3. The new byte is OR-ed in without masking.
   */
  function SetByte(word: Word, index: Word, newByte: Word): (r: Word)
    ensures index >= 4 ==> r == 0xFFFF_FFFF
  {
    if index == 0 then (0x00FF_FFFF & word) | (newByte << 24)
    else if index == 1 then (0xFF00_FFFF & word) | (newByte << 16)
    else if index == 2 then (0xFFFF_00FF & word) | (newByte << 8)
    else if index == 3 then (0xFFFF_FF00 & word) | newByte
    else 0xFFFF_FFFF
  }

  /** Writing a byte and reading it back at the same index yields that byte. */
  lemma SetThenGetByte(w: Word, i: Word, b: Word)
    requires i < 4 && b < 0x100
    ensures GetByteBigEndian(SetByte(w, i, b), i) == b
  {
    if i == 0 {} else if i == 1 {} else if i == 2 {} else {}
  }

  /** Writing a byte leaves the other three bytes of the word unchanged. */
  lemma SetByteKeepsOthers(w: Word, i: Word, b: Word, j: Word)
    requires i < 4 && b < 0x100 && j < 4 && j != i
    ensures GetByteBigEndian(SetByte(w, i, b), j) == GetByteBigEndian(w, j)
  {
    if i == 0 {
      if j == 1 {} else if j == 2 {} else {}
    } else if i == 1 {
      if j == 0 {} else if j == 2 {} else {}
    } else if i == 2 {
      if j == 0 {} else if j == 1 {} else {}
    } else {
      if j == 0 {} else if j == 1 {} else {}
    }
  }

  /** `convertToLittleEndian`: reverse the order of the four bytes. */
  function ConvertToLittleEndian(instruction: Word): Word {
    // The source shifts a signed int; every shifted copy is masked, so the
    // arithmetic and the logical shift agree here.
    ((instruction >> 24) & 0xFF) | ((instruction >> 8) & 0xFF00)
    | ((instruction << 8) & 0xFF_0000) | ((instruction << 24) & 0xFF00_0000)
  }

  /** The byte at big-endian index i of the swapped word is the byte at index 3 - i of the original. */
  lemma LittleEndianReversesBytes(w: Word)
    ensures GetByteBigEndian(ConvertToLittleEndian(w), 0) == GetByteBigEndian(w, 3)
    ensures GetByteBigEndian(ConvertToLittleEndian(w), 1) == GetByteBigEndian(w, 2)
    ensures GetByteBigEndian(ConvertToLittleEndian(w), 2) == GetByteBigEndian(w, 1)
    ensures GetByteBigEndian(ConvertToLittleEndian(w), 3) == GetByteBigEndian(w, 0)
  {
    var r := ConvertToLittleEndian(w);
    assert GetByteBigEndian(r, 0) == GetByteBigEndian(w, 3);
    assert GetByteBigEndian(r, 1) == GetByteBigEndian(w, 2);
    assert GetByteBigEndian(r, 2) == GetByteBigEndian(w, 1);
  }

  /** Reversing the byte order twice gives the word back. */
  lemma LittleEndianInvolution(w: Word)
    ensures ConvertToLittleEndian(ConvertToLittleEndian(w)) == w
  {
  }

  // ------------------------------------------------------ class and fields

  /** `isMult`: bits 25-22 are zero and bits 7-4 hold the pattern 1001. */
  predicate IsMult(instruction: Word)
    ensures IsMult(instruction) <==> (instruction >> 22) & 0xF == 0 && (instruction >> 4) & 0xF == 9
  {
    (instruction & 0x3C0_0000) == 0 && ((instruction & 0xC0_00F0) >> 4) == 9
  }

  /** `extractIDbits`: bits 27-26, the instruction class. */
  function ExtractIdBits(instruction: Word): (r: Word)
    ensures r < 4
  {
    (instruction & 0xC00_0000) >> 26
  }

  /**
    `getCond`: bits 31-28. The source masks with an `int` and shifts
    arithmetically, so the copies of bit 31 are masked off again.
   */
  function GetCond(instruction: Word): (r: Word)
    ensures r < 16
  {
    var masked := instruction & 0xF000_0000;
    var shifted := if masked & 0x8000_0000 == 0 then masked >> 28 else (masked >> 28) | 0xFFFF_FFF0;
    shifted & 0xF
  }

  function GetShiftRegister(instruction: Word): (r: Word)
    ensures r < 16
  {
    (instruction & 0xF00) >> 8
  }

  function GetShiftType(value: Word): (r: Word)
    ensures r < 4
  {
    (value & 0x6) >> 1
  }

  function GetOpcode(instruction: Word): (r: Word)
    ensures r < 16
  {
    (instruction & 0x1E0_0000) >> 21
  }

  /** Bits 11-8, the same field `getShiftRegister` reads. */
  function GetRotate(instruction: Word): (r: Word)
    ensures r < 16
  {
    (instruction & 0xF00) >> 8
  }

  function GetImm(instruction: Word): (r: Word)
    ensures r < 0x100
  {
    instruction & 0xFF
  }

  function GetShift(instruction: Word): (r: Word)
    ensures r < 0x100
  {
    (instruction & 0xFF0) >> 4
  }

  function GetRm(instruction: Word): (r: Word)
    ensures r < 16
  {
    instruction & 0xF
  }

  function GetSBit(instruction: Word): (r: Word)
    ensures r < 2
  {
    (instruction & 0x10_0000) >> 20
  }

  function GetIBit(instruction: Word): (r: Word)
    ensures r < 2
  {
    (instruction & 0x200_0000) >> 25
  }

  function GetRn(instruction: Word): (r: Word)
    ensures r < 16
  {
    (instruction & 0xF_0000) >> 16
  }

  function GetRdest(instruction: Word): (r: Word)
    ensures r < 16
  {
    (instruction & 0xF000) >> 12
  }

  function GetOffsetDataTransfer(instruction: Word): (r: Word)
    ensures r < 0x1000
  {
    instruction & 0xFFF
  }

  function GetISingle(instruction: Word): Word {
    GetIBit(instruction)
  }

  function GetPBit(instruction: Word): (r: Word)
    ensures r < 2
  {
    (instruction & 0x100_0000) >> 24
  }

  function GetUBit(instruction: Word): (r: Word)
    ensures r < 2
  {
    (instruction & 0x80_0000) >> 23
  }

  /** Bit 20, the same bit `getSBit` reads. */
  function GetLBit(instruction: Word): (r: Word)
    ensures r < 2
  {
    (instruction & 0x10_0000) >> 20
  }

  function GetRnSingle(instruction: Word): Word {
    GetRn(instruction)
  }

  function GetRdSingle(instruction: Word): Word {
    GetRdest(instruction)
  }

  function GetABit(instruction: Word): (r: Word)
    ensures r < 2
  {
    (instruction & 0x20_0000) >> 21
  }

  /** Bit 20, the same bit `getSBit` reads. */
  function GetSBitMul(instruction: Word): (r: Word)
    ensures r < 2
  {
    (instruction & 0x10_0000) >> 20
  }

  /** The multiply destination sits where data processing keeps Rn. */
  function GetRdMul(instruction: Word): Word {
    GetRn(instruction)
  }

  /** The multiply accumulator sits where data processing keeps Rd. */
  function GetRnMul(instruction: Word): Word {
    GetRdest(instruction)
  }

  /** Bits 11-8, the same field `getShiftRegister` reads. */
  function GetRsMul(instruction: Word): (r: Word)
    ensures r < 16
  {
    (instruction & 0xF00) >> 8
  }

  /** Bits 3-0, the same field `getRm` reads. */
  function GetRmMul(instruction: Word): (r: Word)
    ensures r < 16
  {
    instruction & 0xF
  }

  function GetOffset(instruction: Word): (r: Word)
    ensures r < 0x100_0000
  {
    instruction & 0xFF_FFFF
  }

  /** `getCond` of a word whose top nibble is `cond` is `cond`, whatever the rest holds. */
  lemma CondOfWord(cond: Word, rest: Word)
    requires cond < 16 && rest < 0x1000_0000
    ensures GetCond((cond << 28) | rest) == cond
  {
    var w := (cond << 28) | rest;
    if w & 0x8000_0000 == 0 {
      assert (w & 0xF000_0000) >> 28 == cond;
    } else {
      assert (w & 0xF000_0000) >> 28 == cond;
    }
  }

  // ------------------------------------------------------- shift and rotate

  /** `getLSbit`: bit 0. */
  function GetLSbit(value: Word): (r: Word)
    ensures r < 2
    ensures r == 1 <==> value % 2 == 1
  {
    value & 0x1
  }

  /** `isZero`: a word is zero exactly when each of its four bytes is. */
  predicate IsZero(value: Word)
    ensures IsZero(value) <==> forall i: Word | i < 4 :: GetByteBigEndian(value, i) == 0
  {
    ZeroBytes(value);
    value == 0
  }

  /** A word whose four big-endian bytes are zero is zero. */
  lemma ZeroBytes(w: Word)
    ensures (forall i: Word | i < 4 :: GetByteBigEndian(w, i) == 0) ==> w == 0
  {
    if forall i: Word | i < 4 :: GetByteBigEndian(w, i) == 0 {
      assert GetByteBigEndian(w, 0) == 0 && GetByteBigEndian(w, 1) == 0;
      assert GetByteBigEndian(w, 2) == 0 && GetByteBigEndian(w, 3) == 0;
    }
  }

  /**
    `getBitAtPosition`: bit n-1 of the value, and 0 for n = 0. For n = 32 the
    source shifts 1 into the sign bit of an `int`, which is undefined, so n is
    at most 31.
   */
  function GetBitAtPosition(value: Word, n: Word): (r: Word)
    requires n <= 31
    ensures n == 0 ==> r == 0
    ensures n > 0 ==> r == GetLSbit(value >> (n - 1))
  {
    if n != 0 then (value & (1 << (n - 1))) >> (n - 1) else 0
  }

  /** C's `value >> 1` on a signed `int`: bit 31 is copied into the vacated top bit. */
  function AsrOne(x: Word): (r: Word)
    ensures r & 0x8000_0000 == x & 0x8000_0000
    ensures r & 0x7FFF_FFFF == x >> 1
  {
    (x >> 1) | (x & 0x8000_0000)
  }

  /** An arithmetic shift right by `n`, as `n` single-bit arithmetic shifts. */
  function AsrIter(v: Word, n: nat): Word {
    if n == 0 then v else AsrOne(AsrIter(v, n - 1))
  }

  /** An arithmetic shift keeps the sign bit. */
  lemma {:induction false} AsrIterKeepsSign(v: Word, n: nat)
    ensures AsrIter(v, n) & 0x8000_0000 == v & 0x8000_0000
  {
    if n > 0 {
      AsrIterKeepsSign(v, n - 1);
    }
  }

  /** C's `value >> n` on a signed `int`, for an amount below the word width. */
  function Asr(value: Word, n: Word): Word
    requires n < 32
  {
    if value & 0x8000_0000 == 0 then value >> n else (value >> n) | SignFill(n)
  }

  /** The top `n` bits set: what an arithmetic shift by `n` copies the sign bit into. */
  function SignFill(n: Word): Word
    requires n < 32
  {
    !(0xFFFF_FFFF >> n)
  }

  lemma ShiftTwice(v: Word, n: Word)
    requires n < 31
    ensures (v >> n) >> 1 == v >> (n + 1)
  {
  }

  lemma SignFillMore(n: Word)
    requires n < 31
    ensures (SignFill(n) >> 1) | 0x8000_0000 == SignFill(n + 1)
  {
  }

  lemma NegativeStaysNegative(v: Word, n: Word)
    requires n < 32 && v & 0x8000_0000 != 0
    ensures ((v >> n) | SignFill(n)) & 0x8000_0000 != 0
  {
  }

  lemma AsrOneOfNegative(a: Word, f: Word)
    requires (a | f) & 0x8000_0000 != 0
    ensures AsrOne(a | f) == (a >> 1) | ((f >> 1) | 0x8000_0000)
  {
  }

  lemma AsrOneMoreNegative(v: Word, n: Word)
    requires n < 31 && v & 0x8000_0000 != 0
    ensures AsrOne((v >> n) | SignFill(n)) == (v >> (n + 1)) | SignFill(n + 1)
  {
    // One step per lemma: the solver does not find the composition on its own.
    ShiftTwice(v, n);
    SignFillMore(n);
    NegativeStaysNegative(v, n);
    AsrOneOfNegative(v >> n, SignFill(n));
  }

  lemma AsrOneMorePositive(v: Word, n: Word)
    requires n < 31 && v & 0x8000_0000 == 0
    ensures AsrOne(v >> n) == v >> (n + 1)
  {
    ShiftTwice(v, n);
    PositiveStaysPositive(v, n);
  }

  lemma PositiveStaysPositive(v: Word, n: Word)
    requires n < 32 && v & 0x8000_0000 == 0
    ensures (v >> n) & 0x8000_0000 == 0
  {
  }

  /** One more single-bit arithmetic shift extends a shift by `n` to a shift by `n + 1`. */
  lemma AsrOneMore(v: Word, n: Word)
    requires n < 31
    ensures AsrOne(Asr(v, n)) == Asr(v, n + 1)
  {
    if v & 0x8000_0000 != 0 {
      AsrOneMoreNegative(v, n);
    } else {
      AsrOneMorePositive(v, n);
    }
  }

  lemma AmountPredecessor(n: Word)
    requires 0 < n < 32
    ensures (n - 1) as nat == n as nat - 1
  {
  }

  lemma AsrByZero(v: Word)
    ensures Asr(v, 0) == v
  {
  }

  /** `n` single-bit arithmetic shifts are one arithmetic shift by `n`. */
  lemma {:induction false} AsrIterIsAsr(v: Word, n: Word)
    requires n < 32
    ensures AsrIter(v, n as nat) == Asr(v, n)
    decreases n as nat
  {
    if n == 0 {
      assert n as nat == 0;
      AsrByZero(v);
    } else {
      var k := n - 1;
      AmountPredecessor(n);
      assert AsrIter(v, n as nat) == AsrOne(AsrIter(v, k as nat));
      AsrIterIsAsr(v, k);
      AsrOneMore(v, k);
      assert k + 1 == n;
    }
  }

  /**
    `arShift`: `numberOfTimes` one-bit arithmetic shifts right, OR-ing
    `signBit << 31` into the result after each. That shift is done on an `int`
    before the loop, and for any flag but 0 it overflows, which is undefined
    whatever the count. With flag 0 the OR adds nothing and the result is an
    arithmetic shift by `numberOfTimes`; a count of 0 or less shifts nothing.
   */
  method ArShift(value: Word, numberOfTimes: int, signBit: Word) returns (r: Outcome<Word>)
    ensures signBit != 0 <==> r == UndefinedBehaviour
    ensures signBit == 0 && numberOfTimes <= 0 ==> r == Defined(value)
    ensures signBit == 0 && numberOfTimes > 0 ==> r == Defined(AsrIter(value, numberOfTimes))
  {
    if signBit != 0 {
      return UndefinedBehaviour;
    }
    var shifted := value;
    var i := 0;
    while i < numberOfTimes
      invariant 0 <= i && (i <= numberOfTimes || i == 0)
      invariant shifted == AsrIter(value, i)
    {
      shifted := AsrOne(shifted);
      i := i + 1;
    }
    r := Defined(shifted);
  }

  /**
    `rightRotate` as written: `(value >> n) | (value << (32 - n))` on a signed
    `int`, so for a negative value the arithmetic shift also sets the top n
    bits. An amount of 0 would shift by 32, which is undefined, so 0 < n < 32.
   */
  function RightRotateAsWritten(value: Word, numberOfTimes: Word): (r: Word)
    requires 0 < numberOfTimes < 32
    ensures value & 0x8000_0000 == 0 ==> r == RightRotate(value, numberOfTimes)
  {
    Asr(value, numberOfTimes) | (value << (32 - numberOfTimes))
  }

  /** `rightRotate` as evidently intended: the same expression on an unsigned word. */
  function RightRotate(value: Word, numberOfTimes: Word): Word
    requires 0 < numberOfTimes < 32
  {
    (value >> numberOfTimes) | (value << (32 - numberOfTimes))
  }

  /** The as-written `rightRotate` of 0x80000000 by 1 is 0xC0000000, not 0x40000000. */
  lemma RightRotateAsWrittenSmearsSign()
    ensures RightRotateAsWritten(0x8000_0000, 1) == 0xC000_0000
    ensures RightRotate(0x8000_0000, 1) == 0x4000_0000
    ensures (0x8000_0000 as Word).RotateRight(1) == 0x4000_0000
  {
  }

  /** The corrected `rightRotate` is a rotation: for every amount it equals the built-in rotate right. */
  lemma RightRotateIsRotation(v: Word, n: nat)
    requires 0 < n < 32
    ensures 0 < n as Word < 32 && RightRotate(v, n as Word) == v.RotateRight(n)
  {
  }

  // ------------------------------------------------------------------ carry

  /** `getMSbit` as evidently intended: bit 31 as 0 or 1. */
  function GetMSbit(value: Word): (r: Word)
    ensures r < 2
    ensures r == 1 <==> value >= 0x8000_0000
  {
    (value & 0x8000_0000) >> 31
  }

  /**
    `getMSbit` as written: the mask 0x80000000 is stored in an `int`, so it is
    negative, and the arithmetic shift by 31 yields -1, not 1, for a set bit.
   */
  function GetMSbitAsWritten(value: Word): (r: int)
    ensures r == -(GetMSbit(value) as int)
  {
    if value & 0x8000_0000 == 0 then 0 else -1
  }

  /** The as-written `getMSbit` of 0x80000000 is -1. */
  lemma MSbitAsWrittenIsNegative()
    ensures GetMSbitAsWritten(0x8000_0000) == -1 && GetMSbit(0x8000_0000) == 1
  {
  }

  /** The sum of two `int`s does not overflow: operands of equal sign give a sum of that sign. */
  predicate NoSignedOverflow(a: Word, b: Word) {
    !(GetMSbit(a) == GetMSbit(b) && GetMSbit(a + b) != GetMSbit(a))
  }

  /**
    `getAdditionCarry`: 1 when the sign bits of the operands do not add up to
    the sign bit of the sum. Signed overflow of the sum is undefined in the
    source and excluded; on the remaining inputs this is exactly the carry out
    of an unsigned 32-bit addition.
   */
  function GetAdditionCarry(operand1: Word, operand2: Word): (r: Word)
    requires NoSignedOverflow(operand1, operand2)
    ensures r < 2
    ensures r == 1 <==> operand1 + operand2 < operand1
    ensures GetMSbit(operand1) == 1 && GetMSbit(operand2) == 1 ==> r == 1
    ensures GetMSbit(operand1) != GetMSbit(operand2) ==> (r == 1 <==> GetMSbit(operand1 + operand2) == 0)
    ensures GetMSbit(operand1) == 0 && GetMSbit(operand2) == 0 ==> r == 0
  {
    var msb1 := GetMSbit(operand1) as int;
    var msb2 := GetMSbit(operand2) as int;
    if msb1 + msb2 != GetMSbit(operand1 + operand2) as int then 1 else 0
  }

  /** With the as-written `getMSbit` (0 or -1) the comparison gives the same carry. */
  lemma AdditionCarryWithAsWrittenMSbit(a: Word, b: Word)
    requires NoSignedOverflow(a, b)
    ensures (if GetMSbitAsWritten(a) + GetMSbitAsWritten(b) != GetMSbitAsWritten(a + b) then 1 else 0) as Word
            == GetAdditionCarry(a, b)
  {
    if a & 0x8000_0000 == 0 {
      if b & 0x8000_0000 == 0 {} else {}
    } else {
      if b & 0x8000_0000 == 0 {} else {}
    }
  }
}

=== FILE: diagnostics.dfy ===
/**
  What the assembler reports besides the words it produces: the error records
  it appends to its error vector, and the marker for inputs on which the C
  source has undefined behaviour.
 */
module Diagnostics {

  /** The five error throwers of src/assemble.c; the message text is not modelled. */
  datatype ErrorKind =
    | UndefinedInstruction   // throwUndefinedError
    | MultipleDefinitions    // throwLabelError
    | InvalidExpression      // throwExpressionError
    | InvalidRegister        // throwRegisterError
    | MissingExpression      // throwExpressionMissingError

  /** One error record: the 1-based source line, what went wrong, and the token it names. */
  datatype Error = Error(line: nat, kind: ErrorKind, subject: string)

  /**
    A computation of the C source that either has a defined result or reaches
    undefined behaviour (a signed overflow, an uninitialised read, a NULL
    dereference), after which the source promises nothing.
   */
  datatype Outcome<+T> = Defined(value: T) | UndefinedBehaviour
}

=== FILE: encoders.dfy ===
/**
  The per-class encoders of the assembler's second pass (src/assemble.c):
  each takes the tokens of one line from the mnemonic on, consumes what it
  understands and returns the instruction word, the tokens it left, the error
  vector and the literal pool of `ldr` constants.
 */
module Encoders {
  import opened Adts
  import opened Bits
  import opened Diagnostics
  import opened Numerals
  import opened Immediate
  import opened Lexer
  import opened Layout
  import Mappings

  // ------------------------------------------------------------- tokens

  /** The tokeniser never produces an empty token. */
  predicate Words(tokens: seq<string>) {
    forall k :: 0 <= k < |tokens| ==> |tokens[k]| >= 1
  }

  /** `peekFront`: the first token, or NULL once the line is used up. */
  function Peek(tokens: seq<string>): Option<string> {
    if |tokens| == 0 then None else Some(tokens[0])
  }

  /** `getType(peekFront(tokens))`. */
  function FrontType(tokens: seq<string>): TokenType
    requires Words(tokens)
  {
    GetType(Peek(tokens))
  }

  /** What `getFront` leaves of a line after k calls is still a line of tokens. */
  lemma WordsFrom(tokens: seq<string>, k: nat)
    requires Words(tokens) && k <= |tokens|
    ensures Words(tokens[k..])
  {
    assert forall j :: 0 <= j < |tokens| - k ==> tokens[k..][j] == tokens[k + j];
  }

  /** A token in front of a line of tokens makes a line of tokens, and `getFront` takes it back off. */
  lemma WordsCons(t: string, rest: seq<string>)
    requires |t| >= 1 && Words(rest)
    ensures Words([t] + rest) && ([t] + rest)[0] == t && ([t] + rest)[1..] == rest
  {
    var tokens := [t] + rest;
    assert forall j :: 1 <= j < |tokens| ==> tokens[j] == rest[j - 1];
  }

  // ---------------------------------------------------------- registers

  /** The words `getDec(token + 1)` reads from the register tokens r0 to r16. */
  const RegisterWords: seq<Word> := [0, 1, 2, 3, 4, 5, 6, 7, 8, 9, 10, 11, 12, 13, 14, 15, 16]

  /** The register number of a register token, as the word the encoders OR into place. */
  function RegisterField(token: string): (r: Word)
    requires IsRegister(token)
    ensures r <= 16
  {
    RegisterWordBound(RegisterNumber(token));
    RegisterWords[RegisterNumber(token)]
  }

  lemma RegisterWordBound(n: nat)
    requires n <= 16
    ensures RegisterWords[n] <= 16 && (n <= 15 ==> RegisterWords[n] < 16)
  {
  }

  lemma RegisterWordIsConversion(n: nat)
    requires n <= 16
    ensures RegisterWords[n] == n as Word
  {
    if n == 0 {} else if n == 1 {} else if n == 2 {} else if n == 3 {} else if n == 4 {}
    else if n == 5 {} else if n == 6 {} else if n == 7 {} else if n == 8 {} else if n == 9 {}
    else if n == 10 {} else if n == 11 {} else if n == 12 {} else if n == 13 {} else if n == 14 {}
    else if n == 15 {} else {}
  }

  /** The register field is exactly what `getDec(token + 1)` reads from a register token. */
  lemma RegisterFieldIsGetDec(token: string)
    requires IsRegister(token)
    ensures GetDec(token[1..]) == Defined(RegisterField(token))
  {
    var s := token[1..];
    AllDigitsRun(s);
    assert !IsSpace(s[0]) && s[0] != '-' && s[0] != '+';
    assert SkipSpace(s) == s;
    RegisterWordIsConversion(RegisterNumber(token));
  }

  // ------------------------------------------------------------ results

  /**
    What an encoder hands back to `decode`: the word, how many tokens of the
    line it took with `getFront`, the error vector and the literal pool.
   */
  datatype Step = Step(word: Word, consumed: nat, errors: seq<Error>, pool: seq<string>)

  /** The encoder took at least the mnemonic, no more than the line holds, and only appended errors. */
  predicate Advances(s: Step, tokens: seq<string>, errors: seq<Error>) {
    1 <= s.consumed <= |tokens| && errors <= s.errors
  }

  /** The literal pool holds `=` tokens whose value `getExpression` can read again at the end of the pass. */
  predicate PoolReadable(pool: seq<string>) {
    forall k :: 0 <= k < |pool| ==> |pool[k]| >= 1 && GetExpression(pool[k]).Defined?
  }

  /** The pool is unchanged, or an `ldr` appended one `=` token to it. */
  predicate PoolGrowth(before: seq<string>, after: seq<string>, mnemonic: string) {
    after == before || (mnemonic == "ldr" && |after| == |before| + 1 && after[..|before|] == before)
  }

  /** `setCond` with a key of the condition table. */
  function SetCond(x: Word, cond: string): (r: Word)
    requires Mappings.Conditions(cond).Some?
    ensures GetCond(r) == Mappings.Conditions(cond).value
    ensures r & 0x0FFF_FFFF == x & 0x0FFF_FFFF
  {
    SetCondBits(x, Mappings.Conditions(cond).value)
  }

  /** The empty condition suffix is the always code 14 that every non-branch encoder sets. */
  lemma AlwaysCondition()
    ensures Mappings.Conditions("") == Some(14)
  {
  }

  // ---------------------------------------------------- data processing

  /** Operand 2 as `decodeDataProcessing` reads it: the I bit, the 12-bit field, and the error vector after it. */
  datatype Operand2 = Operand2(i: Word, field: Word, errors: seq<Error>) | NotAnOperand

  /**
    The operand-2 token: a register gives its number with I clear; an
    expression gives what `getExpression` makes of it with I set, and an
    invalid `#` expression is reported against the token.
   */
  function ReadOperand2(tokens: seq<string>, line: nat, errors: seq<Error>): (r: Outcome<Operand2>)
    requires Words(tokens)
    ensures r.Defined? && r.value.Operand2? ==> |tokens| >= 1
    ensures r.Defined? && r.value.Operand2? ==>
              (r.value.i == 0 <==> FrontType(tokens) == Register) && r.value.i < 2
    ensures r.Defined? && r.value.Operand2? ==>
              r.value.errors == errors || r.value.errors == errors + [Error(line, InvalidExpression, tokens[0])]
    ensures r.Defined? && r.value.NotAnOperand? <==>
              FrontType(tokens) !in {ExpressionTag, ExpressionEqual, Register}
  {
    var kind := FrontType(tokens);
    if kind != ExpressionTag && kind != ExpressionEqual && kind != Register then
      Defined(NotAnOperand)
    else if kind == Register then
      Defined(Operand2(0, RegisterField(tokens[0]), errors))
    else
      match GetExpression(tokens[0])
      case UndefinedBehaviour => UndefinedBehaviour
      case Defined(e) =>
        Defined(Operand2(1, e.word, if e.invalid then errors + [Error(line, InvalidExpression, tokens[0])] else errors))
  }

  /**
    `decodeDataProcessing`: Rd unless the mnemonic is tst, teq or cmp, Rn
    unless it is mov, then a register or expression operand; a missing or
    mistyped operand answers -1 with the offending token left in place.
   */
  function DataProcessing(tokens: seq<string>, line: nat, errors: seq<Error>, pool: seq<string>): (r: Outcome<Step>)
    requires |tokens| >= 1 && Words(tokens) && Mappings.DataOpcode(tokens[0]).Some?
    ensures r.Defined? ==> Advances(r.value, tokens, errors) && r.value.pool == pool
    ensures r.Defined? ==> (r.value.errors == errors
              || exists t :: r.value.errors == errors + [Error(line, InvalidExpression, t)])
  {
    Mappings.DataClassIsOpcodeKeys(tokens[0]);
    DataProcessingOf(tokens, Mappings.DataOpcode(tokens[0]).value, Mappings.DataType(tokens[0]).value, line, errors, pool)
  }

  /** The registers before operand 2, or the index of the token that should have been one. */
  datatype DataRegisters = DataRegisters(rd: Word, rn: Word, next: nat) | MissingRegister(at: nat)

  /**
    Rd unless the data type is 2 (tst, teq, cmp), then Rn unless it is 1
    (mov); a register left out stays 0.
   */
  function ReadDataRegisters(tokens: seq<string>, dataType: Word): (r: DataRegisters)
    requires |tokens| >= 1 && Words(tokens)
    ensures r.DataRegisters? ==> r.next == 1 + (if dataType != 2 then 1 else 0) + (if dataType != 1 then 1 else 0)
    ensures r.DataRegisters? ==> r.next <= |tokens| && r.rd <= 16 && r.rn <= 16
    ensures r.MissingRegister? ==> 1 <= r.at <= |tokens| && FrontType(tokens[r.at..]) != Register
  {
    var afterRd := if dataType != 2 then 2 else 1;
    WordsFrom(tokens, 1);
    if dataType != 2 && FrontType(tokens[1..]) != Register then MissingRegister(1)
    else
      WordsFrom(tokens, afterRd);
      if dataType != 1 && FrontType(tokens[afterRd..]) != Register then MissingRegister(afterRd)
      else
        var rd := if dataType != 2 then RegisterField(tokens[1]) else 0;
        var rn := if dataType != 1 then RegisterField(tokens[afterRd]) else 0;
        DataRegisters(rd, rn, if dataType != 1 then afterRd + 1 else afterRd)
  }

  /** The body of `decodeDataProcessing` once the mnemonic's opcode and data type are looked up. */
  function DataProcessingOf(tokens: seq<string>, opcode: Word, dataType: Word, line: nat, errors: seq<Error>, pool: seq<string>)
    : (r: Outcome<Step>)
    requires |tokens| >= 1 && Words(tokens) && opcode < 16 && dataType <= 2
    ensures r.Defined? ==> Advances(r.value, tokens, errors) && r.value.pool == pool
    ensures r.Defined? ==> (r.value.errors == errors
              || exists t :: r.value.errors == errors + [Error(line, InvalidExpression, t)])
    ensures ReadDataRegisters(tokens, dataType).MissingRegister? ==>
              r == Defined(Step(0xFFFF_FFFF, ReadDataRegisters(tokens, dataType).at, errors, pool))
  {
    match ReadDataRegisters(tokens, dataType)
    case MissingRegister(at) => Defined(Step(0xFFFF_FFFF, at, errors, pool))
    case DataRegisters(rd, rn, next) =>
      var s: Word := if dataType == 2 then 1 else 0;
      WordsFrom(tokens, next);
      match ReadOperand2(tokens[next..], line, errors)
      case UndefinedBehaviour => UndefinedBehaviour
      case Defined(NotAnOperand) => Defined(Step(0xFFFF_FFFF, next, errors, pool))
      case Defined(Operand2(i, field, errors')) =>
        Defined(Step(DataProcessingWord(opcode, s, i, rn, rd, field), next + 1, errors', pool))
  }

  // ----------------------------------------------------------- multiply

  /** One register operand of a multiply: its number (0 when absent), the tokens it took and the error vector. */
  datatype MultiplyOperand = MultiplyOperand(field: Word, taken: nat, errors: seq<Error>)

  /**
    `checkRegMult` and the `getFront` after it: a register is taken; a missing
    token is reported against the mnemonic and a non-register against itself,
    which stays in place for the next operand.
   */
  function MultiplyRegister(tokens: seq<string>, multType: string, line: nat, errors: seq<Error>): (r: MultiplyOperand)
    requires Words(tokens)
    ensures r.taken <= 1 && r.taken <= |tokens| && r.field <= 16 && errors <= r.errors
    ensures r.taken == 1 <==> FrontType(tokens) == Register
    ensures r.taken == 1 ==> r.errors == errors && r.field == RegisterField(tokens[0])
    ensures r.taken == 0 && |tokens| == 0 ==> r.errors == errors + [Error(line, MissingExpression, multType)]
    ensures r.taken == 0 && |tokens| > 0 ==> r.errors == errors + [Error(line, InvalidRegister, tokens[0])]
  {
    if |tokens| == 0 then MultiplyOperand(0, 0, errors + [Error(line, MissingExpression, multType)])
    else if FrontType(tokens) != Register then MultiplyOperand(0, 0, errors + [Error(line, InvalidRegister, tokens[0])])
    else MultiplyOperand(RegisterField(tokens[0]), 1, errors)
  }

  /** `decodeMultiply`: Rd, Rm and Rs, and Rn for `mla`, each checked by `checkRegMult`. */
  function Multiply(tokens: seq<string>, line: nat, errors: seq<Error>, pool: seq<string>): (r: Step)
    requires |tokens| >= 1 && Words(tokens)
    ensures Advances(r, tokens, errors) && r.pool == pool
  {
    var multType := tokens[0];
    WordsFrom(tokens, 1);
    var rd := MultiplyRegister(tokens[1..], multType, line, errors);
    var afterRd := 1 + rd.taken;
    WordsFrom(tokens, afterRd);
    var rm := MultiplyRegister(tokens[afterRd..], multType, line, rd.errors);
    var afterRm := afterRd + rm.taken;
    WordsFrom(tokens, afterRm);
    var rs := MultiplyRegister(tokens[afterRm..], multType, line, rm.errors);
    var afterRs := afterRm + rs.taken;
    WordsFrom(tokens, afterRs);
    var acc: Word := if multType == "mla" then 1 else 0;
    var rn := if multType == "mla" then MultiplyRegister(tokens[afterRs..], multType, line, rs.errors)
              else MultiplyOperand(0, 0, rs.errors);
    Step(MultiplyWord(acc, rd.field, rm.field, rs.field, rn.field), afterRs + rn.taken, rn.errors, pool)
  }

  // ------------------------------------------------ single data transfer

  /**
    The first loop of `getAddress`: take tokens up to the one ending in ']',
    dropping a leading '[' and that ']'. A closing token is kept only when
    something is left of it besides the ']' (so "[]" leaves an empty part).
    `parts` holds the bracket expressions taken so far.
   */
  function BracketParts(tokens: seq<string>, parts: seq<string>): (r: (seq<string>, nat))
    requires |tokens| >= 1 && Words(tokens)
    ensures 1 <= r.1 <= |tokens| && |parts| <= |r.0| <= |parts| + r.1
    ensures r.0[..|parts|] == parts
    decreases |tokens|
  {
    var token := tokens[0];
    var from := if token[0] == '[' then 1 else 0;
    if token[|token| - 1] == ']' then
      (if |token| >= 2 then parts + [token[from..|token| - 1]] else parts, 1)
    else if |tokens| == 1 then
      (parts + [token[from..]], 1)
    else
      WordsFrom(tokens, 1);
      var next := parts + [token[from..]];
      var (all, taken) := BracketParts(tokens[1..], next);
      assert all[..|parts|] == next[..|next|][..|parts|] == parts;
      (all, taken + 1)
  }

  /** What `getAddress` hands back: the P bit, the base register, the offset and the tokens it took. */
  datatype Address = Address(p: Word, rn: Word, offset: Word, taken: nat)

  /**
    `getAddress`: the base register from the first bracket part; an offset
    from the second (pre-indexed), or from a `#` expression after the bracket
    (post-indexed). An empty part, or an offset `getExpression` rejects, is
    undefined behaviour, since `getExpression` then reads past the string or
    reports into a NULL error vector.
   */
  function GetAddress(tokens: seq<string>): (r: Outcome<Address>)
    requires |tokens| >= 1 && Words(tokens)
    ensures r.Defined? ==> 1 <= r.value.taken <= |tokens| && r.value.p < 2
  {
    var (parts, taken) := BracketParts(tokens, []);
    WordsFrom(tokens, taken);
    AddressOfParts(parts, tokens[taken..], taken)
  }

  /** The rest of `getAddress` once the bracket loop took `taken` tokens, leaving `after`. */
  function AddressOfParts(parts: seq<string>, after: seq<string>, taken: nat): (r: Outcome<Address>)
    requires Words(after)
    ensures r.Defined? ==> r.value.p < 2 && taken <= r.value.taken <= taken + 1
    ensures r.Defined? && r.value.taken == taken + 1 ==> |after| >= 1 && r.value.p == 0
  {
    if |parts| == 0 || |parts[0]| == 0 then UndefinedBehaviour
    else match GetDec(parts[0][1..])
      case UndefinedBehaviour => UndefinedBehaviour
      case Defined(rn) =>
        if |parts| >= 2 then
          if |parts[1]| == 0 then UndefinedBehaviour
          else match GetExpression(parts[1])
            case UndefinedBehaviour => UndefinedBehaviour
            case Defined(e) => if e.invalid then UndefinedBehaviour else Defined(Address(1, rn, e.word, taken))
        else if FrontType(after) == ExpressionTag then
          match GetExpression(after[0])
          case UndefinedBehaviour => UndefinedBehaviour
          case Defined(e) => if e.invalid then UndefinedBehaviour else Defined(Address(0, rn, e.word, taken + 1))
        else Defined(Address(1, rn, 0, taken))
  }

  /** A counter as the `uint32_t` the source keeps it in. */
  function Wrap(n: nat): Word {
    (n % 0x1_0000_0000) as Word
  }

  /**
    The literal-pool offset of an `ldr` whose constant went to pool slot
    `poolSize - 1`, computed in 32-bit unsigned arithmetic: the byte address
    of that slot, written after all `total` instructions, less the PC the
    emulator adds the offset to, this instruction's byte address plus 8.
   */
  function PoolOffset(total: Word, poolSize: Word, index: Word): (r: Word)
    ensures r == (total + poolSize - 1) * 4 - (index * 4 + 8)
  {
    (total + poolSize - 1 - index - 2) * 4
  }

  /**
    `decodeSingleDataTransfer`: Rd, then for `ldr` a bracketed address, a
    register, or an `=` constant. A constant up to 0xFF becomes `mov Rd, =c`;
    a larger one goes to the literal pool and is loaded PC-relative. For
    `str` nothing after Rd is read.
   */
  function SingleDataTransfer(tokens: seq<string>, index: Word, total: Word, line: nat, errors: seq<Error>, pool: seq<string>)
    : (r: Outcome<Step>)
    requires |tokens| >= 1 && Words(tokens)
    ensures r.Defined? ==> Advances(r.value, tokens, errors) && PoolGrowth(pool, r.value.pool, tokens[0])
    ensures r.Defined? && PoolReadable(pool) ==> PoolReadable(r.value.pool)
  {
    var instruction := tokens[0];
    WordsFrom(tokens, 1);
    if FrontType(tokens[1..]) != Register then Defined(Step(0xFFFF_FFFF, 1, errors, pool))
    else
      var rdName := tokens[1];
      var rd := RegisterField(rdName);
      WordsFrom(tokens, 2);
      if instruction != "ldr" then Defined(Step(TransferWord(0, 0, 1, 0, 15, rd, 0), 2, errors, pool))
      else if |tokens| > 2 && tokens[2][0] == '[' then
        match GetAddress(tokens[2..])
        case UndefinedBehaviour => UndefinedBehaviour
        case Defined(a) =>
          // `rn << 0x10` on an int overflows from 0x8000 on
          if a.rn >= 0x8000 then UndefinedBehaviour
          else Defined(Step(TransferWord(0, a.p, 1, 1, a.rn, rd, a.offset), 2 + a.taken, errors, pool))
      else
        var kind := FrontType(tokens[2..]);
        if kind != ExpressionEqual && kind != Register then Defined(Step(0xFFFF_FFFF, 2, errors, pool))
        else if kind == Register then Defined(Step(TransferWord(0, 1, 1, 1, 15, rd, 0), 3, errors, pool))
        else LdrConstant(tokens, rd, index, total, line, errors, pool)
  }

  /** `ldr Rd, =c`: a constant up to 0xFF is rewritten as a `mov`, a larger one is pooled. */
  function LdrConstant(tokens: seq<string>, rd: Word, index: Word, total: Word, line: nat, errors: seq<Error>,
                       pool: seq<string>): (r: Outcome<Step>)
    requires |tokens| >= 3 && Words(tokens) && tokens[0] == "ldr"
    ensures r.Defined? ==> Advances(r.value, tokens, errors) && PoolGrowth(pool, r.value.pool, tokens[0])
    ensures r.Defined? && PoolReadable(pool) ==> PoolReadable(r.value.pool)
  {
    var token := tokens[2];
    match GetExpression(token)
    case UndefinedBehaviour => UndefinedBehaviour
    case Defined(e) =>
      if e.word <= 0xFF then
        MovRewrite(tokens, line, errors, pool)
      else
        var pool' := pool + [token];
        assert PoolReadable(pool) ==> PoolReadable(pool') by {
          assert forall k :: 0 <= k < |pool| ==> pool'[k] == pool[k];
        }
        Defined(Step(TransferWord(0, 1, 1, 1, 15, rd, PoolOffset(total, Wrap(|pool'|), index)), 3, errors, pool'))
  }

  /**
    The rewrite of `ldr Rd, =c`: "mov" and Rd are put back in front of the
    constant and the line is handed to `decodeDataProcessing`.
   */
  function MovRewrite(tokens: seq<string>, line: nat, errors: seq<Error>, pool: seq<string>): (r: Outcome<Step>)
    requires |tokens| >= 2 && Words(tokens)
    ensures r.Defined? ==> Advances(r.value, tokens, errors) && r.value.pool == pool
  {
    var moved := ["mov"] + tokens[1..];
    assert Words(moved) by {
      assert forall k :: 1 <= k < |moved| ==> moved[k] == tokens[k];
    }
    DataProcessing(moved, line, errors, pool)
  }

  // ------------------------------------------------------------- branch

  /**
    `decodeBranch`: the condition from the mnemonic after its 'b', then the
    label's offset from this instruction plus the pipeline's 2, in words,
    truncated to 24 bits. A missing target is reported; a label that was
    never defined leaves `target` uninitialised.
   */
  function Branch(tokens: seq<string>, index: Word, labels: AssocMap<Word>, line: nat, errors: seq<Error>, pool: seq<string>)
    : (r: Outcome<Step>)
    requires |tokens| >= 1 && Words(tokens) && Mappings.AllInstructions(tokens[0]) == Some(3)
    ensures r.Defined? ==> Advances(r.value, tokens, errors) && r.value.pool == pool
  {
    var branch := tokens[0];
    Mappings.BranchSuffixIsCondition(branch);
    var code := Mappings.Conditions(branch[1..]).value;
    WordsFrom(tokens, 1);
    if |tokens| == 1 || FrontType(tokens[1..]) == Instruction then
      Defined(Step(0xFFFF_FFFF, 1, errors + [Error(line, MissingExpression, branch)], pool))
    else match Get(labels, tokens[1])
      case None => UndefinedBehaviour
      case Some(target) =>
        Defined(Step(BranchWord(code, BranchOffset(target, index)), 2, errors, pool))
  }

  /**
    A branch with no target, or with a mnemonic where the target should be,
    reports the missing expression against the branch mnemonic, answers -1
    and takes only the mnemonic.
   */
  lemma BranchMissingTarget(b: string, rest: seq<string>, index: Word, labels: AssocMap<Word>, line: nat,
                            errors: seq<Error>, pool: seq<string>)
    requires Mappings.AllInstructions(b) == Some(3) && Words(rest)
    requires |rest| == 0 || GetType(Some(rest[0])) == Instruction
    ensures Words([b] + rest)
    ensures Branch([b] + rest, index, labels, line, errors, pool)
            == Defined(Step(0xFFFF_FFFF, 1, errors + [Error(line, MissingExpression, b)], pool))
  {
    WordsCons(b, rest);
  }

  /** `*mem - instructionNumber - PC_OFFSET` in 32-bit unsigned arithmetic, shifted up and down by 8. */
  function BranchOffset(target: Word, index: Word): (r: Word)
    ensures r < 0x100_0000
  {
    ((target - index - 2) << 8) >> 8
  }

  // ------------------------------------------------------------- decode

  /**
    `decode`: dispatch on the class of the mnemonic. Classes 4 (lsl) and 5
    (andeq) take up to four tokens and give the word 0.
   */
  function Decode(tokens: seq<string>, index: Word, total: Word, labels: AssocMap<Word>, line: nat,
                  errors: seq<Error>, pool: seq<string>): (r: Outcome<Step>)
    requires |tokens| >= 1 && Words(tokens) && IsInstruction(tokens[0])
    ensures r.Defined? ==> Advances(r.value, tokens, errors) && PoolGrowth(pool, r.value.pool, tokens[0])
    ensures r.Defined? && PoolReadable(pool) ==> PoolReadable(r.value.pool)
  {
    var instructionClass := Mappings.AllInstructions(tokens[0]).value;
    if instructionClass == 0 then
      Mappings.DataClassIsOpcodeKeys(tokens[0]);
      DataProcessing(tokens, line, errors, pool)
    else if instructionClass == 1 then Defined(Multiply(tokens, line, errors, pool))
    else if instructionClass == 2 then SingleDataTransfer(tokens, index, total, line, errors, pool)
    else if instructionClass == 3 then Branch(tokens, index, labels, line, errors, pool)
    else Defined(Step(0, if |tokens| < 4 then |tokens| else 4, errors, pool))
  }

  /**
    `lsl` and `andeq` (classes 4 and 5) assemble to the word 0 and take the
    mnemonic and up to three operand tokens, whatever those are.
   */
  lemma SpecialClassesGiveZero(tokens: seq<string>, index: Word, total: Word, labels: AssocMap<Word>, line: nat,
                               errors: seq<Error>, pool: seq<string>)
    requires |tokens| >= 1 && Words(tokens) && (tokens[0] == "lsl" || tokens[0] == "andeq")
    ensures IsInstruction(tokens[0])
    ensures var r := Decode(tokens, index, total, labels, line, errors, pool);
            r.Defined? && r.value.word == 0 && r.value.errors == errors && r.value.pool == pool
            && r.value.consumed <= 4 && (|tokens| >= 4 ==> r.value.consumed == 4)
            && (|tokens| < 4 ==> r.value.consumed == |tokens|)
  {
    assert Mappings.AllInstructions("lsl") == Some(4) && Mappings.AllInstructions("andeq") == Some(5);
  }

  // ------------------------------------------- round trips through the emulator's extractors

  /** A register name is a register token whose field is its number. */
  lemma RegisterNameField(n: nat)
    requires n <= 16
    ensures IsRegister(RegisterName(n)) && |RegisterName(n)| >= 1
    ensures GetType(Some(RegisterName(n))) == Register && RegisterField(RegisterName(n)) == RegisterWords[n]
  {
    RegisterNameRoundTrip(n);
    RegisterIsOnlyRegister(RegisterName(n));
  }

  /** The register tokens a data-processing mnemonic takes before operand 2: Rd unless it is tst, teq or cmp, Rn unless it is mov. */
  function DataRegisterNames(dataType: Word, d: nat, n: nat): seq<string>
    requires d <= 16 && n <= 16
  {
    (if dataType != 2 then [RegisterName(d)] else []) + (if dataType != 1 then [RegisterName(n)] else [])
  }

  lemma ReadDataRegistersOfNames(head: string, dataType: Word, d: nat, n: nat, tail: seq<string>)
    requires |head| >= 1 && d <= 16 && n <= 16 && Words(tail)
    ensures var tokens := [head] + DataRegisterNames(dataType, d, n) + tail;
            Words(tokens)
            && ReadDataRegisters(tokens, dataType)
               == DataRegisters(if dataType != 2 then RegisterWords[d] else 0,
                                if dataType != 1 then RegisterWords[n] else 0,
                                1 + |DataRegisterNames(dataType, d, n)|)
  {
    RegisterNameField(d);
    RegisterNameField(n);
    var names := DataRegisterNames(dataType, d, n);
    var tokens := [head] + names + tail;
    assert forall k :: 0 <= k < |names| ==> |names[k]| >= 1;
    assert Words(tokens) by {
      forall k | 0 <= k < |tokens| ensures |tokens[k]| >= 1 {
        if k == 0 {} else if k <= |names| { assert tokens[k] == names[k - 1]; } else { assert tokens[k] == tail[k - 1 - |names|]; }
      }
    }
    var afterRd := if dataType != 2 then 2 else 1;
    if dataType != 2 {
      assert tokens[1..][0] == RegisterName(d);
    }
    if dataType != 1 {
      assert tokens[afterRd..][0] == RegisterName(n);
    }
  }

  /** The fields every data-processing word carries, read back by the emulator's extractors. */
  predicate DataFields(w: Word, opcode: Word, dataType: Word, d: nat, n: nat)
    requires d <= 16 && n <= 16
  {
    GetCond(w) == 14 && ExtractIdBits(w) == 0 && GetOpcode(w) == opcode
    && GetSBit(w) == (if dataType == 2 then 1 else 0)
    && GetRdest(w) == (if dataType != 2 then RegisterWords[d] else 0)
    && GetRn(w) == (if dataType != 1 then RegisterWords[n] else 0)
  }

  lemma DataWordFields(opcode: Word, dataType: Word, i: Word, d: nat, n: nat, field: Word)
    requires opcode < 16 && dataType <= 2 && i < 2 && d <= 15 && n <= 15 && field < 0x1000
    ensures var rd := if dataType != 2 then RegisterWords[d] else 0;
            var rn := if dataType != 1 then RegisterWords[n] else 0;
            var w := DataProcessingWord(opcode, if dataType == 2 then 1 else 0, i, rn, rd, field);
            DataFields(w, opcode, dataType, d, n) && GetIBit(w) == i && w & 0xFFF == field
  {
    RegisterWordBound(d);
    RegisterWordBound(n);
    var rd := if dataType != 2 then RegisterWords[d] else 0;
    var rn := if dataType != 1 then RegisterWords[n] else 0;
    DataProcessingFields(opcode, if dataType == 2 then 1 else 0, i, rn, rd, field);
  }

  /** `decodeDataProcessing` once its registers and operand 2 are read. */
  lemma DataProcessingOfParts(tokens: seq<string>, opcode: Word, dataType: Word, line: nat, errors: seq<Error>,
                              pool: seq<string>, rd: Word, rn: Word, next: nat, op: Operand2)
    requires |tokens| >= 1 && Words(tokens) && opcode < 16 && dataType <= 2
    requires ReadDataRegisters(tokens, dataType) == DataRegisters(rd, rn, next)
    requires next <= |tokens| && Words(tokens[next..]) && op.Operand2?
    requires ReadOperand2(tokens[next..], line, errors) == Defined(op)
    ensures DataProcessingOf(tokens, opcode, dataType, line, errors, pool)
            == Defined(Step(DataProcessingWord(opcode, if dataType == 2 then 1 else 0, op.i, rn, rd, op.field),
                            next + 1, op.errors, pool))
  {
  }

  /**
    A data-processing mnemonic with no register after it answers -1, reports
    nothing and takes only the mnemonic, leaving the next token in place.
   */
  lemma DataProcessingMissingRegister(m: string, rest: seq<string>, line: nat, errors: seq<Error>, pool: seq<string>)
    requires Mappings.DataOpcode(m).Some? && Words(rest) && (|rest| == 0 || GetType(Some(rest[0])) != Register)
    ensures Words([m] + rest)
    ensures DataProcessing([m] + rest, line, errors, pool) == Defined(Step(0xFFFF_FFFF, 1, errors, pool))
  {
    WordsCons(m, rest);
    Mappings.DataTypesByMnemonic(m);
    Mappings.DataClassIsOpcodeKeys(m);
  }

  /**
    Well-formed registers followed by neither a register nor an expression
    answer -1, report nothing and leave that token in place.
   */
  lemma DataProcessingMissingOperand(m: string, d: nat, n: nat, tail: seq<string>, line: nat, errors: seq<Error>,
                                     pool: seq<string>)
    requires Mappings.DataOpcode(m).Some? && d <= 15 && n <= 15 && Words(tail)
    requires |tail| == 0 || GetType(Some(tail[0])) !in {ExpressionTag, ExpressionEqual, Register}
    ensures Mappings.DataType(m).Some?
    ensures var names := DataRegisterNames(Mappings.DataType(m).value, d, n);
            var tokens := [m] + names + tail;
            Words(tokens) && DataProcessing(tokens, line, errors, pool) == Defined(Step(0xFFFF_FFFF, 1 + |names|, errors, pool))
  {
    Mappings.DataClassIsOpcodeKeys(m);
    var dataType := Mappings.DataType(m).value;
    var names := DataRegisterNames(dataType, d, n);
    var tokens := [m] + names + tail;
    ReadDataRegistersOfNames(m, dataType, d, n, tail);
    assert tokens[1 + |names|..] == tail;
    assert ReadOperand2(tail, line, errors) == Defined(NotAnOperand);
  }

  /** A register token as operand 2. */
  lemma ReadOperand2Register(k: nat, rest: seq<string>, line: nat, errors: seq<Error>)
    requires k <= 16 && Words(rest)
    ensures Words([RegisterName(k)] + rest)
    ensures ReadOperand2([RegisterName(k)] + rest, line, errors) == Defined(Operand2(0, RegisterWords[k], errors))
  {
    RegisterNameField(k);
    WordsCons(RegisterName(k), rest);
  }

  /** An expression token as operand 2. */
  lemma ReadOperand2Expression(t: string, rest: seq<string>, line: nat, errors: seq<Error>)
    requires ExpressionKind(t) != Undefined && GetExpression(t).Defined? && Words(rest)
    ensures Words([t] + rest)
    ensures var e := GetExpression(t).value;
            ReadOperand2([t] + rest, line, errors)
            == Defined(Operand2(1, e.word, if e.invalid then errors + [Error(line, InvalidExpression, t)] else errors))
  {
    ExpressionTokenType(t);
    WordsCons(t, rest);
  }

  /** A data-processing line with well-formed registers, whatever operand 2 turns out to be. */
  lemma DataProcessingAssembled(m: string, d: nat, n: nat, tail: seq<string>, line: nat, errors: seq<Error>,
                                pool: seq<string>, op: Operand2)
    requires Mappings.DataOpcode(m).Some? && d <= 15 && n <= 15 && Words(tail) && op.Operand2?
    requires ReadOperand2(tail, line, errors) == Defined(op)
    ensures Mappings.DataType(m).Some? && Mappings.DataType(m).value <= 2
    ensures var dataType := Mappings.DataType(m).value;
            var names := DataRegisterNames(dataType, d, n);
            var tokens := [m] + names + tail;
            Words(tokens)
            && DataProcessing(tokens, line, errors, pool)
               == Defined(Step(DataProcessingWord(Mappings.DataOpcode(m).value, if dataType == 2 then 1 else 0, op.i,
                                                  if dataType != 1 then RegisterWords[n] else 0,
                                                  if dataType != 2 then RegisterWords[d] else 0, op.field),
                               2 + |names|, op.errors, pool))
  {
    Mappings.DataClassIsOpcodeKeys(m);
    var opcode := Mappings.DataOpcode(m).value;
    var dataType := Mappings.DataType(m).value;
    var names := DataRegisterNames(dataType, d, n);
    var tokens := [m] + names + tail;
    ReadDataRegistersOfNames(m, dataType, d, n, tail);
    assert tokens[1 + |names|..] == tail;
    DataProcessingOfParts(tokens, opcode, dataType, line, errors, pool,
                          if dataType != 2 then RegisterWords[d] else 0,
                          if dataType != 1 then RegisterWords[n] else 0, 1 + |names|, op);
  }

  /**
    `<opcode> Rd, Rn, Rm` (with Rd left out for tst, teq and cmp, and Rn for
    mov) assembles to a word from which the emulator reads back the opcode,
    the registers, a clear I bit and an unshifted Rm.
   */
  lemma DataProcessingRegisterRoundTrip(m: string, d: nat, n: nat, k: nat, rest: seq<string>,
                                        line: nat, errors: seq<Error>, pool: seq<string>)
    requires Mappings.DataOpcode(m).Some? && d <= 15 && n <= 15 && k <= 15 && Words(rest)
    ensures Mappings.DataType(m).Some?
    ensures var names := DataRegisterNames(Mappings.DataType(m).value, d, n);
            var tokens := [m] + names + [RegisterName(k)] + rest;
            Words(tokens) &&
            var r := DataProcessing(tokens, line, errors, pool);
            r.Defined? && r.value.consumed == 2 + |names| && r.value.errors == errors && r.value.pool == pool
            && DataFields(r.value.word, Mappings.DataOpcode(m).value, Mappings.DataType(m).value, d, n)
            && GetIBit(r.value.word) == 0 && GetRm(r.value.word) == RegisterWords[k] && GetShift(r.value.word) == 0
  {
    var tail := [RegisterName(k)] + rest;
    assert [m] + DataRegisterNames(Mappings.DataType(m).value, d, n) + [RegisterName(k)] + rest
        == [m] + DataRegisterNames(Mappings.DataType(m).value, d, n) + tail;
    ReadOperand2Register(k, rest, line, errors);
    DataProcessingAssembled(m, d, n, tail, line, errors, pool, Operand2(0, RegisterWords[k], errors));
    var dataType := Mappings.DataType(m).value;
    var rd := if dataType != 2 then RegisterWords[d] else 0;
    var rn := if dataType != 1 then RegisterWords[n] else 0;
    RegisterWordBound(k);
    DataWordFields(Mappings.DataOpcode(m).value, dataType, 0, d, n, RegisterWords[k]);
    RegisterOperandFields(DataProcessingWord(Mappings.DataOpcode(m).value, if dataType == 2 then 1 else 0, 0, rn, rd,
                                             RegisterWords[k]), RegisterWords[k]);
  }

  /** `getType` gives an expression token its own kind. */
  lemma ExpressionTokenType(t: string)
    requires ExpressionKind(t) != Undefined
    ensures |t| >= 1 && GetType(Some(t)) == ExpressionKind(t)
  {
    if IsLabel(t) {
      LabelIsNoExpression(t);
    }
  }

  /**
    `<opcode> Rd, Rn, #c` with a valid constant: the emulator, reading
    operand 2 as an 8-bit value rotated right by twice the rotate field, gets
    the constant back.
   */
  lemma DataProcessingImmediateRoundTrip(m: string, d: nat, n: nat, t: string, rest: seq<string>,
                                         line: nat, errors: seq<Error>, pool: seq<string>)
    requires Mappings.DataOpcode(m).Some? && d <= 15 && n <= 15 && Words(rest)
    requires ExpressionKind(t) == ExpressionTag && GetExpression(t).Defined? && !GetExpression(t).value.invalid
    ensures Mappings.DataType(m).Some?
    ensures var names := DataRegisterNames(Mappings.DataType(m).value, d, n);
            var tokens := [m] + names + ([t] + rest);
            Words(tokens) &&
            var r := DataProcessing(tokens, line, errors, pool);
            r.Defined? && r.value.consumed == 2 + |names| && r.value.errors == errors && r.value.pool == pool
            && DataFields(r.value.word, Mappings.DataOpcode(m).value, Mappings.DataType(m).value, d, n)
            && GetIBit(r.value.word) == 1
            && (GetRotate(r.value.word) == 0 ==> GetImm(r.value.word) == Literal(t).value)
            && (GetRotate(r.value.word) != 0 ==> RightRotate(GetImm(r.value.word), GetRotate(r.value.word) * 2) == Literal(t).value)
  {
    ReadOperand2Expression(t, rest, line, errors);
    DataProcessingAssembled(m, d, n, [t] + rest, line, errors, pool, Operand2(1, GetExpression(t).value.word, errors));
    DataImmediateRoundTrip(Mappings.DataOpcode(m).value, Mappings.DataType(m).value, d, n, t);
  }

  /** The data-processing word with a valid `#` constant gives the emulator the constant back. */
  lemma DataImmediateRoundTrip(opcode: Word, dataType: Word, d: nat, n: nat, t: string)
    requires opcode < 16 && dataType <= 2 && d <= 15 && n <= 15
    requires ExpressionKind(t) == ExpressionTag && GetExpression(t).Defined? && !GetExpression(t).value.invalid
    ensures var rd := if dataType != 2 then RegisterWords[d] else 0;
            var rn := if dataType != 1 then RegisterWords[n] else 0;
            var w := DataProcessingWord(opcode, if dataType == 2 then 1 else 0, 1, rn, rd, GetExpression(t).value.word);
            DataFields(w, opcode, dataType, d, n) && GetIBit(w) == 1
            && (GetRotate(w) == 0 ==> GetImm(w) == Literal(t).value)
            && (GetRotate(w) != 0 ==> RightRotate(GetImm(w), GetRotate(w) * 2) == Literal(t).value)
  {
    GetExpressionFitsOperand(t);
    GetExpressionRoundTrip(t);
    DataImmediateFields(opcode, dataType, d, n, GetExpression(t).value.word);
  }

  lemma DataImmediateFields(opcode: Word, dataType: Word, d: nat, n: nat, field: Word)
    requires opcode < 16 && dataType <= 2 && d <= 15 && n <= 15 && field < 0x1000
    ensures var rd := if dataType != 2 then RegisterWords[d] else 0;
            var rn := if dataType != 1 then RegisterWords[n] else 0;
            var w := DataProcessingWord(opcode, if dataType == 2 then 1 else 0, 1, rn, rd, field);
            DataFields(w, opcode, dataType, d, n) && GetIBit(w) == 1
            && GetImm(w) == GetImm(field) && GetRotate(w) == GetRotate(field)
  {
    DataWordFields(opcode, dataType, 1, d, n, field);
    var rd := if dataType != 2 then RegisterWords[d] else 0;
    var rn := if dataType != 1 then RegisterWords[n] else 0;
    ImmediateOperandFields(DataProcessingWord(opcode, if dataType == 2 then 1 else 0, 1, rn, rd, field), field);
  }

  /**
    A `#` constant no rotation can bring below 256 is reported once against
    its token, and the -1 `getExpression` answers fills every bit of the word.
   */
  lemma DataProcessingInvalidImmediate(m: string, d: nat, n: nat, t: string, rest: seq<string>,
                                       line: nat, errors: seq<Error>, pool: seq<string>)
    requires Mappings.DataOpcode(m).Some? && d <= 15 && n <= 15 && Words(rest)
    requires ExpressionKind(t) == ExpressionTag && GetExpression(t).Defined? && GetExpression(t).value.invalid
    ensures Mappings.DataType(m).Some?
    ensures var names := DataRegisterNames(Mappings.DataType(m).value, d, n);
            var tokens := [m] + names + [t] + rest;
            Words(tokens) &&
            var r := DataProcessing(tokens, line, errors, pool);
            r.Defined? && r.value.consumed == 2 + |names| && r.value.pool == pool
            && r.value.errors == errors + [Error(line, InvalidExpression, t)] && r.value.word == 0xFFFF_FFFF
  {
    var tail := [t] + rest;
    ReadOperand2Expression(t, rest, line, errors);
    AllOnesOperandAssembled(m, d, n, tail, line, errors, pool, errors + [Error(line, InvalidExpression, t)]);
    var names := DataRegisterNames(Mappings.DataType(m).value, d, n);
    ConcatAssociates([m] + names, [t], rest);
  }

  /** Regrouping a concatenation of token sequences. */
  lemma ConcatAssociates<T>(a: seq<T>, b: seq<T>, c: seq<T>)
    ensures a + b + c == a + (b + c)
  {
  }

  /** Registers followed by an operand 2 of -1 assemble to -1, whatever the registers. */
  lemma AllOnesOperandAssembled(m: string, d: nat, n: nat, tail: seq<string>, line: nat, errors: seq<Error>,
                                pool: seq<string>, errors': seq<Error>)
    requires Mappings.DataOpcode(m).Some? && d <= 15 && n <= 15 && Words(tail)
    requires ReadOperand2(tail, line, errors) == Defined(Operand2(1, 0xFFFF_FFFF, errors'))
    ensures Mappings.DataType(m).Some?
    ensures var names := DataRegisterNames(Mappings.DataType(m).value, d, n);
            Words([m] + names + tail)
            && DataProcessing([m] + names + tail, line, errors, pool)
               == Defined(Step(0xFFFF_FFFF, 2 + |names|, errors', pool))
  {
    DataProcessingAssembled(m, d, n, tail, line, errors, pool, Operand2(1, 0xFFFF_FFFF, errors'));
    var dataType := Mappings.DataType(m).value;
    Layout.DataProcessingAllOnes(Mappings.DataOpcode(m).value, if dataType == 2 then 1 else 0, 1,
                                 if dataType != 1 then RegisterWords[n] else 0,
                                 if dataType != 2 then RegisterWords[d] else 0);
  }

  /** `checkRegMult` on a register name. */
  lemma MultiplyRegisterOfName(k: nat, rest: seq<string>, multType: string, line: nat, errors: seq<Error>)
    requires k <= 16 && Words(rest)
    ensures Words([RegisterName(k)] + rest)
    ensures MultiplyRegister([RegisterName(k)] + rest, multType, line, errors) == MultiplyOperand(RegisterWords[k], 1, errors)
  {
    ReadOperand2Register(k, rest, line, errors);
    RegisterNameField(k);
  }

  /**
    `mul Rd, Rm, Rs` and `mla Rd, Rm, Rs, Rn` assemble to a multiply word from
    which the emulator reads back the accumulate bit and the four registers.
   */
  lemma MultiplyRoundTrip(m: string, d: nat, a: nat, b: nat, n: nat, rest: seq<string>,
                          line: nat, errors: seq<Error>, pool: seq<string>)
    requires (m == "mul" || m == "mla") && d <= 15 && a <= 15 && b <= 15 && n <= 15 && Words(rest)
    ensures var operands := [RegisterName(d), RegisterName(a), RegisterName(b)] + (if m == "mla" then [RegisterName(n)] else []);
            var tokens := [m] + operands + rest;
            Words(tokens) &&
            var r := Multiply(tokens, line, errors, pool);
            r.consumed == 1 + |operands| && r.errors == errors && r.pool == pool
            && GetCond(r.word) == 14 && IsMult(r.word) && ExtractIdBits(r.word) == 0 && GetSBitMul(r.word) == 0
            && GetABit(r.word) == (if m == "mla" then 1 else 0)
            && GetRdMul(r.word) == RegisterWords[d] && GetRmMul(r.word) == RegisterWords[a]
            && GetRsMul(r.word) == RegisterWords[b] && GetRnMul(r.word) == (if m == "mla" then RegisterWords[n] else 0)
  {
    var last := if m == "mla" then [RegisterName(n)] else [];
    var tail := last + rest;
    var tokens := [m] + ([RegisterName(d), RegisterName(a), RegisterName(b)] + last) + rest;
    assert tokens == [m] + [RegisterName(d), RegisterName(a), RegisterName(b)] + tail;
    if m == "mla" {
      MultiplyRegisterOfName(n, rest, m, line, errors);
    } else {
      assert tail == rest;
    }
    MultiplyLine(m, d, a, b, tail, line, errors);
    MultiplyOfRegisters(tokens, m, line, errors, pool, RegisterWords[d], RegisterWords[a], RegisterWords[b],
                        if m == "mla" then RegisterWords[n] else 0);
    RegisterWordBound(d);
    RegisterWordBound(a);
    RegisterWordBound(b);
    RegisterWordBound(n);
    MultiplyFields(if m == "mla" then 1 else 0, RegisterWords[d], RegisterWords[a], RegisterWords[b],
                   if m == "mla" then RegisterWords[n] else 0);
  }

  /** The three registers every multiply line starts with are there for `checkRegMult`. */
  lemma MultiplyLine(m: string, d: nat, a: nat, b: nat, tail: seq<string>, line: nat, errors: seq<Error>)
    requires |m| >= 1 && d <= 15 && a <= 15 && b <= 15 && Words(tail)
    ensures var tokens := [m] + [RegisterName(d), RegisterName(a), RegisterName(b)] + tail;
            Words(tokens) && |tokens| >= 4 && tokens[0] == m && tokens[4..] == tail
            && MultiplyRegister(tokens[1..], m, line, errors) == MultiplyOperand(RegisterWords[d], 1, errors)
            && MultiplyRegister(tokens[2..], m, line, errors) == MultiplyOperand(RegisterWords[a], 1, errors)
            && MultiplyRegister(tokens[3..], m, line, errors) == MultiplyOperand(RegisterWords[b], 1, errors)
  {
    var t2 := [RegisterName(b)] + tail;
    var t1 := [RegisterName(a)] + t2;
    var t0 := [RegisterName(d)] + t1;
    var tokens := [m] + [RegisterName(d), RegisterName(a), RegisterName(b)] + tail;
    assert tokens == [m] + t0;
    MultiplyRegisterOfName(b, tail, m, line, errors);
    MultiplyRegisterOfName(a, t2, m, line, errors);
    MultiplyRegisterOfName(d, t1, m, line, errors);
    assert tokens[1..] == t0;
    assert tokens[2..] == t0[1..] == t1;
    assert tokens[3..] == t1[1..] == t2;
    assert tokens[4..] == t2[1..] == tail;
    assert Words(tokens) by {
      assert forall j :: 1 <= j < |tokens| ==> tokens[j] == t0[j - 1];
    }
  }

  /** `decodeMultiply` when every register it asks for is there. */
  lemma MultiplyOfRegisters(tokens: seq<string>, m: string, line: nat, errors: seq<Error>, pool: seq<string>,
                            rd: Word, rm: Word, rs: Word, rn: Word)
    requires |tokens| >= 4 && Words(tokens) && tokens[0] == m
    requires MultiplyRegister(tokens[1..], m, line, errors) == MultiplyOperand(rd, 1, errors)
    requires MultiplyRegister(tokens[2..], m, line, errors) == MultiplyOperand(rm, 1, errors)
    requires MultiplyRegister(tokens[3..], m, line, errors) == MultiplyOperand(rs, 1, errors)
    requires m == "mla" ==> |tokens| >= 5 && MultiplyRegister(tokens[4..], m, line, errors) == MultiplyOperand(rn, 1, errors)
    requires m != "mla" ==> rn == 0
    ensures Multiply(tokens, line, errors, pool)
            == Step(MultiplyWord(if m == "mla" then 1 else 0, rd, rm, rs, rn), if m == "mla" then 5 else 4, errors, pool)
  {
  }

  // ------------------------------------------------- single data transfer

  /** The line `ldr Rd, <e> ...` as `decodeSingleDataTransfer` sees it. */
  lemma LdrLine(d: nat, e: string, rest: seq<string>)
    requires d <= 16 && |e| >= 1 && Words(rest)
    ensures var tokens := ["ldr", RegisterName(d), e] + rest;
            Words(tokens) && |tokens| > 2 && tokens[0] == "ldr" && tokens[1] == RegisterName(d)
            && tokens[2..] == [e] + rest && Words(tokens[2..])
            && FrontType(tokens[1..]) == Register && RegisterField(tokens[1]) == RegisterWords[d]
  {
    RegisterNameField(d);
    var tokens := ["ldr", RegisterName(d), e] + rest;
    assert tokens[1..] == [RegisterName(d)] + ([e] + rest);
    assert tokens[2..] == [e] + rest;
    assert Words(tokens) by {
      assert forall j :: 3 <= j < |tokens| ==> tokens[j] == rest[j - 3];
    }
    WordsFrom(tokens, 2);
  }

  /** Turning the '=' of a constant into '#' keeps its literal and makes it an operand-2 expression. */
  lemma TagOfEqual(e: string)
    requires ExpressionKind(e) == ExpressionEqual
    ensures var h := "#" + e[1..];
            |h| == |e| && h[0] == '#' && ExpressionKind(h) == ExpressionTag && Literal(h) == Literal(e)
  {
    var h := "#" + e[1..];
    assert forall i :: 1 <= i < |h| ==> h[i] == e[i];
    assert h[1..] == e[1..];
    if |e| >= 3 {
      assert h[3..] == e[3..];
    }
  }

  /** `mov Rd, x` for an expression token x that `getExpression` reads as the unrotated literal v. */
  lemma MovAssembled(d: nat, x: string, rest: seq<string>, v: Word, line: nat, errors: seq<Error>, pool: seq<string>)
    requires d <= 15 && ExpressionKind(x) != Undefined && Words(rest)
    requires GetExpression(x) == Defined(Expression(v, false))
    ensures Words(["mov", RegisterName(d), x] + rest)
    ensures DataProcessing(["mov", RegisterName(d), x] + rest, line, errors, pool)
            == Defined(Step(DataProcessingWord(13, 0, 1, 0, RegisterWords[d], v), 3, errors, pool))
  {
    Mappings.DataTypesByMnemonic("mov");
    ReadOperand2Expression(x, rest, line, errors);
    MovTokens(d, x, rest);
    DataProcessingAssembled("mov", d, 0, [x] + rest, line, errors, pool, Operand2(1, v, errors));
  }

  /** A `mov` line is the mnemonic, its one register name and operand 2. */
  lemma MovTokens(d: nat, x: string, rest: seq<string>)
    requires d <= 15
    ensures ["mov", RegisterName(d), x] + rest == ["mov"] + DataRegisterNames(1, d, 0) + ([x] + rest)
  {
    assert DataRegisterNames(1, d, 0) == [RegisterName(d)];
    var a := ["mov", RegisterName(d), x] + rest;
    var b := ["mov"] + [RegisterName(d)] + ([x] + rest);
    assert forall j :: 3 <= j < |a| ==> a[j] == rest[j - 3] == b[j];
  }

  /** Swapping the mnemonic of an `ldr` line for "mov" keeps the rest of the line. */
  lemma LdrAsMovTokens(d: nat, e: string, rest: seq<string>)
    requires d <= 16
    ensures ["mov"] + (["ldr", RegisterName(d), e] + rest)[1..] == ["mov", RegisterName(d), e] + rest
  {
    var a := ["mov"] + (["ldr", RegisterName(d), e] + rest)[1..];
    var b := ["mov", RegisterName(d), e] + rest;
    assert forall j :: 3 <= j < |a| ==> a[j] == rest[j - 3] == b[j];
  }

  /** `ldr Rd, =c` with a constant up to 0xFF goes to the `mov` rewrite. */
  lemma LdrSmallRewrites(d: nat, e: string, rest: seq<string>, index: Word, total: Word,
                         line: nat, errors: seq<Error>, pool: seq<string>)
    requires d <= 15 && ExpressionKind(e) == ExpressionEqual && Words(rest)
    requires GetExpression(e).Defined? && GetExpression(e).value.word <= 0xFF
    ensures Words(["ldr", RegisterName(d), e] + rest)
    ensures SingleDataTransfer(["ldr", RegisterName(d), e] + rest, index, total, line, errors, pool)
            == MovRewrite(["ldr", RegisterName(d), e] + rest, line, errors, pool)
  {
    LdrLine(d, e, rest);
    ExpressionTokenType(e);
  }

  /**
    `ldr Rd, =c` with a constant up to 0xFF is assembled exactly as
    `mov Rd, #c`, and the literal pool is left alone.
   */
  lemma LdrSmallConstantIsMov(d: nat, e: string, rest: seq<string>, index: Word, total: Word,
                              line: nat, errors: seq<Error>, pool: seq<string>)
    requires d <= 15 && ExpressionKind(e) == ExpressionEqual && Words(rest)
    requires GetExpression(e).Defined? && GetExpression(e).value.word <= 0xFF
    ensures ExpressionKind("#" + e[1..]) == ExpressionTag
    ensures Words(["ldr", RegisterName(d), e] + rest) && Words(["mov", RegisterName(d), "#" + e[1..]] + rest)
    ensures SingleDataTransfer(["ldr", RegisterName(d), e] + rest, index, total, line, errors, pool)
            == DataProcessing(["mov", RegisterName(d), "#" + e[1..]] + rest, line, errors, pool)
  {
    var h := "#" + e[1..];
    LdrSmallRewrites(d, e, rest, index, total, line, errors, pool);
    LdrLine(d, e, rest);
    TagOfEqual(e);
    var v := Literal(e).value;
    ExpressionTokenType(e);
    assert GetExpression(e) == Defined(Expression(v, false));
    SmallImmediateUnchanged(v);
    assert GetExpression(h) == Defined(Expression(v, false));
    LdrAsMovTokens(d, e, rest);
    MovAssembled(d, e, rest, v, line, errors, pool);
    MovAssembled(d, h, rest, v, line, errors, pool);
  }

  /**
    The word of `ldr Rd, =c` for a constant up to 0xFF: a `mov` with the
    constant itself, unrotated, as operand 2.
   */
  lemma LdrSmallConstantRoundTrip(d: nat, e: string, rest: seq<string>, index: Word, total: Word,
                                  line: nat, errors: seq<Error>, pool: seq<string>)
    requires d <= 15 && ExpressionKind(e) == ExpressionEqual && Words(rest)
    requires GetExpression(e).Defined? && GetExpression(e).value.word <= 0xFF
    ensures Words(["ldr", RegisterName(d), e] + rest)
    ensures var r := SingleDataTransfer(["ldr", RegisterName(d), e] + rest, index, total, line, errors, pool);
            r.Defined? && r.value.consumed == 3 && r.value.errors == errors && r.value.pool == pool
            && DataFields(r.value.word, 13, 1, d, 0) && GetIBit(r.value.word) == 1
            && GetRotate(r.value.word) == 0 && GetImm(r.value.word) == Literal(e).value
  {
    LdrSmallConstantIsMov(d, e, rest, index, total, line, errors, pool);
    TagOfEqual(e);
    var v := Literal(e).value;
    SmallImmediateUnchanged(v);
    MovAssembled(d, "#" + e[1..], rest, v, line, errors, pool);
    DataImmediateFields(13, 1, d, 0, v);
  }

  /**
    `ldr Rd, =c` with a constant above 0xFF appends the token to the literal
    pool and loads PC-relative: I clear, pre-indexed, up, load, base r15.
   */
  lemma LdrPoolConstant(d: nat, e: string, rest: seq<string>, index: Word, total: Word,
                        line: nat, errors: seq<Error>, pool: seq<string>)
    requires d <= 15 && ExpressionKind(e) == ExpressionEqual && Words(rest)
    requires GetExpression(e).Defined? && GetExpression(e).value.word > 0xFF
    requires PoolOffset(total, Wrap(|pool| + 1), index) < 0x1000
    ensures Words(["ldr", RegisterName(d), e] + rest)
    ensures var r := SingleDataTransfer(["ldr", RegisterName(d), e] + rest, index, total, line, errors, pool);
            r.Defined? && r.value.consumed == 3 && r.value.errors == errors && r.value.pool == pool + [e]
            && var w := r.value.word;
            GetCond(w) == 14 && ExtractIdBits(w) == 1 && GetIBit(w) == 0 && GetPBit(w) == 1 && GetUBit(w) == 1
            && GetLBit(w) == 1 && GetRn(w) == 15 && GetRdest(w) == RegisterWords[d]
            && GetOffsetDataTransfer(w) == PoolOffset(total, Wrap(|pool| + 1), index)
  {
    LdrPoolStep(d, e, rest, index, total, line, errors, pool);
    RegisterWordBound(d);
    TransferFields(0, 1, 1, 1, 15, RegisterWords[d], PoolOffset(total, Wrap(|pool| + 1), index));
  }

  /** The step `ldr Rd, =c` takes for a constant above 0xFF: one pooled token and a PC-relative load. */
  lemma LdrPoolStep(d: nat, e: string, rest: seq<string>, index: Word, total: Word,
                    line: nat, errors: seq<Error>, pool: seq<string>)
    requires d <= 15 && ExpressionKind(e) == ExpressionEqual && Words(rest)
    requires GetExpression(e).Defined? && GetExpression(e).value.word > 0xFF
    ensures Words(["ldr", RegisterName(d), e] + rest)
    ensures SingleDataTransfer(["ldr", RegisterName(d), e] + rest, index, total, line, errors, pool)
            == Defined(Step(TransferWord(0, 1, 1, 1, 15, RegisterWords[d], PoolOffset(total, Wrap(|pool| + 1), index)),
                            3, errors, pool + [e]))
  {
    LdrLine(d, e, rest);
    ExpressionTokenType(e);
    var tokens := ["ldr", RegisterName(d), e] + rest;
    assert tokens[2] == e && e[0] == '=';
    assert FrontType(tokens[2..]) == ExpressionEqual;
    LdrConstantPooled(tokens, RegisterWords[d], index, total, line, errors, pool);
    assert SingleDataTransfer(tokens, index, total, line, errors, pool)
        == LdrConstant(tokens, RegisterWords[d], index, total, line, errors, pool);
  }

  /** `ldr Rd, =c` with c above 0xFF pools the constant's token and loads it PC-relative. */
  lemma LdrConstantPooled(tokens: seq<string>, rd: Word, index: Word, total: Word, line: nat, errors: seq<Error>,
                          pool: seq<string>)
    requires |tokens| >= 3 && Words(tokens) && tokens[0] == "ldr"
    requires GetExpression(tokens[2]).Defined? && GetExpression(tokens[2]).value.word > 0xFF
    ensures LdrConstant(tokens, rd, index, total, line, errors, pool)
            == Defined(Step(TransferWord(0, 1, 1, 1, 15, rd, PoolOffset(total, Wrap(|pool| + 1), index)),
                            3, errors, pool + [tokens[2]]))
  {
  }

  /** The line `ldr Rd` or `str Rd` followed by any tokens. */
  lemma TransferLine(m: string, d: nat, tail: seq<string>)
    requires |m| >= 1 && d <= 16 && Words(tail)
    ensures var tokens := [m, RegisterName(d)] + tail;
            Words(tokens) && |tokens| >= 2 && tokens[0] == m && tokens[1] == RegisterName(d)
            && tokens[2..] == tail && FrontType(tokens[1..]) == Register && RegisterField(tokens[1]) == RegisterWords[d]
  {
    RegisterNameField(d);
    var tokens := [m, RegisterName(d)] + tail;
    assert tokens[1..] == [RegisterName(d)] + tail;
    assert tokens[2..] == tail;
    assert Words(tokens) by {
      assert forall j :: 2 <= j < |tokens| ==> tokens[j] == tail[j - 2];
    }
  }

  /**
    `str Rd, <address>` reads nothing after Rd: the word stores Rd at
    offset 0 from r15, post-indexed, and the address tokens stay on the line.
   */
  lemma StrReadsOnlyRd(d: nat, tail: seq<string>, index: Word, total: Word, line: nat, errors: seq<Error>,
                       pool: seq<string>)
    requires d <= 15 && Words(tail)
    ensures Words(["str", RegisterName(d)] + tail)
    ensures var r := SingleDataTransfer(["str", RegisterName(d)] + tail, index, total, line, errors, pool);
            r.Defined? && r.value.consumed == 2 && r.value.errors == errors && r.value.pool == pool
            && var w := r.value.word;
            GetCond(w) == 14 && ExtractIdBits(w) == 1 && GetIBit(w) == 0 && GetPBit(w) == 0 && GetUBit(w) == 1
            && GetLBit(w) == 0 && GetRn(w) == 15 && GetRdest(w) == RegisterWords[d] && GetOffsetDataTransfer(w) == 0
  {
    TransferLine("str", d, tail);
    RegisterWordBound(d);
    TransferFields(0, 0, 1, 0, 15, RegisterWords[d], 0);
  }

  /**
    `ldr Rd, Rm` takes the register token but not its number: the word loads
    Rd from r15 with offset 0, pre-indexed, whatever Rm is.
   */
  lemma LdrRegisterIgnored(d: nat, k: nat, rest: seq<string>, index: Word, total: Word, line: nat,
                           errors: seq<Error>, pool: seq<string>)
    requires d <= 15 && k <= 16 && Words(rest)
    ensures Words(["ldr", RegisterName(d), RegisterName(k)] + rest)
    ensures var r := SingleDataTransfer(["ldr", RegisterName(d), RegisterName(k)] + rest, index, total, line, errors, pool);
            r.Defined? && r.value.consumed == 3 && r.value.errors == errors && r.value.pool == pool
            && var w := r.value.word;
            GetCond(w) == 14 && ExtractIdBits(w) == 1 && GetIBit(w) == 0 && GetPBit(w) == 1 && GetUBit(w) == 1
            && GetLBit(w) == 1 && GetRn(w) == 15 && GetRdest(w) == RegisterWords[d] && GetOffsetDataTransfer(w) == 0
  {
    LdrLine(d, RegisterName(k), rest);
    RegisterNameField(k);
    RegisterWordBound(d);
    TransferFields(0, 1, 1, 1, 15, RegisterWords[d], 0);
  }

  /** `ldr Rd, <address>` once `getAddress` has read the address. */
  lemma LdrAddressed(d: nat, tail: seq<string>, a: Address, index: Word, total: Word, line: nat,
                     errors: seq<Error>, pool: seq<string>)
    requires d <= 15 && |tail| >= 1 && Words(tail) && |tail[0]| >= 1 && tail[0][0] == '['
    requires GetAddress(tail) == Defined(a) && a.rn < 16 && a.offset < 0x1000
    ensures Words(["ldr", RegisterName(d)] + tail)
    ensures var r := SingleDataTransfer(["ldr", RegisterName(d)] + tail, index, total, line, errors, pool);
            r.Defined? && r.value.consumed == 2 + a.taken && r.value.errors == errors && r.value.pool == pool
            && var w := r.value.word;
            GetCond(w) == 14 && ExtractIdBits(w) == 1 && GetIBit(w) == 0 && GetPBit(w) == a.p && GetUBit(w) == 1
            && GetLBit(w) == 1 && GetRn(w) == a.rn && GetRdest(w) == RegisterWords[d] && GetOffsetDataTransfer(w) == a.offset
  {
    TransferLine("ldr", d, tail);
    RegisterWordBound(d);
    TransferFields(0, a.p, 1, 1, a.rn, RegisterWords[d], a.offset);
  }

  /** The token `[` + x + `]`, a base register with no offset written in one piece. */
  function Bracketed(x: string): string {
    "[" + x + "]"
  }

  /** The base register part `Rn` of an address gives its number. */
  lemma BaseRegisterPart(n: nat)
    requires n <= 15
    ensures |RegisterName(n)| >= 2 && GetDec(RegisterName(n)[1..]) == Defined(RegisterWords[n])
  {
    RegisterNameField(n);
    RegisterFieldIsGetDec(RegisterName(n));
  }

  /** `getAddress` on `[Rn]` not followed by a `#` expression: pre-indexed, offset 0. */
  lemma AddressOfRegister(n: nat, rest: seq<string>)
    requires n <= 15 && Words(rest) && FrontType(rest) != ExpressionTag
    ensures Words([Bracketed(RegisterName(n))] + rest)
    ensures GetAddress([Bracketed(RegisterName(n))] + rest) == Defined(Address(1, RegisterWords[n], 0, 1))
  {
    var x := RegisterName(n);
    var token := Bracketed(x);
    assert token[1..|token| - 1] == x;
    BracketClose(token, rest, []);
    assert ([token] + rest)[1..] == rest;
    BaseRegisterPart(n);
    assert AddressOfParts([x], rest, 1) == Defined(Address(1, RegisterWords[n], 0, 1));
  }

  /** The bracket loop at the closing token. */
  lemma BracketClose(token: string, rest: seq<string>, parts: seq<string>)
    requires |token| >= 2 && token[|token| - 1] == ']' && Words(rest)
    ensures Words([token] + rest)
    ensures BracketParts([token] + rest, parts) == (parts + [token[if token[0] == '[' then 1 else 0..|token| - 1]], 1)
  {
    WordsCons(token, rest);
  }

  /** The bracket loop at a token before the closing one. */
  lemma BracketOpen(token: string, tail: seq<string>, parts: seq<string>)
    requires |token| >= 1 && token[|token| - 1] != ']' && |tail| >= 1 && Words(tail)
    ensures Words([token] + tail)
    ensures var from := if token[0] == '[' then 1 else 0;
            BracketParts([token] + tail, parts)
            == (BracketParts(tail, parts + [token[from..]]).0, BracketParts(tail, parts + [token[from..]]).1 + 1)
  {
    WordsCons(token, tail);
  }

  /** `getAddress` on `[Rn], #e`: post-indexed by what `getExpression` makes of e. */
  lemma AddressPostIndexed(n: nat, e: string, rest: seq<string>)
    requires n <= 15 && Words(rest) && ExpressionKind(e) == ExpressionTag
    requires GetExpression(e).Defined? && !GetExpression(e).value.invalid
    ensures Words([Bracketed(RegisterName(n)), e] + rest)
    ensures GetAddress([Bracketed(RegisterName(n)), e] + rest)
            == Defined(Address(0, RegisterWords[n], GetExpression(e).value.word, 2))
  {
    var x := RegisterName(n);
    var token := Bracketed(x);
    var tail := [e] + rest;
    ExpressionTokenType(e);
    WordsCons(e, rest);
    assert token[1..|token| - 1] == x;
    BracketClose(token, tail, []);
    assert [token, e] + rest == [token] + tail;
    assert ([token] + tail)[1..] == tail;
    BaseRegisterPart(n);
    AddressOfOnePart(x, e, rest, RegisterWords[n]);
  }

  /** The address parts x alone, followed by a `#` expression e. */
  lemma AddressOfOnePart(x: string, e: string, rest: seq<string>, rn: Word)
    requires |x| >= 1 && GetDec(x[1..]) == Defined(rn) && Words(rest) && ExpressionKind(e) == ExpressionTag
    requires GetExpression(e).Defined? && !GetExpression(e).value.invalid
    ensures Words([e] + rest)
    ensures AddressOfParts([x], [e] + rest, 1) == Defined(Address(0, rn, GetExpression(e).value.word, 2))
  {
    ExpressionTokenType(e);
    WordsCons(e, rest);
  }

  /** `getAddress` on `[Rn, e]` (the tokens `[Rn` and `e]`): pre-indexed by what `getExpression` makes of e. */
  lemma AddressPreIndexed(n: nat, e: string, rest: seq<string>)
    requires n <= 15 && Words(rest) && ExpressionKind(e) != Undefined
    requires GetExpression(e).Defined? && !GetExpression(e).value.invalid
    ensures Words(["[" + RegisterName(n), e + "]"] + rest)
    ensures GetAddress(["[" + RegisterName(n), e + "]"] + rest)
            == Defined(Address(1, RegisterWords[n], GetExpression(e).value.word, 2))
  {
    var x := RegisterName(n);
    RegisterNameField(n);
    BaseRegisterPart(n);
    BracketsOfOffset(x, e, rest);
    var tokens := ["[" + x, e + "]"] + rest;
    assert tokens[2..] == rest;
    AddressOfTwoParts(x, e, rest, RegisterWords[n]);
  }

  /**
    `getAddress` hands any second bracket part to `getExpression` unchecked,
    and that skips the first character: a register offset `[Rn, Rm]` is read
    as the immediate offset m, not as a register.
   */
  lemma AddressRegisterOffset(n: nat, m: nat, rest: seq<string>)
    requires n <= 15 && m <= 15 && Words(rest)
    ensures GetExpression(RegisterName(m)) == Defined(Expression(RegisterWords[m], false))
    ensures Words(["[" + RegisterName(n), RegisterName(m) + "]"] + rest)
    ensures GetAddress(["[" + RegisterName(n), RegisterName(m) + "]"] + rest)
            == Defined(Address(1, RegisterWords[n], RegisterWords[m], 2))
  {
    var x := RegisterName(n);
    var e := RegisterName(m);
    RegisterNameField(n);
    BaseRegisterPart(n);
    RegisterAsExpression(m);
    BracketsOfOffset(x, e, rest);
    var tokens := ["[" + x, e + "]"] + rest;
    assert tokens[2..] == rest;
    AddressOfTwoParts(x, e, rest, RegisterWords[n]);
  }

  /** `getExpression` on a register name skips the 'r' and reads the number as a decimal literal. */
  lemma RegisterAsExpression(m: nat)
    requires m <= 15
    ensures |RegisterName(m)| >= 2 && RegisterName(m)[0] == 'r'
    ensures GetExpression(RegisterName(m)) == Defined(Expression(RegisterWords[m], false))
  {
    var e := RegisterName(m);
    RegisterNameField(m);
    BaseRegisterPart(m);
    assert e[0] == 'r' && IsDecimalDigit(e[1]);
    assert Literal(e) == GetDec(e[1..]);
  }

  /** The rest of `getAddress` on a base part and an offset part. */
  lemma AddressOfTwoParts(x: string, e: string, after: seq<string>, rn: Word)
    requires |x| >= 1 && GetDec(x[1..]) == Defined(rn) && |e| >= 1 && Words(after)
    requires GetExpression(e).Defined? && !GetExpression(e).value.invalid
    ensures AddressOfParts([x, e], after, 2) == Defined(Address(1, rn, GetExpression(e).value.word, 2))
  {
  }

  /** The bracket loop on `[x` and `e]` leaves the parts x and e, whatever e holds. */
  lemma BracketsOfOffset(x: string, e: string, rest: seq<string>)
    requires IsRegister(x) && |e| >= 1 && e[0] != '[' && Words(rest)
    ensures Words(["[" + x, e + "]"] + rest)
    ensures BracketParts(["[" + x, e + "]"] + rest, []) == ([x, e], 2)
  {
    var first := "[" + x;
    var second := e + "]";
    var tail := [second] + rest;
    assert first[0] == '[' && first[1..] == x;
    assert first[|first| - 1] == x[|x| - 1] && IsDecimalDigit(x[|x| - 1]);
    assert second[0] == e[0] && second[0..|second| - 1] == e;
    BracketClose(second, rest, [x]);
    assert [x] + [e] == [x, e];
    BracketOpen(first, tail, []);
    assert [] + [x] == [x];
    assert ["[" + x, e + "]"] + rest == [first] + tail;
  }

  /** A valid `#` offset below 256 is stored as itself; a larger one in operand 2's rotated form. */
  lemma TagOffset(e: string)
    requires ExpressionKind(e) == ExpressionTag && GetExpression(e).Defined? && !GetExpression(e).value.invalid
    ensures |e| >= 1 && GetExpression(e).value.word < 0x1000
    ensures Literal(e).value < 0x100 ==> GetExpression(e).value.word == Literal(e).value
  {
    GetExpressionFitsOperand(e);
    if Literal(e).value < 0x100 {
      SmallImmediateUnchanged(Literal(e).value);
    }
  }

  /** `ldr Rd, [Rn]`: load Rd from Rn, pre-indexed, offset 0. */
  lemma LdrBaseRoundTrip(d: nat, n: nat, rest: seq<string>, index: Word, total: Word, line: nat,
                         errors: seq<Error>, pool: seq<string>)
    requires d <= 15 && n <= 15 && Words(rest) && FrontType(rest) != ExpressionTag
    ensures Words(["ldr", RegisterName(d)] + ([Bracketed(RegisterName(n))] + rest))
    ensures var r := SingleDataTransfer(["ldr", RegisterName(d)] + ([Bracketed(RegisterName(n))] + rest),
                                        index, total, line, errors, pool);
            r.Defined? && r.value.consumed == 3 && r.value.errors == errors && r.value.pool == pool
            && var w := r.value.word;
            GetCond(w) == 14 && ExtractIdBits(w) == 1 && GetIBit(w) == 0 && GetPBit(w) == 1 && GetUBit(w) == 1
            && GetLBit(w) == 1 && GetRn(w) == RegisterWords[n] && GetRdest(w) == RegisterWords[d]
            && GetOffsetDataTransfer(w) == 0
  {
    var tail := [Bracketed(RegisterName(n))] + rest;
    AddressOfRegister(n, rest);
    RegisterWordBound(n);
    LdrAddressed(d, tail, Address(1, RegisterWords[n], 0, 1), index, total, line, errors, pool);
  }

  /**
    `ldr Rd, [Rn, #e]`: load Rd from Rn plus the offset, pre-indexed; an
    offset below 256 is stored as written.
   */
  lemma LdrPreIndexedRoundTrip(d: nat, n: nat, e: string, rest: seq<string>, index: Word, total: Word, line: nat,
                               errors: seq<Error>, pool: seq<string>)
    requires d <= 15 && n <= 15 && Words(rest) && ExpressionKind(e) == ExpressionTag
    requires GetExpression(e).Defined? && !GetExpression(e).value.invalid
    ensures Words(["ldr", RegisterName(d)] + (["[" + RegisterName(n), e + "]"] + rest))
    ensures var r := SingleDataTransfer(["ldr", RegisterName(d)] + (["[" + RegisterName(n), e + "]"] + rest),
                                        index, total, line, errors, pool);
            r.Defined? && r.value.consumed == 4 && r.value.errors == errors && r.value.pool == pool
            && var w := r.value.word;
            GetCond(w) == 14 && ExtractIdBits(w) == 1 && GetIBit(w) == 0 && GetPBit(w) == 1 && GetUBit(w) == 1
            && GetLBit(w) == 1 && GetRn(w) == RegisterWords[n] && GetRdest(w) == RegisterWords[d]
            && GetOffsetDataTransfer(w) == GetExpression(e).value.word
            && (Literal(e).value < 0x100 ==> GetOffsetDataTransfer(w) == Literal(e).value)
  {
    var tail := ["[" + RegisterName(n), e + "]"] + rest;
    AddressPreIndexed(n, e, rest);
    TagOffset(e);
    RegisterWordBound(n);
    LdrAddressed(d, tail, Address(1, RegisterWords[n], GetExpression(e).value.word, 2), index, total, line, errors, pool);
  }

  /**
    `ldr Rd, [Rn], #e`: load Rd from Rn, post-indexed by the offset; an
    offset below 256 is stored as written.
   */
  lemma LdrPostIndexedRoundTrip(d: nat, n: nat, e: string, rest: seq<string>, index: Word, total: Word, line: nat,
                                errors: seq<Error>, pool: seq<string>)
    requires d <= 15 && n <= 15 && Words(rest) && ExpressionKind(e) == ExpressionTag
    requires GetExpression(e).Defined? && !GetExpression(e).value.invalid
    ensures Words(["ldr", RegisterName(d)] + ([Bracketed(RegisterName(n)), e] + rest))
    ensures var r := SingleDataTransfer(["ldr", RegisterName(d)] + ([Bracketed(RegisterName(n)), e] + rest),
                                        index, total, line, errors, pool);
            r.Defined? && r.value.consumed == 4 && r.value.errors == errors && r.value.pool == pool
            && var w := r.value.word;
            GetCond(w) == 14 && ExtractIdBits(w) == 1 && GetIBit(w) == 0 && GetPBit(w) == 0 && GetUBit(w) == 1
            && GetLBit(w) == 1 && GetRn(w) == RegisterWords[n] && GetRdest(w) == RegisterWords[d]
            && GetOffsetDataTransfer(w) == GetExpression(e).value.word
            && (Literal(e).value < 0x100 ==> GetOffsetDataTransfer(w) == Literal(e).value)
  {
    var tail := [Bracketed(RegisterName(n)), e] + rest;
    AddressPostIndexed(n, e, rest);
    TagOffset(e);
    RegisterWordBound(n);
    LdrAddressed(d, tail, Address(0, RegisterWords[n], GetExpression(e).value.word, 2), index, total, line, errors, pool);
  }

  // ------------------------------------------------------------- branch

  /** A label name after a branch mnemonic is a target, not a missing expression. */
  lemma BranchLine(b: string, name: string, rest: seq<string>)
    requires |b| >= 1 && |name| >= 1 && Words(rest)
    ensures var tokens := [b, name] + rest;
            Words(tokens) && |tokens| >= 2 && tokens[0] == b && tokens[1] == name
            && Words(tokens[1..]) && FrontType(tokens[1..]) == GetType(Some(name))
  {
    var tokens := [b, name] + rest;
    assert tokens[1..] == [name] + rest;
    assert Words(tokens) by {
      assert forall j :: 2 <= j < |tokens| ==> tokens[j] == rest[j - 2];
    }
    WordsFrom(tokens, 1);
  }

  /**
    `b<cond> label` for a defined label assembles to a branch word that
    carries the condition's code and the offset to the name.
   */
  lemma BranchRoundTrip(b: string, name: string, rest: seq<string>, index: Word, labels: AssocMap<Word>,
                        target: Word, line: nat, errors: seq<Error>, pool: seq<string>)
    requires Mappings.AllInstructions(b) == Some(3) && |name| >= 1 && GetType(Some(name)) != Instruction
    requires Words(rest) && Get(labels, name) == Some(target)
    ensures |b| >= 1 && Mappings.Conditions(b[1..]).Some? && Words([b, name] + rest)
    ensures var r := Branch([b, name] + rest, index, labels, line, errors, pool);
            r.Defined? && r.value.consumed == 2 && r.value.errors == errors && r.value.pool == pool
            && GetCond(r.value.word) == Mappings.Conditions(b[1..]).value && ExtractIdBits(r.value.word) == 2
            && GetOffset(r.value.word) == BranchOffset(target, index)
  {
    Mappings.BranchSuffixIsCondition(b);
    BranchLine(b, name, rest);
    BranchFields(Mappings.Conditions(b[1..]).value, BranchOffset(target, index));
  }

  /**
    ARM's reading of the 24-bit branch offset that `getOffset` masks out:
    two's complement with sign bit 23. The emulator's source stops at the
    mask; this is the reference the branch offsets are checked against.
   */
  function SignExtend(offset: Word): (r: Word)
    requires offset < 0x100_0000
    ensures offset < 0x80_0000 ==> r == offset
    ensures offset >= 0x80_0000 ==> r >= 0xFF80_0000
  {
    if offset < 0x80_0000 then offset else offset | 0xFF00_0000
  }

  /** A 32-bit distance, read as two's complement, that 24 bits can hold. */
  predicate BranchReach(distance: Word) {
    distance + 0x80_0000 < 0x100_0000
  }

  lemma KeepLow24(d: Word)
    ensures (d << 8) >> 8 == d & 0xFF_FFFF
  {
  }

  lemma LowOfForward(d: Word)
    requires d < 0x80_0000
    ensures d & 0xFF_FFFF == d
  {
  }

  lemma LowOfBackward(d: Word)
    requires d >= 0xFF80_0000
    ensures 0x80_0000 <= d & 0xFF_FFFF < 0x100_0000 && (d & 0xFF_FFFF) | 0xFF00_0000 == d
  {
  }

  /** Truncating a reachable distance to 24 bits and sign-extending it again gives it back. */
  lemma SignExtendUndoesTruncation(d: Word)
    requires BranchReach(d)
    ensures (d << 8) >> 8 < 0x100_0000 && SignExtend((d << 8) >> 8) == d
  {
    KeepLow24(d);
    if d < 0x80_0000 {
      LowOfForward(d);
    } else {
      LowOfBackward(d);
    }
  }

  /**
    For a label within 2^23 words of the pipelined PC (the instruction's
    index plus 2), the emulator's sign-extended offset is the full 32-bit
    distance from that PC to the label.
   */
  lemma BranchOffsetReachesTarget(target: Word, index: Word)
    requires BranchReach(target - index - 2)
    ensures SignExtend(BranchOffset(target, index)) == target - index - 2
  {
    SignExtendUndoesTruncation(target - index - 2);
  }

  /** A 24-bit branch offset that the emulator sign-extends to the distance from the pipelined PC to the label, whenever 24 bits can hold that distance. */
  predicate Lands(offset: Word, target: Word, index: Word)
    requires offset < 0x100_0000
  {
    BranchReach(target - index - 2) ==> SignExtend(offset) == target - index - 2
  }

  /** The offset `decodeBranch` computes lands on the label. */
  lemma BranchOffsetLands(target: Word, index: Word)
    ensures Lands(BranchOffset(target, index), target, index)
  {
    if BranchReach(target - index - 2) {
      BranchOffsetReachesTarget(target, index);
    }
  }
}

=== FILE: immediate.dfy ===
/**
  The immediate canonicaliser inside `getExpression` (src/assemble.c): a
  32-bit literal becomes an 8-bit value and an even right rotation, the
  immediate form of operand 2 described in section A5.1 of the ARM
  Architecture Reference Manual (ARMv5 edition).

  The loop rotates the value left by two until it is below 256 or the
  rotation counter passes 30. The counter always equals 2k after k passes,
  so the model counts passes and reads the two values derived from the
  counter, 2k and (2k / 2) << 8, from the literal tables `Amounts` and
  `RotateFields`.
 */
module Immediate {
  import opened Adts
  import opened Bits
  import opened Diagnostics
  import opened Numerals

  /** The rotation counter after k passes. */
  const Amounts: seq<Word> := [0, 2, 4, 6, 8, 10, 12, 14, 16, 18, 20, 22, 24, 26, 28, 30]

  /** The rotate field `(rotations / 2) << 8` after k passes. */
  const RotateFields: seq<Word> := [0x000, 0x100, 0x200, 0x300, 0x400, 0x500, 0x600, 0x700,
                                    0x800, 0x900, 0xA00, 0xB00, 0xC00, 0xD00, 0xE00, 0xF00]

  /** One pass of the loop body: bits 31-30 move to bits 1-0, the rest shifts up by two. */
  function Rol2(x: Word): Word {
    (x << 2) | ((x & 0xC000_0000) >> 30)
  }

  /** One pass rotates left by two. */
  lemma Rol2Rotates(x: Word)
    ensures Rol2(x) == x.RotateLeft(2)
  {
  }

  /** The value after k passes of the loop body. */
  function RolSteps(v: Word, k: nat): Word {
    if k == 0 then v else Rol2(RolSteps(v, k - 1))
  }

  /** After k passes the value fits the 8-bit immediate field. */
  predicate Fits(v: Word, k: nat) {
    RolSteps(v, k) < 0x100
  }

  /** Some even left rotation by at most 30 brings the value below 256. */
  ghost predicate Encodable(v: Word) {
    exists k: nat :: k <= 15 && Fits(v, k)
  }

  /**
    The loop from pass k on, with `res` the value after k passes: the first
    pass count at or after k whose value fits, if there is one up to 15.
   */
  function ScanFrom(v: Word, res: Word, k: nat): (r: Option<nat>)
    requires k <= 16 && res == RolSteps(v, k)
    ensures r.None? <==> forall j: nat :: k <= j <= 15 ==> !Fits(v, j)
    ensures r.Some? ==> k <= r.value <= 15 && Fits(v, r.value)
    ensures r.Some? ==> forall q: nat :: k <= q < r.value ==> !Fits(v, q)
    decreases 16 - k
  {
    if res >= 0x100 && k <= 15 then
      var r := ScanFrom(v, Rol2(res), k + 1);
      assert !Fits(v, k);
      r
    else if k > 15 then
      None
    else
      assert Fits(v, k);
      Some(k)
  }

  /** Every counter value after one pass or more is a valid `rightRotate` amount. */
  lemma AmountFacts(k: nat)
    requires 1 <= k < 16
    ensures 0 < Amounts[k] < 32
  {
  }

  /** The rotate field has no bit in common with an 8-bit value and encodes the amount. */
  lemma RotateFieldFacts(k: nat)
    requires k < 16
    ensures RotateFields[k] & 0xFF == 0 && RotateFields[k] < 0x1000
    ensures (RotateFields[k] >> 8) * 2 == Amounts[k]
    ensures RotateFields[k] >> 8 == 0 <==> k == 0
  {
  }

  datatype Encoding = Encoded(word: Word) | Unencodable

  /**
    The `#` branch of `getExpression`: the operand `rotate:imm8` for the least
    number of passes that fits, or failure when none up to 15 does.
   */
  function EncodeImmediate(v: Word): (r: Encoding)
    ensures r.Unencodable? <==> !Encodable(v)
  {
    match ScanFrom(v, v, 0)
    case None => Unencodable
    case Some(k) => Encoded(RotateFields[k] | RolSteps(v, k))
  }

  // k passes of the loop body rotate the value left by 2k, for every k up to 16.

  lemma RolStepsFirst()
    ensures forall v: Word :: RolSteps(v, 1) == v.RotateLeft(2) && RolSteps(v, 2) == v.RotateLeft(4)
    ensures forall v: Word :: RolSteps(v, 3) == v.RotateLeft(6) && RolSteps(v, 4) == v.RotateLeft(8)
  {
    forall v: Word
      ensures RolSteps(v, 1) == v.RotateLeft(2) && RolSteps(v, 2) == v.RotateLeft(4)
      ensures RolSteps(v, 3) == v.RotateLeft(6) && RolSteps(v, 4) == v.RotateLeft(8)
    {
      Rol2Rotates(v);
      Rol2Rotates(v.RotateLeft(2));
      assert v.RotateLeft(2).RotateLeft(2) == v.RotateLeft(4);
      Rol2Rotates(v.RotateLeft(4));
      assert v.RotateLeft(4).RotateLeft(2) == v.RotateLeft(6);
      Rol2Rotates(v.RotateLeft(6));
      assert v.RotateLeft(6).RotateLeft(2) == v.RotateLeft(8);
    }
  }

  lemma RolStepsSecond()
    ensures forall v: Word :: RolSteps(v, 5) == v.RotateLeft(10) && RolSteps(v, 6) == v.RotateLeft(12)
    ensures forall v: Word :: RolSteps(v, 7) == v.RotateLeft(14) && RolSteps(v, 8) == v.RotateLeft(16)
  {
    RolStepsFirst();
    forall v: Word
      ensures RolSteps(v, 5) == v.RotateLeft(10) && RolSteps(v, 6) == v.RotateLeft(12)
      ensures RolSteps(v, 7) == v.RotateLeft(14) && RolSteps(v, 8) == v.RotateLeft(16)
    {
      Rol2Rotates(v.RotateLeft(8));
      assert v.RotateLeft(8).RotateLeft(2) == v.RotateLeft(10);
      Rol2Rotates(v.RotateLeft(10));
      assert v.RotateLeft(10).RotateLeft(2) == v.RotateLeft(12);
      Rol2Rotates(v.RotateLeft(12));
      assert v.RotateLeft(12).RotateLeft(2) == v.RotateLeft(14);
      Rol2Rotates(v.RotateLeft(14));
      assert v.RotateLeft(14).RotateLeft(2) == v.RotateLeft(16);
    }
  }

  lemma RolStepsThird()
    ensures forall v: Word :: RolSteps(v, 9) == v.RotateLeft(18) && RolSteps(v, 10) == v.RotateLeft(20)
    ensures forall v: Word :: RolSteps(v, 11) == v.RotateLeft(22) && RolSteps(v, 12) == v.RotateLeft(24)
  {
    RolStepsSecond();
    forall v: Word
      ensures RolSteps(v, 9) == v.RotateLeft(18) && RolSteps(v, 10) == v.RotateLeft(20)
      ensures RolSteps(v, 11) == v.RotateLeft(22) && RolSteps(v, 12) == v.RotateLeft(24)
    {
      Rol2Rotates(v.RotateLeft(16));
      assert v.RotateLeft(16).RotateLeft(2) == v.RotateLeft(18);
      Rol2Rotates(v.RotateLeft(18));
      assert v.RotateLeft(18).RotateLeft(2) == v.RotateLeft(20);
      Rol2Rotates(v.RotateLeft(20));
      assert v.RotateLeft(20).RotateLeft(2) == v.RotateLeft(22);
      Rol2Rotates(v.RotateLeft(22));
      assert v.RotateLeft(22).RotateLeft(2) == v.RotateLeft(24);
    }
  }

  lemma RolStepsFourth()
    ensures forall v: Word :: RolSteps(v, 13) == v.RotateLeft(26) && RolSteps(v, 14) == v.RotateLeft(28)
    ensures forall v: Word :: RolSteps(v, 15) == v.RotateLeft(30) && RolSteps(v, 16) == v
  {
    RolStepsThird();
    forall v: Word
      ensures RolSteps(v, 13) == v.RotateLeft(26) && RolSteps(v, 14) == v.RotateLeft(28)
      ensures RolSteps(v, 15) == v.RotateLeft(30) && RolSteps(v, 16) == v
    {
      Rol2Rotates(v.RotateLeft(24));
      assert v.RotateLeft(24).RotateLeft(2) == v.RotateLeft(26);
      Rol2Rotates(v.RotateLeft(26));
      assert v.RotateLeft(26).RotateLeft(2) == v.RotateLeft(28);
      Rol2Rotates(v.RotateLeft(28));
      assert v.RotateLeft(28).RotateLeft(2) == v.RotateLeft(30);
      Rol2Rotates(v.RotateLeft(30));
      assert v.RotateLeft(30).RotateLeft(2) == v;
    }
  }

  // Rotating the result of k passes right by 2k gives the value back. These
  // lemmas are proof scaffolding only: the solver cannot compose rotations by a
  // symbolic amount, so each k gets its own lemma (RoundTrip1 to RoundTrip15),
  // and RoundTripG0 to RoundTripG4 gather them three at a time for RoundTrip.

  lemma RoundTrip1(v: Word)
    ensures RightRotate(RolSteps(v, 1), 2) == v
  {
    RolStepsFirst();
    assert RightRotate(v.RotateLeft(2), 2) == v;
  }

  lemma RoundTrip2(v: Word)
    ensures RightRotate(RolSteps(v, 2), 4) == v
  {
    RolStepsFirst();
    assert RightRotate(v.RotateLeft(4), 4) == v;
  }

  lemma RoundTrip3(v: Word)
    ensures RightRotate(RolSteps(v, 3), 6) == v
  {
    RolStepsFirst();
    assert RightRotate(v.RotateLeft(6), 6) == v;
  }

  lemma RoundTrip4(v: Word)
    ensures RightRotate(RolSteps(v, 4), 8) == v
  {
    RolStepsFirst();
    assert RightRotate(v.RotateLeft(8), 8) == v;
  }

  lemma RoundTrip5(v: Word)
    ensures RightRotate(RolSteps(v, 5), 10) == v
  {
    RolStepsSecond();
    assert RightRotate(v.RotateLeft(10), 10) == v;
  }

  lemma RoundTrip6(v: Word)
    ensures RightRotate(RolSteps(v, 6), 12) == v
  {
    RolStepsSecond();
    assert RightRotate(v.RotateLeft(12), 12) == v;
  }

  lemma RoundTrip7(v: Word)
    ensures RightRotate(RolSteps(v, 7), 14) == v
  {
    RolStepsSecond();
    assert RightRotate(v.RotateLeft(14), 14) == v;
  }

  lemma RoundTrip8(v: Word)
    ensures RightRotate(RolSteps(v, 8), 16) == v
  {
    RolStepsSecond();
    assert RightRotate(v.RotateLeft(16), 16) == v;
  }

  lemma RoundTrip9(v: Word)
    ensures RightRotate(RolSteps(v, 9), 18) == v
  {
    RolStepsThird();
    assert RightRotate(v.RotateLeft(18), 18) == v;
  }

  lemma RoundTrip10(v: Word)
    ensures RightRotate(RolSteps(v, 10), 20) == v
  {
    RolStepsThird();
    assert RightRotate(v.RotateLeft(20), 20) == v;
  }

  lemma RoundTrip11(v: Word)
    ensures RightRotate(RolSteps(v, 11), 22) == v
  {
    RolStepsThird();
    assert RightRotate(v.RotateLeft(22), 22) == v;
  }

  lemma RoundTrip12(v: Word)
    ensures RightRotate(RolSteps(v, 12), 24) == v
  {
    RolStepsThird();
    assert RightRotate(v.RotateLeft(24), 24) == v;
  }

  lemma RoundTrip13(v: Word)
    ensures RightRotate(RolSteps(v, 13), 26) == v
  {
    RolStepsFourth();
    assert RightRotate(v.RotateLeft(26), 26) == v;
  }

  lemma RoundTrip14(v: Word)
    ensures RightRotate(RolSteps(v, 14), 28) == v
  {
    RolStepsFourth();
    assert RightRotate(v.RotateLeft(28), 28) == v;
  }

  lemma RoundTrip15(v: Word)
    ensures RightRotate(RolSteps(v, 15), 30) == v
  {
    RolStepsFourth();
    assert RightRotate(v.RotateLeft(30), 30) == v;
  }

  /** `rightRotate` by the counter undoes k passes, for every k from 1 to 15. */
  lemma RoundTripG0(v: Word, k: nat)
    requires 1 <= k <= 3
    ensures RightRotate(RolSteps(v, k), Amounts[k]) == v
  {
    if k == 1 {
      RoundTrip1(v);
    } else if k == 2 {
      RoundTrip2(v);
    } else {
      RoundTrip3(v);
    }
  }

  lemma RoundTripG1(v: Word, k: nat)
    requires 4 <= k <= 6
    ensures RightRotate(RolSteps(v, k), Amounts[k]) == v
  {
    if k == 4 {
      RoundTrip4(v);
    } else if k == 5 {
      RoundTrip5(v);
    } else {
      RoundTrip6(v);
    }
  }

  lemma RoundTripG2(v: Word, k: nat)
    requires 7 <= k <= 9
    ensures RightRotate(RolSteps(v, k), Amounts[k]) == v
  {
    if k == 7 {
      RoundTrip7(v);
    } else if k == 8 {
      RoundTrip8(v);
    } else {
      RoundTrip9(v);
    }
  }

  lemma RoundTripG3(v: Word, k: nat)
    requires 10 <= k <= 12
    ensures RightRotate(RolSteps(v, k), Amounts[k]) == v
  {
    if k == 10 {
      RoundTrip10(v);
    } else if k == 11 {
      RoundTrip11(v);
    } else {
      RoundTrip12(v);
    }
  }

  lemma RoundTripG4(v: Word, k: nat)
    requires 13 <= k <= 15
    ensures RightRotate(RolSteps(v, k), Amounts[k]) == v
  {
    if k == 13 {
      RoundTrip13(v);
    } else if k == 14 {
      RoundTrip14(v);
    } else {
      RoundTrip15(v);
    }
  }

  lemma RoundTrip(v: Word, k: nat)
    requires 1 <= k <= 15
    ensures 0 < Amounts[k] < 32 && RightRotate(RolSteps(v, k), Amounts[k]) == v
  {
    AmountFacts(k);
    if k <= 3 {
      RoundTripG0(v, k);
    } else if k <= 6 {
      RoundTripG1(v, k);
    } else if k <= 9 {
      RoundTripG2(v, k);
    } else if k <= 12 {
      RoundTripG3(v, k);
    } else {
      RoundTripG4(v, k);
    }
  }

  /** The emulator's extractors recover the two fields of `rotate:imm8`. */
  lemma FieldsOfOperand(field: Word, imm: Word)
    requires field & 0xFF == 0 && field < 0x1000 && imm < 0x100
    ensures GetImm(field | imm) == imm
    ensures GetRotate(field | imm) == field >> 8
  {
  }

  /** An encoded immediate is the rotate field of the pass count OR-ed with the value after those passes. */
  lemma EncodedWord(v: Word)
    requires EncodeImmediate(v).Encoded?
    ensures ScanFrom(v, v, 0).Some?
    ensures forall q: nat :: q < ScanFrom(v, v, 0).value ==> !Fits(v, q)
    ensures var k := ScanFrom(v, v, 0).value;
            RolSteps(v, k) < 0x100 && EncodeImmediate(v).word == RotateFields[k] | RolSteps(v, k)
  {
  }

  /** `getImm` of an encoded immediate is the value after the passes. */
  lemma EncodedImm(v: Word)
    requires EncodeImmediate(v).Encoded?
    ensures ScanFrom(v, v, 0).Some? && GetImm(EncodeImmediate(v).word) == RolSteps(v, ScanFrom(v, v, 0).value)
  {
    EncodedWord(v);
    var k := ScanFrom(v, v, 0).value;
    RotateFieldFacts(k);
    FieldsOfOperand(RotateFields[k], RolSteps(v, k));
  }

  /** `getRotate` of an encoded immediate is the rotate field of the pass count. */
  lemma EncodedRotate(v: Word)
    requires EncodeImmediate(v).Encoded?
    ensures ScanFrom(v, v, 0).Some? && GetRotate(EncodeImmediate(v).word) == RotateFields[ScanFrom(v, v, 0).value] >> 8
  {
    EncodedWord(v);
    var k := ScanFrom(v, v, 0).value;
    RotateFieldFacts(k);
    FieldsOfOperand(RotateFields[k], RolSteps(v, k));
  }

  /** Rewriting the arguments of `rightRotate` by equal ones. */
  lemma RightRotateCongruence(imm: Word, rotate: Word, x: Word, amount: Word, v: Word)
    requires imm == x && rotate * 2 == amount && 0 < amount < 32 && RightRotate(x, amount) == v
    ensures RightRotate(imm, rotate * 2) == v
  {
  }

  /** An encoded immediate with rotate field zero holds the literal itself. */
  lemma EncodeImmediateUnrotated(v: Word)
    requires EncodeImmediate(v).Encoded? && GetRotate(EncodeImmediate(v).word) == 0
    ensures GetImm(EncodeImmediate(v).word) == v
  {
    EncodedImm(v);
    EncodedRotate(v);
    RotateFieldFacts(ScanFrom(v, v, 0).value);
  }

  /** `getRotate` of an encoded immediate is half the counter after the passes, zero only without passes. */
  lemma EncodedAmount(v: Word)
    requires EncodeImmediate(v).Encoded?
    ensures ScanFrom(v, v, 0).Some?
    ensures GetRotate(EncodeImmediate(v).word) * 2 == Amounts[ScanFrom(v, v, 0).value]
    ensures GetRotate(EncodeImmediate(v).word) == 0 <==> ScanFrom(v, v, 0).value == 0
  {
    EncodedRotate(v);
    RotateFieldFacts(ScanFrom(v, v, 0).value);
  }

  /** A value below 256 needs no rotation: it is its own encoding, with rotate field zero. */
  lemma SmallImmediateUnchanged(v: Word)
    requires v < 0x100
    ensures EncodeImmediate(v) == Encoded(v)
  {
    assert ScanFrom(v, v, 0) == Some(0);
    assert RotateFields[0] == 0;
  }

  /** The round trip for an operand built from k passes, for k from 1 to 15. */
  lemma OperandRoundTrip(v: Word, k: nat, imm: Word, rotate: Word)
    requires 1 <= k <= 15 && imm == RolSteps(v, k) && rotate * 2 == Amounts[k]
    ensures 0 < rotate * 2 < 32 && RightRotate(imm, rotate * 2) == v
  {
    RoundTrip(v, k);
  }

  /**
    Decoding an encoded immediate the emulator's way gives the literal back:
    the 8-bit value rotated right by twice a non-zero rotate field.
   */
  lemma EncodeImmediateRoundTrip(v: Word)
    requires EncodeImmediate(v).Encoded?
    requires GetRotate(EncodeImmediate(v).word) != 0
    ensures RightRotate(GetImm(EncodeImmediate(v).word), GetRotate(EncodeImmediate(v).word) * 2) == v
  {
    EncodedImm(v);
    EncodedAmount(v);
    var w := EncodeImmediate(v).word;
    OperandRoundTrip(v, ScanFrom(v, v, 0).value, GetImm(w), GetRotate(w));
  }

  // ---------------------------------------------------------- getExpression

  /** The literal an expression token spells: hex after "#0x" or "=0x", decimal after the first character otherwise. */
  function Literal(exp: string): Outcome<Word>
    requires |exp| >= 1
  {
    if |exp| >= 3 && exp[1] == '0' && exp[2] == 'x' then GetHex(exp[3..]) else GetDec(exp[1..])
  }

  /** What `getExpression` returns, and whether it threw the "expression invalid" error. */
  datatype Expression = Expression(word: Word, invalid: bool)

  /**
    `getExpression`: a `#` literal is canonicalised into operand 2's immediate
    form, or reported invalid and answered with -1; any other literal is
    returned as read.
   */
  function GetExpression(exp: string): (r: Outcome<Expression>)
    requires |exp| >= 1
    ensures r.UndefinedBehaviour? <==> Literal(exp).UndefinedBehaviour?
    ensures r.Defined? && exp[0] != '#' ==> r.value == Expression(Literal(exp).value, false)
    ensures r.Defined? && exp[0] == '#' ==> (r.value.invalid <==> !Encodable(Literal(exp).value))
    ensures r.Defined? && r.value.invalid ==> r.value.word == 0xFFFF_FFFF
  {
    match Literal(exp)
    case UndefinedBehaviour => UndefinedBehaviour
    case Defined(v) =>
      if exp[0] != '#' then Defined(Expression(v, false))
      else match EncodeImmediate(v)
        case Unencodable => Defined(Expression(0xFFFF_FFFF, true))
        case Encoded(w) => Defined(Expression(w, false))
  }

  /**
    A valid `#` expression decodes back to its literal the way the emulator
    reads operand 2: the 8-bit value, rotated right by twice the rotate field
    when that field is not zero.
   */
  lemma GetExpressionRoundTrip(exp: string)
    requires |exp| >= 1 && exp[0] == '#'
    requires GetExpression(exp).Defined? && !GetExpression(exp).value.invalid
    ensures var w := GetExpression(exp).value.word;
            var v := Literal(exp).value;
            (GetRotate(w) == 0 ==> GetImm(w) == v)
            && (GetRotate(w) != 0 ==> RightRotate(GetImm(w), GetRotate(w) * 2) == v)
  {
    var v := Literal(exp).value;
    if GetRotate(EncodeImmediate(v).word) == 0 {
      EncodeImmediateUnrotated(v);
    } else {
      EncodeImmediateRoundTrip(v);
    }
  }

  /** A valid `#` expression occupies only bits 11-0, the immediate form of operand 2. */
  lemma GetExpressionFitsOperand(exp: string)
    requires |exp| >= 1 && exp[0] == '#'
    requires GetExpression(exp).Defined? && !GetExpression(exp).value.invalid
    ensures GetExpression(exp).value.word < 0x1000
  {
    var v := Literal(exp).value;
    EncodedWord(v);
    RotateFieldFacts(ScanFrom(v, v, 0).value);
  }
}

=== FILE: layout.dfy ===
/**
  How the assembler's encoders lay fields out in a 32-bit word, and that the
  emulator's extractors (src/instructionManipulation.c) read each field back.
  Each lemma takes the fields as they are OR-ed together by the encoder.
 */
module Layout {
  import opened Bits

  /** `setCond` with the code the condition table gives: keep bits 27-0 and put the code in bits 31-28. */
  function SetCondBits(x: Word, code: Word): (r: Word)
    requires code < 16
    ensures GetCond(r) == code
    ensures r & 0x0FFF_FFFF == x & 0x0FFF_FFFF
  {
    ((x << 4) >> 4) | (code << 28)
  }

  /** The data-processing word: cond, I, opcode, S, Rn, Rd and operand 2. */
  function DataProcessingWord(opcode: Word, s: Word, i: Word, rn: Word, rd: Word, operand2: Word): Word {
    SetCondBits(0, 14) | (opcode << 21) | (s << 20) | (i << 25) | (rn << 16) | (rd << 12) | operand2
  }

  /** An all-ones operand 2 (the -1 of a rejected expression) fills every bit of the word. */
  lemma DataProcessingAllOnes(opcode: Word, s: Word, i: Word, rn: Word, rd: Word)
    ensures DataProcessingWord(opcode, s, i, rn, rd, 0xFFFF_FFFF) == 0xFFFF_FFFF
  {}

  lemma DataProcessingFields(opcode: Word, s: Word, i: Word, rn: Word, rd: Word, operand2: Word)
    requires opcode < 16 && s < 2 && i < 2 && rn < 16 && rd < 16 && operand2 < 0x1000
    ensures var w := DataProcessingWord(opcode, s, i, rn, rd, operand2);
            GetCond(w) == 14 && ExtractIdBits(w) == 0 && GetIBit(w) == i && GetOpcode(w) == opcode
            && GetSBit(w) == s && GetRn(w) == rn && GetRdest(w) == rd && w & 0xFFF == operand2
  {
  }

  /** A register operand 2 fills bits 3-0 and leaves the shift field 11-4 zero. */
  lemma RegisterOperandFields(w: Word, rm: Word)
    requires rm < 16 && w & 0xFFF == rm
    ensures GetRm(w) == rm && GetShift(w) == 0
  {
  }

  /** The emulator reads an immediate operand 2 from bits 11-0 alone. */
  lemma ImmediateOperandFields(w: Word, operand2: Word)
    requires w & 0xFFF == operand2
    ensures GetImm(w) == GetImm(operand2) && GetRotate(w) == GetRotate(operand2)
  {
  }

  /** The multiply word: cond, A, Rd, Rn, Rs, 1001 and Rm. */
  function MultiplyWord(acc: Word, rd: Word, rm: Word, rs: Word, rn: Word): Word {
    SetCondBits(0x90, 14) | (acc << 21) | (rd << 16) | rm | (rs << 8) | (rn << 12)
  }

  lemma MultiplyFields(acc: Word, rd: Word, rm: Word, rs: Word, rn: Word)
    requires acc < 2 && rd < 16 && rm < 16 && rs < 16 && rn < 16
    ensures var w := MultiplyWord(acc, rd, rm, rs, rn);
            GetCond(w) == 14 && IsMult(w) && ExtractIdBits(w) == 0 && GetABit(w) == acc && GetSBitMul(w) == 0
            && GetRdMul(w) == rd && GetRmMul(w) == rm && GetRsMul(w) == rs && GetRnMul(w) == rn
  {
  }

  /** The single-data-transfer word: cond, 01, I, P, U, L, Rn, Rd and the offset. */
  function TransferWord(i: Word, p: Word, u: Word, l: Word, rn: Word, rd: Word, offset: Word): Word {
    SetCondBits(0x400_0000, 14) | (i << 25) | (p << 24) | (u << 23) | (l << 20) | (rn << 16) | (rd << 12) | offset
  }

  lemma TransferFields(i: Word, p: Word, u: Word, l: Word, rn: Word, rd: Word, offset: Word)
    requires i < 2 && p < 2 && u < 2 && l < 2 && rn < 16 && rd < 16 && offset < 0x1000
    ensures var w := TransferWord(i, p, u, l, rn, rd, offset);
            GetCond(w) == 14 && ExtractIdBits(w) == 1 && GetIBit(w) == i && GetPBit(w) == p && GetUBit(w) == u
            && GetLBit(w) == l && GetRn(w) == rn && GetRdest(w) == rd && GetOffsetDataTransfer(w) == offset
  {
  }

  /** The branch word: cond, 1010 and the 24-bit offset. */
  function BranchWord(code: Word, offset: Word): Word
    requires code < 16
  {
    SetCondBits(0xA00_0000, code) | offset
  }

  lemma BranchFields(code: Word, offset: Word)
    requires code < 16 && offset < 0x100_0000
    ensures var w := BranchWord(code, offset);
            GetCond(w) == code && ExtractIdBits(w) == 2 && (w >> 24) & 0xF == 0xA && GetOffset(w) == offset
  {
  }
}

=== FILE: lexer.dfy ===
/**
  The text front end of src/assemble.c: `tokenise`, which cuts a line at
  spaces, commas and newlines, and the token classifiers `isLabel`,
  `isRegister`, `isExpression`, `isInstruction` and `getType`.
 */
module Lexer {
  import opened Adts
  import opened Bits
  import opened Diagnostics
  import opened Numerals
  import opened Immediate
  import Mappings

  // -------------------------------------------------------------- tokenise

  /** The `DELIMITERS` of the assembler. */
  predicate IsDelimiter(c: char) {
    c == ' ' || c == ',' || c == '\n'
  }

  predicate NoDelimiter(s: string) {
    forall i :: 0 <= i < |s| ==> !IsDelimiter(s[i])
  }

  /** The index of the first delimiter of `s`, or |s| when it has none. */
  function FirstDelimiter(s: string): (i: nat)
    ensures i <= |s| && NoDelimiter(s[..i])
    ensures i < |s| ==> IsDelimiter(s[i])
  {
    if |s| == 0 || IsDelimiter(s[0]) then 0
    else
      var i := 1 + FirstDelimiter(s[1..]);
      assert s[..i] == [s[0]] + s[1..][..i - 1];
      i
  }

  /** The maximal runs of non-delimiter characters of `s`, in order. */
  function Runs(s: string): seq<string>
    decreases |s|
  {
    var i := FirstDelimiter(s);
    if i == |s| then RunBefore(s, i) else RunBefore(s, i) + Runs(s[i + 1..])
  }

  /** No run is empty and no run holds a delimiter. */
  lemma {:induction false} RunsAreWords(s: string)
    ensures forall k :: 0 <= k < |Runs(s)| ==> |Runs(s)[k]| > 0 && NoDelimiter(Runs(s)[k])
    decreases |s|
  {
    var i := FirstDelimiter(s);
    if i < |s| {
      RunsAreWords(s[i + 1..]);
    }
  }

  /** The run before the first delimiter, as a list of at most one token. */
  function RunBefore(s: string, i: nat): (r: seq<string>)
    requires i <= |s|
    ensures NoDelimiter(s[..i]) ==> forall k :: 0 <= k < |r| ==> |r[k]| > 0 && NoDelimiter(r[k])
  {
    if i == 0 then [] else [s[..i]]
  }

  /** Unfolding `Runs` at a delimiter with none before it. */
  lemma RunsAt(s: string, i: nat)
    requires i < |s| && FirstDelimiter(s) == i
    ensures Runs(s) == RunBefore(s, i) + Runs(s[i + 1..])
  {
  }

  /** Unfolding `Runs` on a string without delimiters. */
  lemma RunsNone(s: string)
    requires FirstDelimiter(s) == |s|
    ensures Runs(s) == RunBefore(s, |s|)
  {
  }

  /** A delimiter separates the runs before it from the runs after it. */
  lemma {:induction false} RunsSplit(a: string, d: char, b: string)
    requires IsDelimiter(d)
    ensures Runs(a + [d] + b) == Runs(a) + Runs(b)
    decreases |a|
  {
    var i := FirstDelimiter(a);
    if i == |a| {
      RunsSplitLast(a, d, b);
    } else {
      RunsSplit(a[i + 1..], d, b);
      RunsSplitInner(a, d, b, i);
    }
  }

  /** The case of `RunsSplit` where `a` holds no delimiter. */
  lemma RunsSplitLast(a: string, d: char, b: string)
    requires IsDelimiter(d) && FirstDelimiter(a) == |a|
    ensures Runs(a + [d] + b) == Runs(a) + Runs(b)
  {
    var s := a + [d] + b;
    var i := |a|;
    assert s[..i] == a[..i] && IsDelimiter(s[i]);
    FirstDelimiterAt(s, i);
    RunsAt(s, i);
    assert RunBefore(s, i) == RunBefore(a, i);
    assert s[i + 1..] == b;
    RunsNone(a);
  }

  /** The case of `RunsSplit` where `a` has its first delimiter at `i`, given the split of the rest. */
  lemma RunsSplitInner(a: string, d: char, b: string, i: nat)
    requires IsDelimiter(d) && i < |a| && FirstDelimiter(a) == i
    requires Runs(a[i + 1..] + [d] + b) == Runs(a[i + 1..]) + Runs(b)
    ensures Runs(a + [d] + b) == Runs(a) + Runs(b)
  {
    var s := a + [d] + b;
    SplitKeepsFirstDelimiter(a, d, b, i);
    RunsAt(s, i);
    RunsAt(a, i);
    Regroup(Runs(s), RunBefore(a, i), Runs(a[i + 1..]), Runs(b));
  }

  /** Appending to `a` keeps its first delimiter and the run before it. */
  lemma SplitKeepsFirstDelimiter(a: string, d: char, b: string, i: nat)
    requires i < |a| && FirstDelimiter(a) == i
    ensures FirstDelimiter(a + [d] + b) == i
    ensures RunBefore(a + [d] + b, i) == RunBefore(a, i)
    ensures (a + [d] + b)[i + 1..] == a[i + 1..] + [d] + b
  {
    var s := a + [d] + b;
    assert s[..i] == a[..i] && IsDelimiter(s[i]);
    FirstDelimiterAt(s, i);
  }

  lemma Regroup<T>(r: seq<T>, x: seq<T>, y: seq<T>, z: seq<T>)
    requires r == x + (y + z)
    ensures r == (x + y) + z
  {
  }

  /** A delimiter at `i` with none before it is the first delimiter. */
  lemma FirstDelimiterAt(s: string, i: nat)
    requires i < |s| && IsDelimiter(s[i]) && NoDelimiter(s[..i])
    ensures FirstDelimiter(s) == i
  {
  }

  /** A stretch without delimiters is one run, or none when it is empty. */
  lemma RunsOfWord(w: string)
    requires NoDelimiter(w)
    ensures Runs(w) == if |w| == 0 then [] else [w]
  {
    assert w[..|w|] == w;
  }

  /**
    The state of `tokenise` after reading `line[..i]`: the current run is the
    last `size` characters read, and the tokens emitted so far are the runs
    before the delimiter that precedes it.
   */
  predicate Scanned(line: string, i: nat, size: nat, tokens: seq<string>) {
    size <= i <= |line|
    && NoDelimiter(line[i - size..i])
    && (i - size == 0 ==> tokens == [])
    && (i - size > 0 ==> IsDelimiter(line[i - size - 1]) && tokens == Runs(line[..i - size - 1]))
  }

  /** The run being read, as the token it becomes when it ends. */
  function Pending(line: string, i: nat, size: nat): seq<string>
    requires size <= i <= |line|
  {
    if size > 0 then [line[i - size..i]] else []
  }

  /** What has been read so far splits into the emitted tokens and the run being read. */
  lemma ScannedRuns(line: string, i: nat, size: nat, tokens: seq<string>)
    requires Scanned(line, i, size, tokens)
    ensures Runs(line[..i]) == tokens + Pending(line, i, size)
  {
    var j := i - size;
    RunsOfWord(line[j..i]);
    if j > 0 {
      assert line[..i] == line[..j - 1] + [line[j - 1]] + line[j..i];
      RunsSplit(line[..j - 1], line[j - 1], line[j..i]);
    } else {
      assert line[..i] == line[j..i];
    }
  }

  /** At a delimiter the run being read is emitted and a new, empty one starts. */
  lemma ScanDelimiter(line: string, i: nat, size: nat, tokens: seq<string>)
    requires Scanned(line, i, size, tokens) && i < |line| && IsDelimiter(line[i])
    ensures Scanned(line, i + 1, 0, tokens + Pending(line, i, size))
  {
    ScannedRuns(line, i, size, tokens);
    assert line[..i + 1][..i] == line[..i];
  }

  /** Any other character extends the run being read. */
  lemma ScanOther(line: string, i: nat, size: nat, tokens: seq<string>)
    requires Scanned(line, i, size, tokens) && i < |line| && !IsDelimiter(line[i])
    ensures Scanned(line, i + 1, size + 1, tokens)
  {
    assert line[i - size..i + 1] == line[i - size..i] + [line[i]];
  }

  /**
    `tokenise`: walk the line counting the length of the current run and emit
    the run at each delimiter and at the end of the line, if it is not empty.
   */
  method Tokenise(line: string) returns (tokens: seq<string>)
    ensures tokens == Runs(line)
    ensures forall k :: 0 <= k < |tokens| ==> |tokens[k]| > 0 && NoDelimiter(tokens[k])
  {
    RunsAreWords(line);
    tokens := [];
    var tokenSize := 0;
    var i := 0;
    while i < |line|
      invariant Scanned(line, i, tokenSize, tokens)
    {
      if IsDelimiter(line[i]) {
        ScanDelimiter(line, i, tokenSize, tokens);
        if tokenSize > 0 {
          tokens := tokens + [line[i - tokenSize..i]];
        }
        tokenSize := 0;
      } else {
        ScanOther(line, i, tokenSize, tokens);
        tokenSize := tokenSize + 1;
      }
      i := i + 1;
    }
    ScannedRuns(line, i, tokenSize, tokens);
    assert line[..i] == line;
    if tokenSize > 0 {
      tokens := tokens + [line[i - tokenSize..i]];
    }
  }

  // -------------------------------------------------------- classification

  /** The `typeEnum` of src/mappings.h. */
  datatype TokenType = Instruction | Label | ExpressionTag | ExpressionEqual | Register | Undefined

  /** `isLabel`: the last character is ':'. The source reads before the token when it is empty. */
  predicate IsLabel(token: string)
    requires |token| >= 1
  {
    token[|token| - 1] == ':'
  }

  /** `isRegister`: 'r' and one or two decimal digits whose value is at most 16. */
  predicate IsRegister(token: string) {
    2 <= |token| <= 3 && token[0] == 'r'
    && (forall i :: 1 <= i < |token| ==> IsDecimalDigit(token[i]))
    && DecimalValue(token[1..]) <= 16
  }

  /** The register number `getDec(token + 1)` reads from a register token. */
  function RegisterNumber(token: string): (n: nat)
    requires IsRegister(token)
    ensures n <= 16
  {
    DecimalValue(token[1..])
  }

  /** The register token the assembler's own syntax uses for register n. */
  function RegisterName(n: nat): string
    requires n <= 16
  {
    "r" + DecimalString(n)
  }

  /** Every register name from r0 to r16 is a register token naming that register. */
  lemma RegisterNameRoundTrip(n: nat)
    requires n <= 16
    ensures IsRegister(RegisterName(n)) && RegisterNumber(RegisterName(n)) == n
  {
    var t := RegisterName(n);
    assert t[1..] == DecimalString(n);
    DecimalValueOfString(n);
    assert |DecimalString(n)| <= 2 by {
      if n >= 10 {
        assert DecimalString(n / 10) == [DecimalDigitChar(n / 10)];
      }
    }
  }

  /**
    `isExpression`: '#' or '=' followed by hex digits after "0x" (when the
    token has at least four characters) or by decimal digits. A lone '#' or
    '=' passes.
   */
  function ExpressionKind(token: string): (r: TokenType)
    ensures r == Undefined || r == ExpressionTag || r == ExpressionEqual
    ensures r != Undefined ==> |token| >= 1 && (r == ExpressionTag <==> token[0] == '#')
  {
    if |token| == 0 || (token[0] != '#' && token[0] != '=') then Undefined
    else if |token| >= 4 && token[1] == '0' && token[2] == 'x' then
      if forall i :: 3 <= i < |token| ==> IsHexDigit(token[i]) then Kind(token[0]) else Undefined
    else if forall i :: 1 <= i < |token| ==> IsDecimalDigit(token[i]) then Kind(token[0])
    else Undefined
  }

  function Kind(c: char): TokenType {
    if c == '#' then ExpressionTag else ExpressionEqual
  }

  /** `isInstruction`: the class table has the token. */
  predicate IsInstruction(token: string) {
    Mappings.AllInstructions(token).Some?
  }

  /**
    `getType`: NULL is undefined; otherwise label, then expression, then
    mnemonic, then register, in that order of priority.
   */
  function GetType(token: Option<string>): (r: TokenType)
    requires token.Some? ==> |token.value| >= 1
  {
    match token
    case None => Undefined
    case Some(t) =>
      if IsLabel(t) then Label
      else if ExpressionKind(t) != Undefined then ExpressionKind(t)
      else if IsInstruction(t) then Instruction
      else if IsRegister(t) then Register
      else Undefined
  }

  /** A label is never also an expression, since ':' is no digit. */
  lemma LabelIsNoExpression(t: string)
    requires |t| >= 1 && IsLabel(t)
    ensures ExpressionKind(t) == Undefined
  {
    if |t| >= 4 && t[1] == '0' && t[2] == 'x' {
      assert !IsHexDigit(t[|t| - 1]);
    } else if |t| >= 2 {
      assert !IsDecimalDigit(t[|t| - 1]);
    }
  }

  /** A register token is never a mnemonic, an expression or a label. */
  lemma RegisterIsOnlyRegister(t: string)
    requires IsRegister(t)
    ensures !IsLabel(t) && ExpressionKind(t) == Undefined && !IsInstruction(t)
    ensures GetType(Some(t)) == Register
  {
    assert IsDecimalDigit(t[|t| - 1]);
    assert t[0] == 'r';
  }

  /**
    The classes `getType` gives: a label is recognised first, an expression
    token keeps its own kind, a mnemonic that is neither is an instruction,
    and only what is none of these can be a register.
   */
  lemma GetTypePriority(t: string)
    requires |t| >= 1
    ensures GetType(Some(t)) == Label <==> IsLabel(t)
    ensures GetType(Some(t)) == ExpressionTag <==> ExpressionKind(t) == ExpressionTag
    ensures GetType(Some(t)) == ExpressionEqual <==> ExpressionKind(t) == ExpressionEqual
    ensures GetType(Some(t)) == Instruction <==> ExpressionKind(t) == Undefined && !IsLabel(t) && IsInstruction(t)
    ensures GetType(Some(t)) == Register <==> IsRegister(t)
  {
    if IsLabel(t) {
      LabelIsNoExpression(t);
    }
    if IsRegister(t) {
      RegisterIsOnlyRegister(t);
    }
  }

  /** "#0x" followed by the hex spelling of a word below 2^31 is a `#` expression whose literal is that word. */
  lemma HexExpressionRoundTrip(w: Word)
    requires w < 0x8000_0000
    ensures var t := "#0x" + HexString(w);
            ExpressionKind(t) == ExpressionTag && Literal(t) == Defined(w)
  {
    var t := "#0x" + HexString(w);
    assert t[3..] == HexString(w);
    GetHexRoundTrip(w);
  }
}

=== FILE: mappings.dfy ===
/**
  The mnemonic tables of src/mappings.h, the revision src/assemble.c includes.
  Each `fill*` function `put`s distinct keys into an association list, and the
  assembler only ever reads them back with `get`, so each table is modelled as
  the function `get` computes on it: the code stored for a key, or `None` for
  the NULL pointer `get` returns when the key is absent.
 */
module Mappings {
  import opened Adts
  import opened Bits

  /** `fillDataToOpcode`: the opcode field (bits 24-21) of each data-processing mnemonic. */
  function DataOpcode(m: string): (r: Option<Word>)
    ensures r.Some? ==> r.value < 16 && |m| == 3
  {
    if m == "add" then Some(4)
    else if m == "sub" then Some(2)
    else if m == "rsb" then Some(3)
    else if m == "and" then Some(0)
    else if m == "eor" then Some(1)
    else if m == "orr" then Some(12)
    else if m == "mov" then Some(13)
    else if m == "tst" then Some(8)
    else if m == "teq" then Some(9)
    else if m == "cmp" then Some(10)
    else None

  }

  /**
    `fillAllInstructions`: the class of each mnemonic; 0 data processing,
    1 multiply, 2 single data transfer, 3 branch, 4 `lsl`, 5 `andeq`.
   */
  function AllInstructions(m: string): (r: Option<Word>)
    ensures r.Some? ==> r.value <= 5 && |m| >= 1
  {
    if m == "add" then Some(0)
    else if m == "sub" then Some(0)
    else if m == "rsb" then Some(0)
    else if m == "and" then Some(0)
    else if m == "eor" then Some(0)
    else if m == "orr" then Some(0)
    else if m == "mov" then Some(0)
    else if m == "tst" then Some(0)
    else if m == "teq" then Some(0)
    else if m == "cmp" then Some(0)
    else if m == "mul" then Some(1)
    else if m == "mla" then Some(1)
    else if m == "ldr" then Some(2)
    else if m == "str" then Some(2)
    else if m == "beq" then Some(3)
    else if m == "bne" then Some(3)
    else if m == "bge" then Some(3)
    else if m == "blt" then Some(3)
    else if m == "bgt" then Some(3)
    else if m == "ble" then Some(3)
    else if m == "b" then Some(3)
    else if m == "lsl" then Some(4)
    else if m == "andeq" then Some(5)
    else None

  }

  /** `fillConditions`: the condition field (bits 31-28) of each suffix; "" is "always". */
  function Conditions(m: string): (r: Option<Word>)
    ensures r.Some? ==> r.value < 16
  {
    if m == "eq" then Some(0)
    else if m == "ne" then Some(1)
    else if m == "ge" then Some(10)
    else if m == "lt" then Some(11)
    else if m == "gt" then Some(12)
    else if m == "le" then Some(13)
    else if m == "" then Some(14)
    else None

  }

  /** `fillDataToType`: 0 computes a result, 1 is `mov` (no Rn), 2 only sets flags (no Rd). */
  function DataType(m: string): (r: Option<Word>)
    ensures r.Some? ==> r.value <= 2
  {
    if m == "and" then Some(0)
    else if m == "eor" then Some(0)
    else if m == "sub" then Some(0)
    else if m == "rsb" then Some(0)
    else if m == "add" then Some(0)
    else if m == "orr" then Some(0)
    else if m == "mov" then Some(1)
    else if m == "tst" then Some(2)
    else if m == "teq" then Some(2)
    else if m == "cmp" then Some(2)
    else None

  }

  /** Distinct data-processing mnemonics have distinct opcodes. */
  lemma OpcodesDistinct(m: string, n: string)
    requires DataOpcode(m).Some? && DataOpcode(m) == DataOpcode(n)
    ensures m == n
  {
  }

  /** Class 0 is exactly the keys of the opcode table, and so are the keys of the data-type table. */
  lemma DataClassIsOpcodeKeys(m: string)
    ensures AllInstructions(m) == Some(0) <==> DataOpcode(m).Some?
    ensures DataType(m).Some? <==> DataOpcode(m).Some?
  {
  }

  predicate IsBranchMnemonic(m: string) {
    m == "beq" || m == "bne" || m == "bge" || m == "blt" || m == "bgt" || m == "ble" || m == "b"
  }

  /** Class 3 is exactly the seven branch mnemonics. */
  lemma BranchClassMnemonics(m: string)
    ensures AllInstructions(m) == Some(3) <==> IsBranchMnemonic(m)
  {
    if AllInstructions(m) == Some(3) {
      BranchClassIsBranch(m);
    }
  }

  lemma BranchClassIsBranch(m: string)
    requires AllInstructions(m) == Some(3)
    ensures IsBranchMnemonic(m)
  {
  }

  /** Every class-3 mnemonic without its leading 'b' is a condition, so `setCond` always finds a code. */
  lemma BranchSuffixIsCondition(m: string)
    requires AllInstructions(m) == Some(3)
    ensures |m| >= 1 && m[0] == 'b' && Conditions(m[1..]).Some?
  {
    assert "beq"[1..] == "eq" && "bne"[1..] == "ne" && "bge"[1..] == "ge";
    assert "blt"[1..] == "lt" && "bgt"[1..] == "gt" && "ble"[1..] == "le" && "b"[1..] == "";
  }

  /** Only `mov` has data type 1 and only tst, teq and cmp have data type 2. */
  lemma DataTypesByMnemonic(m: string)
    ensures DataType(m) == Some(1) <==> m == "mov"
    ensures DataType(m) == Some(2) <==> m == "tst" || m == "teq" || m == "cmp"
  {
  }
}

=== FILE: mappings_revised.dfy ===
/**
  The newer revision of the tables in src/mappings.c, which src/assemble.c
  does not include: the same opcode, condition and data-type tables, the shift
  mnemonics lsr, asr and ror added to class 4, and a shift-type table.
 */
module MappingsRevised {
  import opened Adts
  import opened Bits
  import Mappings

  function DataOpcode(m: string): (r: Option<Word>)
    ensures r.Some? ==> r.value < 16
  {
    if m == "add" then Some(4)
    else if m == "sub" then Some(2)
    else if m == "rsb" then Some(3)
    else if m == "and" then Some(0)
    else if m == "eor" then Some(1)
    else if m == "orr" then Some(12)
    else if m == "mov" then Some(13)
    else if m == "tst" then Some(8)
    else if m == "teq" then Some(9)
    else if m == "cmp" then Some(10)
    else None

  }

  function AllInstructions(m: string): (r: Option<Word>)
    ensures r.Some? ==> r.value <= 5
  {
    if m == "add" then Some(0)
    else if m == "sub" then Some(0)
    else if m == "rsb" then Some(0)
    else if m == "and" then Some(0)
    else if m == "eor" then Some(0)
    else if m == "orr" then Some(0)
    else if m == "mov" then Some(0)
    else if m == "tst" then Some(0)
    else if m == "teq" then Some(0)
    else if m == "cmp" then Some(0)
    else if m == "mul" then Some(1)
    else if m == "mla" then Some(1)
    else if m == "ldr" then Some(2)
    else if m == "str" then Some(2)
    else if m == "beq" then Some(3)
    else if m == "bne" then Some(3)
    else if m == "bge" then Some(3)
    else if m == "blt" then Some(3)
    else if m == "bgt" then Some(3)
    else if m == "ble" then Some(3)
    else if m == "b" then Some(3)
    else if m == "lsl" then Some(4)
    else if m == "lsr" then Some(4)
    else if m == "asr" then Some(4)
    else if m == "ror" then Some(4)
    else if m == "andeq" then Some(5)
    else None

  }

  function Conditions(m: string): (r: Option<Word>)
    ensures r.Some? ==> r.value < 16
  {
    if m == "eq" then Some(0)
    else if m == "ne" then Some(1)
    else if m == "ge" then Some(10)
    else if m == "lt" then Some(11)
    else if m == "gt" then Some(12)
    else if m == "le" then Some(13)
    else if m == "" then Some(14)
    else None

  }

  function DataType(m: string): (r: Option<Word>)
    ensures r.Some? ==> r.value <= 2
  {
    if m == "and" then Some(0)
    else if m == "eor" then Some(0)
    else if m == "sub" then Some(0)
    else if m == "rsb" then Some(0)
    else if m == "add" then Some(0)
    else if m == "orr" then Some(0)
    else if m == "mov" then Some(1)
    else if m == "tst" then Some(2)
    else if m == "teq" then Some(2)
    else if m == "cmp" then Some(2)
    else None

  }

  /** `fillShifts`: the shift-type field (bits 6-5) of each shift mnemonic. */
  function Shifts(m: string): (r: Option<Word>)
    ensures r.Some? ==> r.value < 4
  {
    if m == "lsl" then Some(0)
    else if m == "lsr" then Some(1)
    else if m == "asr" then Some(2)
    else if m == "ror" then Some(3)
    else None

  }

  /** The opcode, condition and data-type tables are the same in both revisions. */
  lemma UnchangedTables(m: string)
    ensures DataOpcode(m) == Mappings.DataOpcode(m)
    ensures Conditions(m) == Mappings.Conditions(m)
    ensures DataType(m) == Mappings.DataType(m)
  {
  }

  /** The class table gains lsr, asr and ror in class 4 and keeps every older entry. */
  lemma ClassTableExtends(m: string)
    ensures Mappings.AllInstructions(m).Some? ==> AllInstructions(m) == Mappings.AllInstructions(m)
    ensures Mappings.AllInstructions(m).None? ==>
              (AllInstructions(m).Some? <==> m == "lsr" || m == "asr" || m == "ror")
    ensures Mappings.AllInstructions(m).None? && AllInstructions(m).Some? ==> AllInstructions(m) == Some(4)
  {
  }

  /** The shift table is keyed by exactly the class-4 mnemonics. */
  lemma ShiftsAreClassFour(m: string)
    ensures Shifts(m).Some? <==> AllInstructions(m) == Some(4)
  {
  }

  /** Distinct shift mnemonics have distinct shift types. */
  lemma ShiftTypesDistinct(m: string, n: string)
    requires Shifts(m).Some? && Shifts(m) == Shifts(n)
    ensures m == n
  {
  }
}

=== FILE: numerals.dfy ===
/**
  The numeral readers of src/assemble.c: `getHex`, which accumulates hex
  digits in a C `int` with `res <<= 4; res |= x`, and `getDec`, which is
  `atoi` followed by the conversion to `uint32_t`.
 */
module Numerals {
  import opened Bits
  import opened Diagnostics

  const IntMax: int := 0x7FFF_FFFF
  const IntMin: int := -0x8000_0000

  predicate IsDecimalDigit(c: char) {
    '0' <= c <= '9'
  }

  predicate IsHexDigit(c: char) {
    IsDecimalDigit(c) || 'a' <= c <= 'f' || 'A' <= c <= 'F'
  }

  // ---------------------------------------------------------------- getHex

  /**
    The digit value `getHex` computes: upper- and lower-case letters count from
    10, every other character is its distance from '0', as a 32-bit two's
    complement value (so characters below '0' give negative values).
   */
  function HexDigitValue(c: char): (r: Word)
    ensures IsHexDigit(c) ==> r < 16
  {
    match c
    case '0' => 0
    case '1' => 1
    case '2' => 2
    case '3' => 3
    case '4' => 4
    case '5' => 5
    case '6' => 6
    case '7' => 7
    case '8' => 8
    case '9' => 9
    case 'a' => 10
    case 'b' => 11
    case 'c' => 12
    case 'd' => 13
    case 'e' => 14
    case 'f' => 15
    case 'A' => 10
    case 'B' => 11
    case 'C' => 12
    case 'D' => 13
    case 'E' => 14
    case 'F' => 15
    case _ => DistanceFromZero(c)
  }

  /** `c - '0'` as a 32-bit two's complement value. */
  function DistanceFromZero(c: char): Word {
    if c >= '0' then (c as int - '0' as int) as Word else (0x1_0000_0000 + c as int - '0' as int) as Word
  }

  /**
    The `getHex` loop from accumulator `acc` on. `res <<= 4` on a C `int` is
    undefined once `res` is negative or `res * 16` exceeds INT_MAX, that is
    exactly when the accumulator's bit pattern is at least 0x0800_0000.
   */
  function HexFrom(acc: Word, s: string): Outcome<Word>
    decreases |s|
  {
    if |s| == 0 then Defined(acc)
    else if acc >= 0x0800_0000 then UndefinedBehaviour
    else HexFrom((acc << 4) | HexDigitValue(s[0]), s[1..])
  }

  /** `getHex` of the characters after "0x". */
  function GetHex(s: string): Outcome<Word> {
    HexFrom(0, s)
  }

  /** The step of `getHex` for one more digit, given the value of the digits before it. */
  function HexStep(prefix: Outcome<Word>, c: char): Outcome<Word> {
    match prefix
    case UndefinedBehaviour => UndefinedBehaviour
    case Defined(acc) => if acc >= 0x0800_0000 then UndefinedBehaviour else Defined((acc << 4) | HexDigitValue(c))
  }

  /** Reading one more digit at the end is one more step of the loop. */
  lemma {:induction false} HexFromSnoc(acc: Word, s: string, c: char)
    ensures HexFrom(acc, s + [c]) == HexStep(HexFrom(acc, s), c)
    decreases |s|
  {
    if |s| == 0 {
      assert s + [c] == [c];
      assert [c][1..] == [];
    } else {
      assert (s + [c])[1..] == s[1..] + [c];
      if acc < 0x0800_0000 {
        HexFromSnoc((acc << 4) | HexDigitValue(s[0]), s[1..], c);
      }
    }
  }

  /** The lower-case hex digit for a value below 16. */
  function HexDigitChar(d: Word): (c: char)
    requires d < 16
    ensures IsHexDigit(c) && HexDigitValue(c) == d
  {
    if d == 0 then '0' else if d == 1 then '1' else if d == 2 then '2' else if d == 3 then '3'
    else if d == 4 then '4' else if d == 5 then '5' else if d == 6 then '6' else if d == 7 then '7'
    else if d == 8 then '8' else if d == 9 then '9' else if d == 10 then 'a' else if d == 11 then 'b'
    else if d == 12 then 'c' else if d == 13 then 'd' else if d == 14 then 'e' else 'f'
  }

  /** The hex digits of a word, most significant first, without leading zeros. */
  function HexString(w: Word): (r: string)
    ensures |r| >= 1 && forall i :: 0 <= i < |r| ==> IsHexDigit(r[i])
    decreases w
  {
    if w < 16 then [HexDigitChar(w)] else HexString(w >> 4) + [HexDigitChar(w & 0xF)]
  }

  /** `getHex` of one digit is its value. */
  lemma SingleHexDigit(d: Word)
    requires d < 16
    ensures HexFrom(0, [HexDigitChar(d)]) == Defined(d)
  {
    var c := HexDigitChar(d);
    assert [c][1..] == [];
    assert (0 << 4) | HexDigitValue(c) == d;
  }

  /** Splitting a word into its top 28 bits and its low digit and joining them again. */
  lemma JoinLowDigit(w: Word)
    ensures ((w >> 4) << 4) | (w & 0xF) == w
  {
  }

  /**
    `getHex` reads back the hex spelling of every word whose bit 31 is clear;
    a word with bit 31 set overflows the `int` accumulator.
   */
  lemma {:induction false} GetHexRoundTrip(w: Word)
    requires w < 0x8000_0000
    ensures GetHex(HexString(w)) == Defined(w)
    decreases w
  {
    if w >= 16 {
      GetHexRoundTrip(w >> 4);
      HexLowDigit(w, HexString(w >> 4));
    } else {
      SingleHexDigit(w);
    }
  }

  /** The spelling of the top 28 bits followed by the low digit reads as the word. */
  lemma HexLowDigit(w: Word, high: string)
    requires w < 0x8000_0000 && GetHex(high) == Defined(w >> 4)
    ensures GetHex(high + [HexDigitChar(w & 0xF)]) == Defined(w)
  {
    HexAppendDigit(high, w >> 4, w & 0xF);
    JoinLowDigit(w);
  }

  /** Appending a digit to a spelling `getHex` reads without overflow shifts its value up by one digit. */
  lemma HexAppendDigit(p: string, high: Word, d: Word)
    requires GetHex(p) == Defined(high) && high < 0x0800_0000 && d < 16
    ensures GetHex(p + [HexDigitChar(d)]) == Defined((high << 4) | d)
  {
    HexFromSnoc(0, p, HexDigitChar(d));
  }

  /** The spelling of a word with bit 31 set overflows the `int` accumulator at its last digit. */
  lemma GetHexOverflows(w: Word)
    requires w >= 0x8000_0000
    ensures GetHex(HexString(w)).UndefinedBehaviour?
  {
    assert w >> 4 < 0x8000_0000 && w >> 4 >= 0x0800_0000;
    GetHexRoundTrip(w >> 4);
    HexFromSnoc(0, HexString(w >> 4), HexDigitChar(w & 0xF));
  }

  // ---------------------------------------------------------------- getDec

  /** The characters C's `isspace` accepts, which `atoi` skips. */
  predicate IsSpace(c: char) {
    c == ' ' || c == '\t' || c == '\n' || c == '\U{000B}' || c == '\U{000C}' || c == '\r'
  }

  function SkipSpace(s: string): (r: string)
    ensures |r| <= |s| && r == s[|s| - |r|..]
    ensures |r| > 0 ==> !IsSpace(r[0])
    ensures forall i :: 0 <= i < |s| - |r| ==> IsSpace(s[i])
  {
    if |s| > 0 && IsSpace(s[0]) then SkipSpace(s[1..]) else s
  }

  /** The length of the longest prefix of decimal digits. */
  function DigitRun(s: string): (n: nat)
    ensures n <= |s|
    ensures forall i :: 0 <= i < n ==> IsDecimalDigit(s[i])
    ensures n < |s| ==> !IsDecimalDigit(s[n])
  {
    if |s| > 0 && IsDecimalDigit(s[0]) then 1 + DigitRun(s[1..]) else 0
  }

  /** The value of a string of decimal digits, most significant first. */
  function DecimalValue(s: string): nat
    requires forall i :: 0 <= i < |s| ==> IsDecimalDigit(s[i])
  {
    if |s| == 0 then 0
    else DecimalValue(s[..|s| - 1]) * 10 + DecimalDigitValue(s[|s| - 1])
  }

  function DecimalDigitValue(c: char): (d: nat)
    requires IsDecimalDigit(c)
    ensures d <= 9
  {
    c as int - '0' as int
  }

  function DecimalDigitChar(d: nat): (c: char)
    requires d <= 9
    ensures IsDecimalDigit(c) && DecimalDigitValue(c) == d
  {
    ('0' as int + d) as char
  }

  /**
    C's `atoi`: skip white space, read an optional sign and the longest run of
    digits after it. A value outside the range of `int` is undefined behaviour.
   */
  function Atoi(s: string): (r: Outcome<int>)
    ensures r.Defined? ==> IntMin <= r.value <= IntMax
  {
    var t := SkipSpace(s);
    var negative := |t| > 0 && t[0] == '-';
    var body := if |t| > 0 && (t[0] == '-' || t[0] == '+') then t[1..] else t;
    var n := DecimalValue(body[..DigitRun(body)]);
    var v: int := if negative then -(n as int) else n;
    if IntMin <= v <= IntMax then Defined(v) else UndefinedBehaviour
  }

  /** The conversion of an `int` to `uint32_t`: the same bits, read modulo 2^32. */
  function IntToWord(v: int): (r: Word)
    requires IntMin <= v <= IntMax
  {
    if v < 0 then (v + 0x1_0000_0000) as Word else v as Word
  }

  /** `getDec`: `atoi` converted to `uint32_t`. */
  function GetDec(s: string): Outcome<Word> {
    match Atoi(s)
    case UndefinedBehaviour => UndefinedBehaviour
    case Defined(v) => Defined(IntToWord(v))
  }

  /** The decimal spelling of a natural number, most significant digit first. */
  function DecimalString(n: nat): (r: string)
    ensures |r| >= 1 && forall i :: 0 <= i < |r| ==> IsDecimalDigit(r[i])
  {
    if n < 10 then [DecimalDigitChar(n)]
    else DecimalString(n / 10) + [DecimalDigitChar(n % 10)]
  }

  /** `DecimalValue` reads back the decimal spelling. */
  lemma {:induction false} DecimalValueOfString(n: nat)
    ensures DecimalValue(DecimalString(n)) == n
  {
    var s := DecimalString(n);
    if n >= 10 {
      DecimalValueOfString(n / 10);
      assert s[..|s| - 1] == DecimalString(n / 10);
    }
  }

  /** `atoi` reads back the decimal spelling of every non-negative `int`. */
  lemma AtoiRoundTrip(n: nat)
    requires n <= IntMax
    ensures Atoi(DecimalString(n)) == Defined(n)
  {
    var s := DecimalString(n);
    DecimalValueOfString(n);
    AllDigitsRun(s);
    assert !IsSpace(s[0]) && s[0] != '-' && s[0] != '+';
  }

  /** `atoi` reads back a minus sign followed by the decimal spelling of any value down to INT_MIN. */
  lemma AtoiNegativeRoundTrip(n: nat)
    requires n <= -IntMin
    ensures Atoi("-" + DecimalString(n)) == Defined(-(n as int))
  {
    var s := DecimalString(n);
    DecimalValueOfString(n);
    AllDigitsRun(s);
    var m := "-" + s;
    assert m[0] == '-' && m[1..] == s;
  }

  /** A string of digits is one digit run. */
  lemma AllDigitsRun(s: string)
    requires forall i :: 0 <= i < |s| ==> IsDecimalDigit(s[i])
    ensures DigitRun(s) == |s| && s[..DigitRun(s)] == s
  {
  }
}

=== FILE: passes.dfy ===
/**
  The two passes of the assembler (src/assemble.c) over the lines `fgets`
  returns: the first maps every label to the address of the instruction it
  precedes, the second encodes the instructions and appends the literal pool.
 */
module Passes {
  import opened Adts
  import opened Bits
  import opened Diagnostics
  import opened Immediate
  import opened Lexer
  import opened Encoders
  import Mappings

  // ------------------------------------------------------------- stream

  /** A token of the input with the 1-based number of its line. */
  datatype LineToken = LineToken(line: nat, text: string)

  /** The tokens of one line, each tagged with the line's number. */
  function Tagged(tokens: seq<string>, line: nat): (r: seq<LineToken>)
    ensures |r| == |tokens|
    ensures forall k :: 0 <= k < |r| ==> r[k] == LineToken(line, tokens[k])
  {
    seq(|tokens|, k requires 0 <= k < |tokens| => LineToken(line, tokens[k]))
  }

  /** What `tokenise` makes of `lines[k..]`, line after line, numbered from k + 1. */
  function StreamFrom(lines: seq<string>, k: nat): seq<LineToken>
    decreases |lines| - k
  {
    if k >= |lines| then [] else Tagged(Runs(lines[k]), k + 1) + StreamFrom(lines, k + 1)
  }

  function Stream(lines: seq<string>): seq<LineToken> {
    StreamFrom(lines, 0)
  }

  /** No token is empty. */
  predicate Nonempty(ts: seq<LineToken>) {
    forall k :: 0 <= k < |ts| ==> |ts[k].text| >= 1
  }

  lemma {:induction false} StreamNonempty(lines: seq<string>, k: nat)
    ensures Nonempty(StreamFrom(lines, k))
    decreases |lines| - k
  {
    if k < |lines| {
      StreamNonempty(lines, k + 1);
      RunsAreWords(lines[k]);
      var head := Tagged(Runs(lines[k]), k + 1);
      var tail := StreamFrom(lines, k + 1);
      assert forall j :: |head| <= j < |head| + |tail| ==> (head + tail)[j] == tail[j - |head|];
    }
  }

  // --------------------------------------------------------- first pass

  /** The name a label token defines: the token without its ':'. Other tokens stay as they are. */
  function Stripped(t: string): string
    requires |t| >= 1
  {
    if IsLabel(t) then t[..|t| - 1] else t
  }

  /**
    What the first pass keeps between tokens: the labels bound so far, the
    labels waiting for the next instruction, the error vector, the memory
    location (which is also the instruction count) and the `ldr` count.
   */
  datatype Scan = Scan(labels: AssocMap<Word>, pending: seq<string>, errors: seq<Error>, count: nat, ldrCount: nat)

  /** The loop that drains the pending labels with `getFront` and `put`s each at `location`. */
  function BindAll(labels: AssocMap<Word>, pending: seq<string>, location: Word): AssocMap<Word>
    decreases |pending|
  {
    if |pending| == 0 then labels else BindAll(Put(labels, pending[0], location), pending[1..], location)
  }

  /** The label part of one token: queue a new label, or report one already bound or queued. */
  function QueueLabel(s: Scan, t: LineToken): Scan
    requires |t.text| >= 1
  {
    var name := Stripped(t.text);
    if !IsLabel(t.text) then s
    else if Get(s.labels, name).Some? || Contains(s.pending, name) then
      s.(errors := s.errors + [Error(t.line, MultipleDefinitions, name)])
    else s.(pending := PutBack(s.pending, name))
  }

  /** The instruction part: bind the queued labels to the current location and advance both counters. */
  function Advance(s: Scan, name: string): Scan
  {
    Scan(BindAll(s.labels, s.pending, Wrap(s.count)), [], s.errors, s.count + 1,
         if name == "ldr" then s.ldrCount + 1 else s.ldrCount)
  }

  /**
    One iteration of the token loop of `firstPass`: a label has its ':'
    overwritten and is queued or reported; then, if what is left of the
    token is a mnemonic, the queued labels are bound and the counters
    advance. A token ":" leaves an empty string that `getType` reads before.
   */
  function ScanToken(s: Scan, t: LineToken): (r: Outcome<Scan>)
    requires |t.text| >= 1
    ensures r.UndefinedBehaviour? <==> |Stripped(t.text)| == 0
  {
    var name := Stripped(t.text);
    if |name| == 0 then UndefinedBehaviour
    else if GetType(Some(name)) != Instruction then Defined(QueueLabel(s, t))
    else Defined(Advance(QueueLabel(s, t), name))
  }

  /** The token loops of `firstPass` from token `i` of the stream on. */
  function ScanFrom(s: Scan, ts: seq<LineToken>, i: nat): Outcome<Scan>
    requires Nonempty(ts) && i <= |ts|
    decreases |ts| - i
  {
    if i == |ts| then Defined(s)
    else match ScanToken(s, ts[i])
      case UndefinedBehaviour => UndefinedBehaviour
      case Defined(s') => ScanFrom(s', ts, i + 1)
  }

  /** What `firstPass` leaves behind: the label map, the errors, the instruction and `ldr` counts, and the line count it returns. */
  datatype Labelling = Labelling(labels: AssocMap<Word>, errors: seq<Error>, count: nat, ldrCount: nat, lineCount: nat)

  /** `firstPass`: scan every token, then bind the labels still queued to the location after the last instruction. */
  function FirstPass(lines: seq<string>): Outcome<Labelling>
  {
    StreamNonempty(lines, 0);
    match ScanFrom(Scan([], [], [], 0, 0), Stream(lines), 0)
    case UndefinedBehaviour => UndefinedBehaviour
    case Defined(s) =>
      Defined(Labelling(BindAll(s.labels, s.pending, Wrap(s.count)), s.errors, s.count, s.ldrCount, |lines|))
  }

  // --------------------------------------------- what the first pass computes

  /** The token counts as an instruction: what is left of it after a label's ':' is removed is a mnemonic. */
  predicate Counted(t: LineToken) {
    |t.text| >= 1 && |Stripped(t.text)| >= 1 && GetType(Some(Stripped(t.text))) == Instruction
  }

  /** The token counts as an `ldr` instruction. */
  predicate CountedLdr(t: LineToken) {
    Counted(t) && Stripped(t.text) == "ldr"
  }

  /** The number of tokens before position n that satisfy p. */
  function CountBefore(ts: seq<LineToken>, n: nat, p: LineToken -> bool): nat
    requires n <= |ts|
  {
    if n == 0 then 0 else CountBefore(ts, n - 1, p) + (if p(ts[n - 1]) then 1 else 0)
  }

  /** The number of tokens from position i on that satisfy p. */
  function CountFrom(ts: seq<LineToken>, i: nat, p: LineToken -> bool): nat
    requires i <= |ts|
    decreases |ts| - i
  {
    if i == |ts| then 0 else (if p(ts[i]) then 1 else 0) + CountFrom(ts, i + 1, p)
  }

  /** The number of tokens before position n that count as instructions. */
  function InstructionsBefore(ts: seq<LineToken>, n: nat): nat
    requires n <= |ts|
  {
    CountBefore(ts, n, Counted)
  }

  /** The number of tokens before position n that count as `ldr` instructions. */
  function LdrsBefore(ts: seq<LineToken>, n: nat): nat
    requires n <= |ts|
  {
    CountBefore(ts, n, CountedLdr)
  }

  /** Token t is a label token defining `name`. */
  predicate Defines(t: LineToken, name: string)
    requires |t.text| >= 1
  {
    IsLabel(t.text) && Stripped(t.text) == name
  }

  /**
    The label map as a definition: the first definition of each label, in
    the order of the definitions, bound to the number of instructions before it.
   */
  function DefinitionsBefore(ts: seq<LineToken>, n: nat): AssocMap<Word>
    requires Nonempty(ts) && n <= |ts|
  {
    if n == 0 then []
    else
      var defs := DefinitionsBefore(ts, n - 1);
      var t := ts[n - 1];
      if IsLabel(t.text) && !HasKey(defs, Stripped(t.text)) then
        defs + [Entry(Stripped(t.text), Wrap(InstructionsBefore(ts, n - 1)))]
      else defs
  }

  /** The multiple-definition errors as a definition: one for every label token after the first that defines its name. */
  function RedefinitionsBefore(ts: seq<LineToken>, n: nat): seq<Error>
    requires Nonempty(ts) && n <= |ts|
  {
    if n == 0 then []
    else
      var t := ts[n - 1];
      RedefinitionsBefore(ts, n - 1)
      + if IsLabel(t.text) && HasKey(DefinitionsBefore(ts, n - 1), Stripped(t.text)) then
          [Error(t.line, MultipleDefinitions, Stripped(t.text))]
        else []
  }

  /** No token from position i on is a lone ':'. */
  predicate NoBareColonFrom(ts: seq<LineToken>, i: nat)
    requires Nonempty(ts) && i <= |ts|
    decreases |ts| - i
  {
    i == |ts| || (|Stripped(ts[i].text)| >= 1 && NoBareColonFrom(ts, i + 1))
  }

  /** No token is a lone ':'. */
  predicate NoBareColon(ts: seq<LineToken>)
    requires Nonempty(ts)
  {
    NoBareColonFrom(ts, 0)
  }

  // ------------------------------------------------------------- proofs

  /** The queued labels, each bound to `location`. */
  function Bound(pending: seq<string>, location: Word): (r: AssocMap<Word>)
    ensures |r| == |pending|
    ensures forall k :: 0 <= k < |r| ==> r[k] == Entry(pending[k], location)
  {
    seq(|pending|, k requires 0 <= k < |pending| => Entry(pending[k], location))
  }

  lemma HasKeyOfBound(labels: AssocMap<Word>, pending: seq<string>, location: Word, name: string)
    ensures HasKey(labels + Bound(pending, location), name) <==> HasKey(labels, name) || name in pending
  {
    var m := labels + Bound(pending, location);
    if name in pending {
      var k :| 0 <= k < |pending| && pending[k] == name;
      assert m[|labels| + k].key == name;
    }
    if HasKey(labels, name) {
      var k :| 0 <= k < |labels| && labels[k].key == name;
      assert m[k].key == name;
    }
  }

  /** The first queued label is new to the map, so `put` appends it. */
  lemma BindFirst(labels: AssocMap<Word>, pending: seq<string>, location: Word)
    requires |pending| > 0 && UniqueKeys(labels + Bound(pending, location))
    ensures Put(labels, pending[0], location) + Bound(pending[1..], location) == labels + Bound(pending, location)
  {
    var m := labels + Bound(pending, location);
    assert !HasKey(labels, pending[0]) by {
      assert m[|labels|].key == pending[0];
      forall k | 0 <= k < |labels| ensures labels[k].key != pending[0] {
        assert m[k] == labels[k];
      }
    }
    assert Put(labels, pending[0], location) == labels + [Entry(pending[0], location)];
  }

  /** Draining the queue appends its labels in order when no key repeats. */
  lemma {:induction false} BindAllAppends(labels: AssocMap<Word>, pending: seq<string>, location: Word)
    requires UniqueKeys(labels + Bound(pending, location))
    ensures BindAll(labels, pending, location) == labels + Bound(pending, location)
    decreases |pending|
  {
    if |pending| > 0 {
      BindFirst(labels, pending, location);
      BindAllAppends(Put(labels, pending[0], location), pending[1..], location);
    }
  }

  /** Appending a new key keeps the keys unique. */
  lemma AppendNewKey(m: AssocMap<Word>, e: Entry<Word>)
    requires UniqueKeys(m) && !HasKey(m, e.key)
    ensures UniqueKeys(m + [e])
  {
    var r := m + [e];
    forall i, j | 0 <= i < j < |r| ensures r[i].key != r[j].key {
      if j == |m| {
        assert r[i] == m[i];
      } else {
        assert r[i] == m[i] && r[j] == m[j];
      }
    }
  }

  lemma {:induction false} DefinitionsUnique(ts: seq<LineToken>, n: nat)
    requires Nonempty(ts) && n <= |ts|
    ensures UniqueKeys(DefinitionsBefore(ts, n))
  {
    if n > 0 {
      DefinitionsUnique(ts, n - 1);
      var defs := DefinitionsBefore(ts, n - 1);
      var t := ts[n - 1];
      if IsLabel(t.text) && !HasKey(defs, Stripped(t.text)) {
        AppendNewKey(defs, Entry(Stripped(t.text), Wrap(InstructionsBefore(ts, n - 1))));
      }
    }
  }

  /** The scan state after the first n tokens agrees with the definitions. */
  predicate Agrees(s: Scan, ts: seq<LineToken>, n: nat)
    requires Nonempty(ts) && n <= |ts|
  {
    s.labels + Bound(s.pending, Wrap(s.count)) == DefinitionsBefore(ts, n)
    && s.count == InstructionsBefore(ts, n) && s.ldrCount == LdrsBefore(ts, n)
    && s.errors == RedefinitionsBefore(ts, n)
  }

  /** The label part of one token keeps the label map in agreement with the definitions. */
  lemma {:induction false} QueueStep(s: Scan, ts: seq<LineToken>, n: nat)
    requires Nonempty(ts) && n < |ts| && Agrees(s, ts, n)
    ensures var s1 := QueueLabel(s, ts[n]);
            s1.labels + Bound(s1.pending, Wrap(s1.count)) == DefinitionsBefore(ts, n + 1)
            && s1.count == s.count && s1.ldrCount == s.ldrCount && s1.errors == RedefinitionsBefore(ts, n + 1)
  {
    var t := ts[n];
    var name := Stripped(t.text);
    var loc := Wrap(s.count);
    HasKeyOfBound(s.labels, s.pending, loc, name);
    if IsLabel(t.text) && !(Get(s.labels, name).Some? || Contains(s.pending, name)) {
      assert Bound(s.pending + [name], loc) == Bound(s.pending, loc) + [Entry(name, loc)];
    }
  }

  /** The instruction part binds the queue in order when the keys stay unique. */
  lemma AdvanceStep(s1: Scan, name: string, defs: AssocMap<Word>)
    requires s1.labels + Bound(s1.pending, Wrap(s1.count)) == defs && UniqueKeys(defs)
    ensures var s2 := Advance(s1, name);
            s2.labels + Bound(s2.pending, Wrap(s2.count)) == defs
            && s2.count == s1.count + 1 && s2.errors == s1.errors
            && s2.ldrCount == if name == "ldr" then s1.ldrCount + 1 else s1.ldrCount
  {
    BindAllAppends(s1.labels, s1.pending, Wrap(s1.count));
    assert Bound([], Wrap(s1.count + 1)) == [];
  }

  /** The counters after a token that counts as an instruction, and after one that does not. */
  lemma CountersStep(ts: seq<LineToken>, n: nat)
    requires Nonempty(ts) && n < |ts| && |Stripped(ts[n].text)| >= 1
    ensures var name := Stripped(ts[n].text);
            var counted := GetType(Some(name)) == Instruction;
            InstructionsBefore(ts, n + 1) == InstructionsBefore(ts, n) + (if counted then 1 else 0)
            && LdrsBefore(ts, n + 1) == LdrsBefore(ts, n) + (if counted && name == "ldr" then 1 else 0)
  {
  }

  /** A token that is no mnemonic keeps the scan state in agreement with the definitions. */
  lemma ScanLabelAgrees(s: Scan, ts: seq<LineToken>, n: nat)
    requires Nonempty(ts) && n < |ts| && Agrees(s, ts, n) && |Stripped(ts[n].text)| >= 1
    requires GetType(Some(Stripped(ts[n].text))) != Instruction
    ensures Agrees(QueueLabel(s, ts[n]), ts, n + 1)
  {
    QueueStep(s, ts, n);
    CountersStep(ts, n);
  }

  /** A mnemonic token keeps the scan state in agreement with the definitions. */
  lemma ScanMnemonicAgrees(s: Scan, ts: seq<LineToken>, n: nat)
    requires Nonempty(ts) && n < |ts| && Agrees(s, ts, n) && |Stripped(ts[n].text)| >= 1
    requires GetType(Some(Stripped(ts[n].text))) == Instruction
    ensures Agrees(Advance(QueueLabel(s, ts[n]), Stripped(ts[n].text)), ts, n + 1)
  {
    QueueStep(s, ts, n);
    CountersStep(ts, n);
    DefinitionsUnique(ts, n + 1);
    AdvanceStep(QueueLabel(s, ts[n]), Stripped(ts[n].text), DefinitionsBefore(ts, n + 1));
  }

  /** One token of the first pass keeps the scan state in agreement with the definitions. */
  lemma ScanTokenAgrees(s: Scan, ts: seq<LineToken>, n: nat)
    requires Nonempty(ts) && n < |ts| && Agrees(s, ts, n) && |Stripped(ts[n].text)| >= 1
    ensures ScanToken(s, ts[n]).Defined? && Agrees(ScanToken(s, ts[n]).value, ts, n + 1)
  {
    if GetType(Some(Stripped(ts[n].text))) == Instruction {
      ScanMnemonicAgrees(s, ts, n);
    } else {
      ScanLabelAgrees(s, ts, n);
    }
  }

  /** The rest of the first pass from token i on, when the state agrees with the definitions so far. */
  lemma {:induction false} ScanFromAgrees(s: Scan, ts: seq<LineToken>, i: nat)
    requires Nonempty(ts) && i <= |ts| && Agrees(s, ts, i)
    ensures ScanFrom(s, ts, i).Defined? <==> NoBareColonFrom(ts, i)
    ensures ScanFrom(s, ts, i).Defined? ==> Agrees(ScanFrom(s, ts, i).value, ts, |ts|)
    decreases |ts| - i
  {
    if i < |ts| {
      if |Stripped(ts[i].text)| >= 1 {
        ScanTokenAgrees(s, ts, i);
        var s' := ScanToken(s, ts[i]).value;
        assert ScanFrom(s, ts, i) == ScanFrom(s', ts, i + 1);
        ScanFromAgrees(s', ts, i + 1);
      } else {
        assert ScanFrom(s, ts, i).UndefinedBehaviour?;
      }
    }
  }

  /**
    The first pass is defined exactly when no token is a lone ':'. It then
    binds every label, in the order of first definition, to the number of
    instructions before that definition; reports every later definition of a
    name at its line; and counts the instructions and the `ldr`s.
   */
  lemma FirstPassComputesDefinitions(lines: seq<string>)
    ensures Nonempty(Stream(lines))
    ensures FirstPass(lines).Defined? <==> NoBareColon(Stream(lines))
    ensures var ts := Stream(lines);
            FirstPass(lines).Defined? ==>
              FirstPass(lines).value.labels == DefinitionsBefore(ts, |ts|)
              && FirstPass(lines).value.errors == RedefinitionsBefore(ts, |ts|)
              && FirstPass(lines).value.count == InstructionsBefore(ts, |ts|)
              && FirstPass(lines).value.ldrCount == LdrsBefore(ts, |ts|)
  {
    var ts := Stream(lines);
    StreamNonempty(lines, 0);
    var s0 := Scan([], [], [], 0, 0);
    assert Bound([], Wrap(0)) == [];
    ScanFromAgrees(s0, ts, 0);
    if ScanFrom(s0, ts, 0).Defined? {
      var s := ScanFrom(s0, ts, 0).value;
      DefinitionsUnique(ts, |ts|);
      BindAllAppends(s.labels, s.pending, Wrap(s.count));
    }
  }

  /** Some label token before position n defines `name`. */
  predicate DefinedBefore(ts: seq<LineToken>, n: nat, name: string)
    requires Nonempty(ts) && n <= |ts|
  {
    n > 0 && (Defines(ts[n - 1], name) || DefinedBefore(ts, n - 1, name))
  }

  lemma HasKeyOfAppend(m: AssocMap<Word>, e: Entry<Word>, name: string)
    ensures HasKey(m + [e], name) <==> HasKey(m, name) || e.key == name
  {
    if HasKey(m, name) {
      var k :| 0 <= k < |m| && m[k].key == name;
      assert (m + [e])[k] == m[k];
    }
    assert forall k :: 0 <= k < |m| ==> (m + [e])[k] == m[k];
    assert (m + [e])[|m|] == e;
  }

  lemma {:induction false} KeysAreDefinitions(ts: seq<LineToken>, n: nat, name: string)
    requires Nonempty(ts) && n <= |ts|
    ensures HasKey(DefinitionsBefore(ts, n), name) <==> DefinedBefore(ts, n, name)
  {
    if n > 0 {
      KeysAreDefinitions(ts, n - 1, name);
      var defs := DefinitionsBefore(ts, n - 1);
      var t := ts[n - 1];
      if IsLabel(t.text) && !HasKey(defs, Stripped(t.text)) {
        HasKeyOfAppend(defs, Entry(Stripped(t.text), Wrap(InstructionsBefore(ts, n - 1))), name);
      }
    }
  }

  lemma {:induction false} DefinedBeforeSome(ts: seq<LineToken>, n: nat, name: string)
    requires Nonempty(ts) && n <= |ts|
    ensures DefinedBefore(ts, n, name) <==> exists p :: 0 <= p < n && Defines(ts[p], name)
  {
    if n > 0 {
      DefinedBeforeSome(ts, n - 1, name);
    }
  }

  /** A name is bound in the label map exactly when some label token defines it. */
  lemma DefinedIffDefines(ts: seq<LineToken>, n: nat, name: string)
    requires Nonempty(ts) && n <= |ts|
    ensures HasKey(DefinitionsBefore(ts, n), name) <==> exists p :: 0 <= p < n && Defines(ts[p], name)
  {
    KeysAreDefinitions(ts, n, name);
    DefinedBeforeSome(ts, n, name);
  }

  /** The first definition of a name binds it to the number of instructions before it. */
  lemma AtFirstDefinition(ts: seq<LineToken>, p: nat, name: string)
    requires Nonempty(ts) && p < |ts| && Defines(ts[p], name) && !HasKey(DefinitionsBefore(ts, p), name)
    ensures Get(DefinitionsBefore(ts, p + 1), name) == Some(Wrap(InstructionsBefore(ts, p)))
  {
    var defs := DefinitionsBefore(ts, p);
    var e := Entry(name, Wrap(InstructionsBefore(ts, p)));
    assert DefinitionsBefore(ts, p + 1) == defs + [e];
    FirstMatchUnique(defs + [e], name, |defs|);
  }

  /** Before its first definition a name is unbound. */
  lemma NotYetDefined(ts: seq<LineToken>, p: nat, name: string)
    requires Nonempty(ts) && p <= |ts|
    requires forall q :: 0 <= q < p ==> !Defines(ts[q], name)
    ensures !HasKey(DefinitionsBefore(ts, p), name)
  {
    DefinedIffDefines(ts, p, name);
  }

  /** A token after the first definition of a name leaves its binding alone. */
  lemma BoundStaysBound(ts: seq<LineToken>, n: nat, name: string)
    requires Nonempty(ts) && 0 < n <= |ts| && Get(DefinitionsBefore(ts, n - 1), name).Some?
    ensures Get(DefinitionsBefore(ts, n), name) == Get(DefinitionsBefore(ts, n - 1), name)
  {
    var defs := DefinitionsBefore(ts, n - 1);
    var t := ts[n - 1];
    if IsLabel(t.text) && !HasKey(defs, Stripped(t.text)) {
      GetAfterAppend(defs, Entry(Stripped(t.text), Wrap(InstructionsBefore(ts, n - 1))), name);
    }
  }

  /** Once bound, a name keeps the binding its first definition gave it. */
  lemma {:induction false} BindingStays(ts: seq<LineToken>, n: nat, name: string, p: nat)
    requires Nonempty(ts) && p < n <= |ts| && Get(DefinitionsBefore(ts, p + 1), name).Some?
    ensures Get(DefinitionsBefore(ts, n), name) == Get(DefinitionsBefore(ts, p + 1), name)
    decreases n - p
  {
    if p + 1 < n {
      BoundStaysBound(ts, p + 2, name);
      BindingStays(ts, n, name, p + 1);
    }
  }

  /**
    `get` on the label map: a name that some label token defines is bound
    to the number of instructions before its first definition.
   */
  lemma FirstDefinitionGet(ts: seq<LineToken>, n: nat, name: string, p: nat)
    requires Nonempty(ts) && p < n <= |ts| && Defines(ts[p], name)
    requires forall q :: 0 <= q < p ==> !Defines(ts[q], name)
    ensures Get(DefinitionsBefore(ts, n), name) == Some(Wrap(InstructionsBefore(ts, p)))
  {
    NotYetDefined(ts, p, name);
    AtFirstDefinition(ts, p, name);
    BindingStays(ts, n, name, p);
  }

  // -------------------------------------------------------- second pass

  /** The instruction words so far, the error vector and the literal pool. */
  datatype Assembly = Assembly(words: seq<Word>, errors: seq<Error>, pool: seq<string>)

  /** `getType` calls the token a mnemonic. */
  predicate Mnemonic(token: string) {
    |token| >= 1 && GetType(Some(token)) == Instruction
  }

  predicate IsLdr(token: string) {
    token == "ldr"
  }

  /** The tokens of a line from position i on that satisfy p. */
  function TokensFrom(tokens: seq<string>, i: nat, p: string -> bool): nat
    requires i <= |tokens|
    decreases |tokens| - i
  {
    if i == |tokens| then 0 else (if p(tokens[i]) then 1 else 0) + TokensFrom(tokens, i + 1, p)
  }

  /** The mnemonic tokens of a line from position i on. */
  function MnemonicsFrom(tokens: seq<string>, i: nat): nat
    requires i <= |tokens|
  {
    TokensFrom(tokens, i, Mnemonic)
  }

  /** The `ldr` tokens of a line from position i on. */
  function LdrMnemonicsFrom(tokens: seq<string>, i: nat): nat
    requires i <= |tokens|
  {
    TokensFrom(tokens, i, IsLdr)
  }

  lemma {:induction false} TokensMonotone(tokens: seq<string>, i: nat, j: nat, p: string -> bool)
    requires i <= j <= |tokens|
    ensures TokensFrom(tokens, j, p) <= TokensFrom(tokens, i, p)
    decreases j - i
  {
    if i < j {
      TokensMonotone(tokens, i + 1, j, p);
    }
  }

  /** An assembly state and the position of the next token of the line. */
  datatype Advanced = Advanced(a: Assembly, next: nat)

  /**
    One call of `decode` on the mnemonic at position i, at the current
    program counter: one word more, the operands taken off the line, errors
    only appended, and the pool grown by at most one literal, for an `ldr`.
   */
  function DecodeAt(tokens: seq<string>, i: nat, line: nat, a: Assembly, total: Word, labels: AssocMap<Word>)
    : (r: Outcome<Advanced>)
    requires Words(tokens) && i < |tokens| && IsInstruction(tokens[i]) && PoolReadable(a.pool)
    ensures r.Defined? ==> i < r.value.next <= |tokens| && PoolReadable(r.value.a.pool)
    ensures r.Defined? ==> |r.value.a.words| == |a.words| + 1 && a.words <= r.value.a.words
    ensures r.Defined? ==> a.errors <= r.value.a.errors && a.pool <= r.value.a.pool
    ensures r.Defined? ==> |r.value.a.pool| <= |a.pool| + (if tokens[i] == "ldr" then 1 else 0)
  {
    WordsFrom(tokens, i);
    var rest := tokens[i..];
    assert rest[0] == tokens[i];
    match Decode(rest, Wrap(|a.words|), total, labels, line, a.errors, a.pool)
    case UndefinedBehaviour => UndefinedBehaviour
    case Defined(step) =>
      Defined(Advanced(Assembly(a.words + [step.word], step.errors, step.pool), i + step.consumed))
  }

  /**
    The inner loop of `secondPass` from token i of a line: a mnemonic is
    decoded, a label is dropped, anything else is reported as undefined and
    dropped. Each decoded instruction and each literal the pool gains comes
    from a distinct mnemonic token of the line.
   */
  function DecodeLine(tokens: seq<string>, i: nat, line: nat, a: Assembly, total: Word, labels: AssocMap<Word>)
    : (r: Outcome<Assembly>)
    requires Words(tokens) && i <= |tokens| && PoolReadable(a.pool)
    ensures r.Defined? ==> PoolReadable(r.value.pool)
    ensures r.Defined? ==> a.words <= r.value.words && a.errors <= r.value.errors && a.pool <= r.value.pool
    ensures r.Defined? ==> |r.value.words| <= |a.words| + MnemonicsFrom(tokens, i)
    ensures r.Defined? ==> |r.value.pool| <= |a.pool| + LdrMnemonicsFrom(tokens, i)
    decreases |tokens| - i
  {
    if i == |tokens| then Defined(a)
    else
      var kind := GetType(Some(tokens[i]));
      if kind == Instruction then
        match DecodeAt(tokens, i, line, a, total, labels)
        case UndefinedBehaviour => UndefinedBehaviour
        case Defined(step) =>
          TokensMonotone(tokens, i + 1, step.next, Mnemonic);
          TokensMonotone(tokens, i + 1, step.next, IsLdr);
          DecodeLine(tokens, step.next, line, step.a, total, labels)
      else if kind == Label then DecodeLine(tokens, i + 1, line, a, total, labels)
      else DecodeLine(tokens, i + 1, line, a.(errors := a.errors + [Error(line, UndefinedInstruction, tokens[i])]),
                      total, labels)
  }

  /** A token that is neither a mnemonic nor a label is reported as an undefined instruction and skipped. */
  lemma DecodeLineUndefined(tokens: seq<string>, i: nat, line: nat, a: Assembly, total: Word, labels: AssocMap<Word>)
    requires Words(tokens) && i < |tokens| && PoolReadable(a.pool)
    requires GetType(Some(tokens[i])) !in {Instruction, Label}
    ensures DecodeLine(tokens, i, line, a, total, labels)
            == DecodeLine(tokens, i + 1, line, a.(errors := a.errors + [Error(line, UndefinedInstruction, tokens[i])]),
                          total, labels)
  {
  }

  /** A label is skipped without a word or an error. */
  lemma DecodeLineLabel(tokens: seq<string>, i: nat, line: nat, a: Assembly, total: Word, labels: AssocMap<Word>)
    requires Words(tokens) && i < |tokens| && PoolReadable(a.pool)
    requires GetType(Some(tokens[i])) == Label
    ensures DecodeLine(tokens, i, line, a, total, labels) == DecodeLine(tokens, i + 1, line, a, total, labels)
  {
  }

  /** The mnemonic tokens of `lines[k..]`. */
  function LinesMnemonics(lines: seq<string>, k: nat): nat
    decreases |lines| - k
  {
    if k >= |lines| then 0
    else
      RunsAreWords(lines[k]);
      MnemonicsFrom(Runs(lines[k]), 0) + LinesMnemonics(lines, k + 1)
  }

  /** The `ldr` tokens of `lines[k..]`. */
  function LinesLdrs(lines: seq<string>, k: nat): nat
    decreases |lines| - k
  {
    if k >= |lines| then 0
    else
      RunsAreWords(lines[k]);
      LdrMnemonicsFrom(Runs(lines[k]), 0) + LinesLdrs(lines, k + 1)
  }

  /** The outer loop of `secondPass` from line k on, numbering lines from k + 1. */
  function DecodeLines(lines: seq<string>, k: nat, a: Assembly, total: Word, labels: AssocMap<Word>)
    : (r: Outcome<Assembly>)
    requires PoolReadable(a.pool)
    ensures r.Defined? ==> PoolReadable(r.value.pool)
    ensures r.Defined? ==> a.words <= r.value.words && a.errors <= r.value.errors && a.pool <= r.value.pool
    ensures r.Defined? ==> |r.value.words| <= |a.words| + LinesMnemonics(lines, k)
    ensures r.Defined? ==> |r.value.pool| <= |a.pool| + LinesLdrs(lines, k)
    decreases |lines| - k
  {
    if k >= |lines| then Defined(a)
    else
      RunsAreWords(lines[k]);
      match DecodeLine(Runs(lines[k]), 0, k + 1, a, total, labels)
      case UndefinedBehaviour => UndefinedBehaviour
      case Defined(a') => DecodeLines(lines, k + 1, a', total, labels)
  }

  /** What `getExpression` reads from each literal of the pool, in order. */
  function PoolWords(pool: seq<string>): (r: seq<Word>)
    requires PoolReadable(pool)
    ensures |r| == |pool|
    ensures forall k :: 0 <= k < |r| ==> r[k] == GetExpression(pool[k]).value.word
  {
    seq(|pool|, k requires 0 <= k < |pool| => GetExpression(pool[k]).value.word)
  }

  /** The words `secondPass` leaves in `instructions`: the decoded instructions, then the literal pool. */
  datatype Program = Program(code: seq<Word>, literals: seq<Word>, errors: seq<Error>)

  /**
    `secondPass`, after `firstPass` left `total` instructions, the label map
    and the error vector: decode every line, then put each pooled literal
    after the code, in the order the `ldr`s met them.
   */
  function SecondPass(lines: seq<string>, total: Word, labels: AssocMap<Word>, errors: seq<Error>)
    : (r: Outcome<Program>)
    ensures r.Defined? ==> errors <= r.value.errors
    ensures r.Defined? ==> |r.value.code| <= LinesMnemonics(lines, 0) && |r.value.literals| <= LinesLdrs(lines, 0)
  {
    match DecodeLines(lines, 0, Assembly([], errors, []), total, labels)
    case UndefinedBehaviour => UndefinedBehaviour
    case Defined(a) => Defined(Program(a.words, PoolWords(a.pool), a.errors))
  }

  // ------------------------------------------------- the instruction array

  lemma {:induction false} BeforeAndFrom(ts: seq<LineToken>, n: nat, p: LineToken -> bool)
    requires n <= |ts|
    ensures CountBefore(ts, n, p) + CountFrom(ts, n, p) == CountFrom(ts, 0, p)
  {
    if n > 0 {
      BeforeAndFrom(ts, n - 1, p);
    }
  }

  lemma {:induction false} CountsOfConcat(a: seq<LineToken>, b: seq<LineToken>, i: nat, p: LineToken -> bool)
    requires i <= |a|
    ensures CountFrom(a + b, i, p) == CountFrom(a, i, p) + CountFrom(b, 0, p)
    decreases |a| - i
  {
    if i < |a| {
      CountsOfConcat(a, b, i + 1, p);
      assert (a + b)[i] == a[i];
    } else {
      SameCountsShifted(a + b, b, |a|, 0, p);
    }
  }

  /** Counting from position d + j of a sequence whose tail from d is another sequence. */
  lemma {:induction false} SameCountsShifted(c: seq<LineToken>, b: seq<LineToken>, d: nat, j: nat, p: LineToken -> bool)
    requires d + |b| == |c| && j <= |b|
    requires forall k :: 0 <= k < |b| ==> c[d + k] == b[k]
    ensures CountFrom(c, d + j, p) == CountFrom(b, j, p)
    decreases |b| - j
  {
    if j < |b| {
      SameCountsShifted(c, b, d, j + 1, p);
      assert c[d + j] == b[j];
    }
  }

  /** A token `getType` calls a mnemonic counts as an instruction; an `ldr` token counts as an `ldr`. */
  lemma MnemonicCounted(t: LineToken)
    requires |t.text| >= 1
    ensures GetType(Some(t.text)) == Instruction ==> Counted(t)
    ensures t.text == "ldr" ==> CountedLdr(t)
  {
    if t.text == "ldr" {
      assert Mappings.AllInstructions("ldr") == Some(2);
      assert ExpressionKind("ldr") == Undefined;
    }
  }

  lemma LineCounted(tokens: seq<string>, line: nat)
    requires Words(tokens)
    ensures MnemonicsFrom(tokens, 0) <= CountFrom(Tagged(tokens, line), 0, Counted)
    ensures LdrMnemonicsFrom(tokens, 0) <= CountFrom(Tagged(tokens, line), 0, CountedLdr)
  {
    LineMnemonicsCounted(tokens, line, 0);
    LineLdrsCounted(tokens, line, 0);
  }

  lemma {:induction false} LineMnemonicsCounted(tokens: seq<string>, line: nat, i: nat)
    requires Words(tokens) && i <= |tokens|
    ensures MnemonicsFrom(tokens, i) <= CountFrom(Tagged(tokens, line), i, Counted)
    decreases |tokens| - i
  {
    if i < |tokens| {
      LineMnemonicsCounted(tokens, line, i + 1);
      assert Tagged(tokens, line)[i] == LineToken(line, tokens[i]);
      MnemonicCounted(LineToken(line, tokens[i]));
    }
  }

  lemma {:induction false} LineLdrsCounted(tokens: seq<string>, line: nat, i: nat)
    requires Words(tokens) && i <= |tokens|
    ensures LdrMnemonicsFrom(tokens, i) <= CountFrom(Tagged(tokens, line), i, CountedLdr)
    decreases |tokens| - i
  {
    if i < |tokens| {
      LineLdrsCounted(tokens, line, i + 1);
      assert Tagged(tokens, line)[i] == LineToken(line, tokens[i]);
      MnemonicCounted(LineToken(line, tokens[i]));
    }
  }

  /** Pass 2 meets no more mnemonics, and no more `ldr`s, than pass 1 counts from line k on. */
  lemma {:induction false} LinesCounted(lines: seq<string>, k: nat)
    ensures LinesMnemonics(lines, k) <= CountFrom(StreamFrom(lines, k), 0, Counted)
    ensures LinesLdrs(lines, k) <= CountFrom(StreamFrom(lines, k), 0, CountedLdr)
    decreases |lines| - k
  {
    if k < |lines| {
      RunsAreWords(lines[k]);
      var tokens := Runs(lines[k]);
      LineCounted(tokens, k + 1);
      LinesCounted(lines, k + 1);
      CountsOfConcat(Tagged(tokens, k + 1), StreamFrom(lines, k + 1), 0, Counted);
      CountsOfConcat(Tagged(tokens, k + 1), StreamFrom(lines, k + 1), 0, CountedLdr);
    }
  }

  /**
    A branch to a label assembles, in the second pass, to the offset of the
    instruction the label's first definition precedes: the emulator, sign
    extending the 24-bit field, gets the distance from this instruction plus
    the pipeline's 2 whenever 24 bits can hold it.
   */
  lemma BranchReachesFirstDefinition(lines: seq<string>, p: nat, name: string, b: string, rest: seq<string>,
                                     index: Word, line: nat, errors: seq<Error>, pool: seq<string>)
    requires FirstPass(lines).Defined? && Nonempty(Stream(lines))
    requires p < |Stream(lines)| && Defines(Stream(lines)[p], name)
    requires forall q :: 0 <= q < p ==> !Defines(Stream(lines)[q], name)
    requires Mappings.AllInstructions(b) == Some(3) && |name| >= 1 && GetType(Some(name)) != Instruction && Words(rest)
    ensures Words([b, name] + rest)
    ensures var target := Wrap(InstructionsBefore(Stream(lines), p));
            var r := Branch([b, name] + rest, index, FirstPass(lines).value.labels, line, errors, pool);
            r.Defined? && r.value.errors == errors && GetOffset(r.value.word) == BranchOffset(target, index)
            && Lands(GetOffset(r.value.word), target, index)
  {
    var ts := Stream(lines);
    var target := Wrap(InstructionsBefore(ts, p));
    FirstPassComputesDefinitions(lines);
    FirstDefinitionGet(ts, |ts|, name, p);
    BranchRoundTrip(b, name, rest, index, FirstPass(lines).value.labels, target, line, errors, pool);
    BranchOffsetLands(target, index);
  }

  /** What `main` does after both passes: write the words out, or report the errors and fail. */
  datatype Assembled = Binary(words: seq<Word>) | Rejected(errors: seq<Error>)

  /**
    `main`: the first pass, an instruction array of `instructionsNumber +
    ldrCount` words, the second pass into it (writing past its end is
    undefined behaviour), then either the error messages or the words. The
    array is a variable-length array, and one of length 0 (a file with no
    instruction) is undefined behaviour by section 6.7.6.2 of ISO C11.
   */
  function Assemble(lines: seq<string>): (r: Outcome<Assembled>)
    ensures r.Defined? && r.value.Rejected? ==> |r.value.errors| > 0
    ensures FirstPass(lines).Defined? ==>
              (FirstPass(lines).value.count + FirstPass(lines).value.ldrCount == 0 ==> r == UndefinedBehaviour)
    ensures r.Defined? ==>
              FirstPass(lines).Defined?
              && var l := FirstPass(lines).value;
                 l.count + l.ldrCount > 0
                 && SecondPass(lines, Wrap(l.count), l.labels, l.errors).Defined?
                 && var p := SecondPass(lines, Wrap(l.count), l.labels, l.errors).value;
                    |p.code| + |p.literals| <= l.count + l.ldrCount
                    && (r.value.Binary? <==> p.errors == [])
                    && (r.value.Binary? ==> r.value.words == p.code + p.literals)
                    && (r.value.Rejected? ==> r.value.errors == p.errors)
  {
    match FirstPass(lines)
    case UndefinedBehaviour => UndefinedBehaviour
    case Defined(l) =>
      if l.count + l.ldrCount == 0 then UndefinedBehaviour
      else
        match SecondPass(lines, Wrap(l.count), l.labels, l.errors)
        case UndefinedBehaviour => UndefinedBehaviour
        case Defined(p) =>
          if |p.code| + |p.literals| > l.count + l.ldrCount then UndefinedBehaviour
          else if |p.errors| > 0 then Defined(Rejected(p.errors))
          else Defined(Binary(p.code + p.literals))
  }

  /**
    The second pass never writes past the instruction array: it decodes at
    most as many instructions as the first pass counted, and pools at most
    as many literals as it counted `ldr`s. So when both passes are defined,
    `main` is defined exactly when the array has at least one word.
   */
  lemma SecondPassFits(lines: seq<string>)
    requires FirstPass(lines).Defined?
    ensures var l := FirstPass(lines).value;
            SecondPass(lines, Wrap(l.count), l.labels, l.errors).Defined? ==>
              var p := SecondPass(lines, Wrap(l.count), l.labels, l.errors).value;
              |p.code| <= l.count && |p.literals| <= l.ldrCount
              && (Assemble(lines).Defined? <==> l.count + l.ldrCount > 0)
  {
    FirstPassComputesDefinitions(lines);
    LinesCounted(lines, 0);
    var ts := Stream(lines);
    BeforeAndFrom(ts, |ts|, Counted);
    BeforeAndFrom(ts, |ts|, CountedLdr);
  }

  /** An empty file declares an instruction array of length 0. */
  lemma EmptyFileUndefined()
    ensures FirstPass([]).Defined? && FirstPass([]).value.count + FirstPass([]).value.ldrCount == 0
    ensures Assemble([]) == UndefinedBehaviour
  {
    FirstPassComputesDefinitions([]);
  }

  /**
    A program with a label defined twice, or any error of either pass, is
    rejected with every error in order, those of the first pass first; only
    an error-free program is written out.
   */
  lemma AssembleReports(lines: seq<string>)
    requires Assemble(lines).Defined?
    ensures Nonempty(Stream(lines))
    ensures var ts := Stream(lines);
            match Assemble(lines).value
            case Rejected(errors) => RedefinitionsBefore(ts, |ts|) <= errors
            case Binary(words) => RedefinitionsBefore(ts, |ts|) == []
  {
    FirstPassComputesDefinitions(lines);
  }
}
